=== FILE: README.md ===
# pollen-wp-app routing core, in Dafny

This project models the routing core of the `pollen-wp-app` WordPress
application framework, with proofs about it:

- **Router.** How the `Router` composes route paths from its memoised base
  prefix. It defaults the strategy and, inside WordPress's `parse_request`
  hook, decides whether to emit a response or defer to WordPress (status 100).
- **Request.** How `Request` derives the rewrite base from `APP_URL` and
  `CONTEXT_PREFIX`, and memoises the global request.
- **Strategies.** How the route strategies are chosen by container alias.
  `ApplicationStrategy` and `JsonStrategy` call the handler and coerce its
  return value. `WpTemplateStrategy` (1.0 and 1.1) returns the status-100
  sentinel and registers the hooks that suppress WordPress's own query.
- **Template fallback.** How the fallback controllers (`WpFallbackController`
  in 1.1, `WpBaseController` in 1.0) scan the WordPress conditional tags for
  the first one that yields a response, with a 404 default.
- **Parameter bags.** The dotted-key parameter bag `ParamsBag` and its lazy
  front-end `ConfigBagTrait`.
- **HTML attributes.** The attribute serialiser `HtmlAttrs`, including
  `rawurlencode` (section 2.3 of RFC 3986 defines the characters it leaves
  alone).
- **Users.** The role registry `UserRoleManager` and the admin gate
  `WpAdminMiddleware`.
- **Queries.** The query wrappers `QueryPost`, `QueryTerm` and `TermQuery`:
  argument building, class choice, `create`/`fetch` dispatch and
  type/taxonomy membership.

Everything is a pure function over immutable values. Mutable PHP objects
(the router, a bag, the role manager, the statics of a query class) are
records, and an operation returns the new record. PHP arrays are ordered
lists of key/value entries (`Php.PArray`), and integer keys are kept in
their canonical decimal form. Loose comparison follows PHP 8.

WordPress, the dependency-injection container, `json_encode`, the view
renderer and route matching are inputs:
- function-typed parameters or record fields (`Http.Globals`,
  `TemplateFallback.Wp`, `QueryPost.PostWp`, `Terms.TermWp`,
  `Strategies.Container`, `Php.ClassTable`);
- the matcher's verdict, given to `Routing.Dispatch`: a route and its variables, no route for the path, or routes for it under other methods only.

Files:
- `wrappers.dfy`, `text.dfy`, `php.dfy`: options and results, string
  helpers, and PHP array and comparison semantics;
- `http.dfy`: responses, default headers and `Request`;
- `params_bag.dfy`, `config_bag.dfy`: the bags;
- `url_encoding.dfy`, `html_attrs.dfy`: the attribute serialiser;
- `strategy.dfy`: strategy selection and invocation;
- `router.dfy`: the router;
- `template_fallback.dfy`: the fallback controllers;
- `users.dfy`: roles and the admin gate;
- `query_post.dfy`, `query_term.dfy`: the query wrappers.

## Model

| member | source | states |
|---|---|---|
| `Routing.NormalizePrefix` | src/Routing/Router.php:112 | A falsy prefix normalises to `''`. Any other gives `/` followed by the prefix with its leading and trailing runs of `/` removed (`Text.Stripped`). So it starts with exactly one `/` and does not end with one, unless it is `/` itself. A prefix made only of slashes gives `/`. |
| `Routing.NormalizePrefixValue` | src/Routing/Router.php:112 | For every truthy prefix, the normal form is `/` plus any slash-stripping of the prefix. The stripping is unique, so the value is pinned. |
| `Text.Trim` | src/Routing/Router.php:112 | `rtrim(ltrim(s, c), c)` is a slice of `s` with only `c` before and after it and no `c` at either end. |
| `Text.SlashTrimmed` | src/Http/Request.php:79 | `'/' . rtrim(ltrim(s, '/'), '/')` is one `/` followed by the slash-stripping of `s`. |
| `Text.SlashTrimmedValue` | src/Routing/Router.php:112 | That result is `/` plus any slash-stripping of `s`, for every `s`. |
| `Text.StrippedIsTrim` | src/Routing/Router.php:112 | Every slice of that kind is what `rtrim(ltrim(s, c), c)` returns, so there is exactly one. |
| `Routing.NormalizePrefixIdempotent` | src/Routing/Router.php:112 | Normalising a normalised prefix changes nothing. |
| `Routing.NormalizedIsFixed` | src/Routing/Router.php:112 | `/` followed by a slash-trimmed text is already normal. |
| `Routing.GetBasePrefix` | src/Routing/Router.php:109-115 | The first read normalises the stored prefix and memoises it. Every later read returns the memo and leaves the router unchanged. |
| `Routing.SetBasePrefix` | src/Routing/Router.php:167-172 | Only the stored prefix changes; the memo is untouched. |
| `Routing.BasePrefixMemoised` | src/Routing/Router.php:111-114 | After one read, setting another prefix does not change what is read. |
| `Routing.SetBeforeFirstRead` | src/Routing/Router.php:167-172 | Before the first read, the prefix set last is the one normalised. |
| `Routing.Map` | src/Routing/Router.php:140-152 | The route's path is the base prefix, `/`, then the caller's path without leading slashes. Exactly one route is appended, after the earlier ones. The route carries the router's container. Groups, container and strategy are unchanged. |
| `Routing.MapLeadingSlash` | src/Routing/Router.php:142 | Extra leading slashes on the caller's path make no difference. |
| `Routing.MapPathShape` | src/Routing/Router.php:142 | The stored path is the prefix, then exactly one slash, then text that does not start with a slash. |
| `Routing.MapKeepsTrailingSlash` | src/Routing/Router.php:142 | A trailing slash on the caller's path is kept. |
| `Routing.AddGroup` | src/Routing/Router.php:122-133 | One group is appended, with its prefix exactly as given (not prefixed) and the router's container. Routes are unchanged. |
| `Routing.RouteStrategy` | src/Routing/Concerns/StrategyAwareTrait.php:19-31 | Selecting a strategy on a route succeeds or fails exactly as alias selection does against the route's own container. |
| `Routing.MappedRouteSelectsTemplate` | src/Routing/Router.php:145-147 | A route mapped on a router holding the provider's container can select `wp-template`. A route mapped without a container fails with the missing-container error. |
| `Routing.EnsureStrategy` | src/Routing/Router.php:100-102 | An `ApplicationStrategy` is installed only when no strategy is set. An existing strategy is kept as it is. |
| `Routing.EffectiveStrategy` | src/Routing/Router.php:103 | A route's own strategy wins over the router's. |
| `Routing.Dispatch` | src/Routing/Router.php:98-104 | The strategy is defaulted first. An unmatched request gets the 404 or 405 JSON response when the router's strategy is the JSON one, and the not-found or not-allowed exception otherwise. A matched route runs its handler through its effective strategy; under the JSON strategy a throw is caught by the JSON throwable handler. |
| `Routing.UnmatchedJson` | wp-app/branches/1.1/src/Routing/Strategy/JsonStrategy.php:14 | The JSON strategy inherited from League answers not-found with status 404 and not-allowed with status 405 plus an `Allow` header listing the methods. Both carry `content-type: application/json` and a JSON body of the status code and reason phrase. |
| `Routing.CatchJson` | wp-app/branches/1.1/src/Routing/Strategy/JsonStrategy.php:14 | A success passes through. A throw becomes a 500 response with the JSON content type whose body is the encoded status and message. A failed encoding is an `Error`. |
| `Routing.UnmatchedOutcome` | src/Routing/Router.php:55-62 | An unmatched request under a JSON router is emitted as the 404 or 405 JSON response. Under any other strategy its exception is swallowed and WordPress carries on. |
| `Routing.JsonRouteNeverSwallowed` | src/Routing/Router.php:55-62 | A route run by the JSON strategy never ends in a swallowed exception. The hook fails with an `Error` exactly when the handler threw and its message could not be encoded. |
| `Routing.Decide` | src/Routing/Router.php:55-62 | The response is emitted if and only if the dispatch succeeded with a status other than 100. Status 100 defers to WordPress. An `Exception` is swallowed. An `Error` propagates. |
| `Routing.ParseRequest` | src/Routing/Router.php:50-62 | The hook dispatches the memoised global request and decides on the result. |
| `Routing.TemplateRouteDefers` | src/Routing/Router.php:58 | A route whose effective strategy is the WordPress template strategy is never emitted by the router. |
| `Routing.DefaultStrategyEmitsString` | src/Routing/Router.php:100-102 | With no strategy set anywhere, a handler returning a string is emitted with status 200 and that string as body. |
| `Routing.NewRouter` | src/Routing/Router.php:40-48 | The stored base prefix is the rewrite base of the global request. The container is the one given. The router starts with no routes, groups, strategy or memo. |
| `Routing.NewRouterPrefixFromAppUrl` | src/Routing/Router.php:48 | When `APP_URL` lies under the request's host, the first read of the prefix is that rewrite base, unchanged by normalisation. |
| `Http.RewriteBase` | src/Http/Request.php:75-85 | If `APP_URL` is truthy and starts, case-sensitively, with scheme and host, the result is `/` followed by the first line of the rest of `APP_URL`, with its leading and trailing runs of `/` removed. So it starts with one `/` and, unless it is `/`, does not end with one. If `APP_URL` is truthy and does not, the result is `''`. Otherwise it is `CONTEXT_PREFIX` untrimmed, default `''`. |
| `Http.RewriteBaseValue` | src/Http/Request.php:78-79 | Under the host, the rewrite base is `/` plus any slash-stripping of the rest's first line, for every `APP_URL`. |
| `Http.RewriteBaseAtRoot` | src/Http/Request.php:78-79 | An `APP_URL` equal to the scheme and host gives `/`, not `''`. |
| `Http.RewriteBaseStopsAtNewline` | src/Http/Request.php:78 | The captured rest ends at the first newline, since the pattern's `.` stops there. |
| `Http.GetFromGlobals` | src/Http/Request.php:64-70 | The request is built on the first call and stored. Later calls return the stored one. |
| `Http.GlobalsMemoised` | src/Http/Request.php:64-70 | A second call returns the first call's request, whatever the globals hold by then. |
| `Http.CreatePsr` | src/Http/Request.php:50-59 | A given request is converted. Without one, the memoised global request is converted. |
| `Http.CreateFromBase` | src/Http/Request.php:25-37 | The headers are replaced by the base request's, and its raw content is copied. Everything else comes from the duplicate. |
| `Http.CreateFromBaseReplacesHeaders` | src/Http/Request.php:32 | The duplicate's own headers never survive. |
| `Http.Decorate` | wp-app/trunk/src/Routing/Strategy/ApplicationStrategy.php:32 | Status, body and existing headers are kept. Every default header is present afterwards. Every header added is one of the defaults, and the response had no header of its name. |
| `Http.AddIfMissing` | wp-app/trunk/src/Routing/Strategy/ApplicationStrategy.php:32 | One default is appended exactly when the response has no header of its name; otherwise the response is unchanged. |
| `Http.OnlyMissingIff` | wp-app/trunk/src/Routing/Strategy/ApplicationStrategy.php:32 | The recursive "only missing defaults" condition in `Decorate`'s contract says, of every added header, that it is a default and that its name was absent. |
| `Http.DecorateIdempotent` | wp-app/branches/1.1/src/Routing/Strategy/JsonStrategy.php:33 | Decorating twice is decorating once. |
| `Strategies.SelectStrategy` | src/Routing/Concerns/StrategyAwareTrait.php:19-31 | No container is the first error. A container without `routing.strategy.<alias>` is the second. On success the strategy is the container's entry. |
| `Strategies.ProviderAliases` | src/Routing/RoutingServiceProvider.php:40-49 | With the provider's container, an alias resolves if and only if it is `app`, `json` or `wp-template`. |
| `Strategies.BuildArgs` | wp-app/trunk/src/Routing/Strategy/ApplicationStrategy.php:23-25 | The handler's arguments are the route variables' values in order, then the request. |
| `Strategies.CoerceApplication` | wp-app/trunk/src/Routing/Strategy/ApplicationStrategy.php:27-30 | An application response is converted and a PSR response passes through. A string becomes the body. Any other value gives an empty 200 response. |
| `Strategies.InvokeApplication` | wp-app/trunk/src/Routing/Strategy/ApplicationStrategy.php:19-33 | The call succeeds exactly when the coercion does. Status and body come from the coerced response, whose headers stay in front. Every default header is present. |
| `Strategies.CoerceJson` | wp-app/branches/1.1/src/Routing/Strategy/JsonStrategy.php:27-31 | An array or object becomes a response whose body is its JSON text, and a failed encoding is an error. Any other value gives an empty response. Responses pass through. |
| `Strategies.InvokeJson` | wp-app/branches/1.1/src/Routing/Strategy/JsonStrategy.php:19-34 | The call succeeds exactly when the coercion does. Status and body come from the coerced response, whose headers stay in front. The only headers added are JSON defaults the response lacked, and a `content-type` header is always present. |
| `Strategies.JsonContentType` | wp-app/branches/1.1/src/Routing/Strategy/JsonStrategy.php:33 | A response that names a content type keeps its headers exactly. One that does not gets `content-type: application/json` appended and nothing else. |
| `Strategies.JsonDropsStrings` | wp-app/branches/1.1/src/Routing/Strategy/JsonStrategy.php:30-31 | A handler returning a string gets an empty body under the JSON strategy. |
| `Strategies.OnPreGetPosts` | wp-app/branches/1.1/src/Routing/WpTemplateStrategy.php:64-71 | On the main front-end query, all 27 listed tags become false, the query vars are reset and the query is unset; other flags are kept. Any other query is untouched. |
| `Strategies.OnPreGetPostsIdempotent` | wp-app/branches/1.1/src/Routing/WpTemplateStrategy.php:64-71 | Running the closure twice is running it once. |
| `Strategies.OnWp` | wp-app/branches/1.1/src/Routing/WpTemplateStrategy.php:78-84 | On the main front-end query, `is_404` becomes false, `query` becomes `[]` and status 200 is sent. Other queries are untouched. |
| `Strategies.OnPostsPreQuery` | wp-app/branches/1.1/src/Routing/WpTemplateStrategy.php:89-94 | The main front-end query gets no posts. Any other query gets its incoming value back. |
| `Strategies.InvokeWpTemplate` | wp-app/branches/1.1/src/Routing/WpTemplateStrategy.php:59-101 | The response always has status 100. In 1.1, hooks are registered if and only if the query is disabled: exactly the three suppression hooks. In 1.0, a `template_redirect` hook is always registered last, after the suppression hooks when the query is disabled. |
| `Strategies.DisableWpQuery` | wp-app/branches/1.1/src/Routing/WpTemplateStrategy.php:108-113 | The flag is set and the version kept; on a strategy already disabled it changes nothing. |
| `Strategies.Invoke` | wp-app/branches/1.0/src/Routing/Strategy/WpTemplateStrategy.php:73-126 | The template strategy always succeeds with status 100, in both versions. The other strategies run their own invocation. |
| `TemplateFallback.TemplateTagsAreKeys` | wp-app/branches/1.1/src/Routing/WpFallbackController.php:19-37 | The scanned tags are the keys of the tag→template map, in declared order. |
| `TemplateFallback.ChosenTemplate` | wp-app/branches/1.1/src/Routing/WpFallbackController.php:75-81 | A tag's own template is used when truthy, else the index template. |
| `TemplateFallback.FileNameOfTemplate` | wp-app/branches/1.1/src/Routing/WpFallbackController.php:84-96 | For a `.php` file in a directory, `pathinfo`'s file name is the stem. |
| `TemplateFallback.ViewNameOfTemplate` | wp-app/branches/1.1/src/Routing/WpFallbackController.php:84-96 | A template directly in the template directory renders the view named by its stem. |
| `TemplateFallback.TagResponse` | wp-app/branches/1.1/src/Routing/WpFallbackController.php:67-99 | A controller method named camelCase(tag) answers and skips template lookup. Otherwise a truthy `template_include` result renders its view: with the controller's params in 1.0, without them in 1.1. A falsy one gives `null`. |
| `TemplateFallback.HandleTagAsWritten` | wp-app/branches/1.1/src/Routing/WpFallbackController.php:75-78 | As written, the `prepend_attachment` filter is removed only for the tag `'attachment'`, and never for a listed tag, since none is `'attachment'`. |
| `TemplateFallback.HandleTag` | wp-app/branches/1.0/src/Routing/WpBaseController.php:63-88 | Corrected: the filter is removed exactly for `is_attachment`, when no method takes over and the attachment template exists. |
| `TemplateFallback.AttachmentFilterNeverRemoved` | wp-app/branches/1.0/src/Routing/WpBaseController.php:71 | For a real attachment page, the as-written handler leaves the filter and the corrected one removes it. |
| `TemplateFallback.Scan` | wp-app/branches/1.1/src/Routing/WpFallbackController.php:51-53 | The scan finds no response if and only if no tag both holds and yields one. |
| `TemplateFallback.ScanFirstMatch` | wp-app/branches/1.0/src/Routing/WpBaseController.php:46-49 | The response is that of the first tag in order that holds and yields one. Tags that fail or yield `null` are passed over. |
| `TemplateFallback.Dispatch` | wp-app/branches/1.1/src/Routing/WpFallbackController.php:49-57 | The first answering tag wins. With none, the answer is the 404 response `Template unavailable`. As written, the attachment filter is never removed. |
| `TemplateFallback.ScanKeepsFilter` | wp-app/branches/1.1/src/Routing/WpFallbackController.php:51-53 | When no tag removes the filter when handled, the scan does not remove it either. |
| `TemplateFallback.ScanUnhooksAt` | wp-app/branches/1.1/src/Routing/WpFallbackController.php:51-53 | A tag that holds and removes the filter, reached before any tag answers, leaves the filter removed. |
| `TemplateFallback.DispatchCorrected` | wp-app/branches/1.0/src/Routing/WpBaseController.php:43-88 | With the test against `is_attachment`, the response is the same as written. The filter is removed only on an attachment page with no method for it and an existing attachment template, and always when the scan reaches `is_attachment` on such a page. |
| `TemplateFallback.ScanLoop` | wp-app/branches/1.0/src/Routing/WpBaseController.php:43-53 | The early-returning loop computes the same result as the scan. |
| `TemplateFallback.DispatchLoop` | wp-app/branches/1.1/src/Routing/WpFallbackController.php:49-57 | The loop form of `dispatch` equals the as-written dispatch: the scan with the 404 default. |
| `TemplateFallback.MethodWins` | wp-app/branches/1.1/src/Routing/WpFallbackController.php:69-73 | Example, for the first tag (`is_embed`) only: when that tag holds and the controller has its method, that method's response is the answer. |
| `ParamsBag.Get` | wp-app/trunk/src/Support/ParamsBag.php:144-147 | The value found at the literal or dotted key, else the default. |
| `ParamsBag.Has` | wp-app/trunk/src/Support/ParamsBag.php:164-167 | `has` holds exactly when `get` finds a value, so `get` falls back to its default exactly when `has` fails. |
| `ParamsBag.Set` | wp-app/trunk/src/Support/ParamsBag.php:307-318 | Writing a dotted key touches only its first segment's top-level entry. |
| `ParamsBag.GetAfterSet` | wp-app/trunk/src/Support/ParamsBag.php:144-147 | After `set(k, v)`, `get(k)` is `v` and `has(k)` holds, unless a literal dotted key shadows the path. |
| `ParamsBag.SetUnderShadowedKey` | wp-app/trunk/src/Support/ParamsBag.php:307-318 | Example, on one fixed bag: a literal `a.b` key keeps answering reads after `set('a.b', …)` writes the nested path. |
| `ParamsBag.SetAll` | wp-app/trunk/src/Support/ParamsBag.php:307-318 | Writing an array pair by pair leaves every top-level key alone that is not the first segment of one of its keys. Unique keys stay unique. |
| `ParamsBag.SetAllFlat` | wp-app/trunk/src/Support/ParamsBag.php:309-315 | An array given to `set` is applied pair by pair: a key takes the array's value when listed and keeps its own otherwise. |
| `ParamsBag.Forget` | wp-app/trunk/src/Support/ParamsBag.php:131-134 | Forgetting keys leaves alone every top-level key that is neither one of them nor the first segment of one. |
| `ParamsBag.ForgetOne` | wp-app/trunk/src/Support/ParamsBag.php:131-134 | A literal key is removed if present; otherwise the dotted path is. |
| `ParamsBag.ForgetRemovesSubtree` | wp-app/trunk/src/Support/ParamsBag.php:131-134 | After `forget(k)`, `has(k)` fails and nothing under `k` resolves. Every path branching off `k` reads as before. |
| `ParamsBag.ForgetKeysReusesCursor` | wp-app/trunk/src/Support/ParamsBag.php:133 | Example, on one fixed bag: with several keys, a later key's literal test runs on the nested array an earlier dotted key walked into. |
| `ParamsBag.Pull` | wp-app/trunk/src/Support/ParamsBag.php:269-272 | Returns the value found, or else the default. The bag is the one `forget(k)` leaves: the key is gone unless a literal dotted key shadows the path, and every top-level key other than `k` and its first segment is unchanged. |
| `ParamsBag.Push` | wp-app/trunk/src/Support/ParamsBag.php:282-296 | A missing key becomes `[v]`. An array gets `v` appended after its values. A non-array leaves the bag unchanged. Every top-level key other than the key's first segment is unchanged. |
| `ParamsBag.Unshift` | wp-app/trunk/src/Support/ParamsBag.php:328-342 | A missing key becomes `[v]`. An array gets `v` in front, renumbered. A non-array leaves the bag unchanged. Every top-level key other than the key's first segment is unchanged. |
| `ParamsBag.Count` | wp-app/trunk/src/Support/ParamsBag.php:109-112 | The count is the length of both `keys()` and `values()`. |
| `ParamsBag.KeysValuesAlign` | wp-app/trunk/src/Support/ParamsBag.php:187-190 | The i-th key of `keys()` looks up the i-th entry of `values()`. Both range over top-level entries. |
| `ParamsBag.Clear` | wp-app/trunk/src/Support/ParamsBag.php:97-102 | Afterwards the count is 0 and no key is found. |
| `ParamsBag.Only` | wp-app/trunk/src/Support/ParamsBag.php:244-247 | Exactly the listed top-level keys, with their values. |
| `ParamsBag.OffsetExists` | wp-app/trunk/src/Support/ParamsBag.php:208-211 | `isset($bag[k])` holds exactly when the literal key `k` is present with a non-null value. It implies `has(k)`. |
| `ParamsBag.NullKeyHasButNotExists` | wp-app/trunk/src/Support/ParamsBag.php:208-211 | A key holding `null` satisfies `has` but not `offsetExists`. |
| `ParamsBag.OffsetGet` | wp-app/trunk/src/Support/ParamsBag.php:144-147 | A string offset reads through `get`, dotted paths included, with default `''`. Any other offset is refused by `get(string $key)` under strict types: an error exactly then. |
| `ParamsBag.OffsetGetIsDotted` | wp-app/trunk/src/Support/ParamsBag.php:208-219 | `$bag['a.b']` reads the nested value while `isset($bag['a.b'])` is false. |
| `ParamsBag.OffsetSet` | wp-app/trunk/src/Support/ParamsBag.php:224-227 | A literal write leaves every other key alone. With no key (`$bag[] = $v`), the value is stored under `''`, replacing any entry there. |
| `ParamsBag.NullOffsetOverwrites` | wp-app/trunk/src/Support/ParamsBag.php:224-227 | Two `$bag[] = …` writes land on the same key `''`, so the second replaces the first. |
| `ParamsBag.OffsetUnset` | wp-app/trunk/src/Support/ParamsBag.php:232-235 | The literal key is removed and nothing else. |
| `ParamsBag.Parse` | wp-app/trunk/src/Support/ParamsBag.php:254-259 | For a string key, the bag's value wins and the default fills in only when the key is missing. |
| `ParamsBag.CreateFromAttrs` | wp-app/trunk/src/Support/ParamsBag.php:28-31 | With flat, unique string keys, a created bag holds each given attribute and takes the defaults for the rest. |
| `ConfigBag.EnsureBag` | wp-app/branches/1.1/src/Support/Concerns/ConfigBagTrait.php:40-42 | The existing bag is reused; otherwise one is created from `defaultConfig()`. |
| `ConfigBag.Config` | wp-app/branches/1.1/src/Support/Concerns/ConfigBagTrait.php:38-53 | Null returns the bag, and a string reads it with the given default. An array is written through `set` and returns the bag. Any other key is an invalid-argument error. The bag exists afterwards in every case. |
| `ConfigBag.SetConfig` | wp-app/branches/1.1/src/Support/Concerns/ConfigBagTrait.php:72-77 | The parameters are written into the (possibly new) bag. |
| `ConfigBag.CreatedOnce` | wp-app/branches/1.1/src/Support/Concerns/ConfigBagTrait.php:40-42 | A second call works on the bag the first one created. |
| `ConfigBag.ReadAfterSetConfig` | wp-app/branches/1.1/src/Support/Concerns/ConfigBagTrait.php:46-47 | A value written by `setConfig` under a flat key is what `config(key)` returns. |
| `HtmlAttrs.ArrayEncode` | wp-app/branches/1.0/src/Support/HtmlAttrs.php:70-73 | The result percent-decodes to the JSON text's bytes. It holds no `"` and no space, and it fails exactly when the encoding does. |
| `HtmlAttrs.ValueText` | wp-app/branches/1.0/src/Support/HtmlAttrs.php:99-101 | A string is inserted verbatim. An array is encoded. An object cannot be interpolated. An integer gives its decimal digits, with a leading `-` when negative. `true` gives `1`; `false` and `null` give the empty string. |
| `HtmlAttrs.Fragment` | wp-app/branches/1.0/src/Support/HtmlAttrs.php:97-103 | A numeric key yields the bare value; any other key yields `key="value"`. |
| `HtmlAttrs.IntKeyBareValue` | wp-app/branches/1.0/src/Support/HtmlAttrs.php:102 | An integer key yields the value text alone, unescaped, for every value; a value with no text fails the same way. |
| `HtmlAttrs.ArrayFragmentShape` | wp-app/branches/1.0/src/Support/HtmlAttrs.php:99-102 | A named array attribute is quoted, and its quoted part decodes back to the JSON text. |
| `HtmlAttrs.Fragments` | wp-app/branches/1.0/src/Support/HtmlAttrs.php:82-86 | One fragment per entry, in entry order. |
| `HtmlAttrs.Set` | wp-app/branches/1.0/src/Support/HtmlAttrs.php:82-86 | New fragments are appended after the existing ones. |
| `HtmlAttrs.New` | wp-app/branches/1.0/src/Support/HtmlAttrs.php:22-25 | Each entry yields exactly one fragment, in order. |
| `HtmlAttrs.SetTwiceDuplicates` | wp-app/branches/1.0/src/Support/HtmlAttrs.php:82-86 | Setting the same entries twice keeps both copies. |
| `HtmlAttrs.ToString` | wp-app/branches/1.0/src/Support/HtmlAttrs.php:32-35 | No fragments give `''`, and one fragment gives itself. |
| `HtmlAttrs.ToStringSplits` | wp-app/branches/1.0/src/Support/HtmlAttrs.php:32-35 | The string splits back into the fragments on single spaces. |
| `HtmlAttrs.CreateFromAttrs` | wp-app/branches/1.0/src/Support/HtmlAttrs.php:45-50 | Linearised, the result is the joined string; otherwise it is the fragment list. |
| `UrlEncoding.RawUrlEncode` | wp-app/branches/1.0/src/Support/HtmlAttrs.php:72 | Only unreserved characters and `%` escapes appear, so there is no quote and no space. |
| `UrlEncoding.DecodeRawUrlEncode` | wp-app/branches/1.0/src/Support/HtmlAttrs.php:72 | Percent-decoding the result gives back the string's UTF-8 bytes. |
| `UrlEncoding.RawUrlEncodeUnreserved` | wp-app/branches/1.0/src/Support/HtmlAttrs.php:72 | Text made of unreserved characters is left as it is. |
| `Users.GetRole` | src/User/UserRoleManager.php:33-36 | The registered role, or `null` when none is registered. |
| `Users.RoleFor` | src/User/UserRoleManager.php:43-47 | A factory is stored as it is. An array is wrapped with those arguments. Anything else is wrapped with `[]`. |
| `Users.Register` | wp-app/branches/1.1/src/User/UserRoleManager.php:41-51 | The name gets the new role and every other name keeps its own. |
| `Users.RegisterOverwrites` | src/User/UserRoleManager.php:48-50 | Registering a name twice keeps only the second registration. |
| `Users.RegisterCommutes` | wp-app/branches/1.1/src/User/UserRoleManager.php:48-50 | Registrations under different names commute. |
| `Users.NewAdminMiddleware` | src/Middleware/WpAdminMiddleware.php:28-33 | An empty list keeps the defaults `editor`, `administrator` and `author`. A non-empty one replaces them. |
| `Users.SetAllowedRoles` | src/Middleware/WpAdminMiddleware.php:62-67 | The list is replaced. |
| `Users.ProcessAsWritten` | src/Middleware/WpAdminMiddleware.php:40-53 | As written, a logged-in request whose user lookup throws ends in an `Error` (a method called on `null`). Otherwise it behaves as `Process`. |
| `Users.Process` | src/Middleware/WpAdminMiddleware.php:48-52 | The handler runs if and only if the user is logged in, found, and has the `administrator` role. Every other request is forbidden with `Sorry, this user is not allowed.`. |
| `Users.AllowedRolesIgnored` | src/Middleware/WpAdminMiddleware.php:40-53 | Two gates with different allowed-role lists decide alike. |
| `Users.EditorForbidden` | src/Middleware/WpAdminMiddleware.php:23 | An editor is in the default list and is still forbidden. |
| `Users.NullUserCrashes` | src/Middleware/WpAdminMiddleware.php:42-46 | A failed lookup ends in an `Error` as written and in the forbidden response as corrected. |
| `QueryPost.SetBuiltInClass` | src/Query/QueryPost.php:271-278 | `'any'` sets only the fallback class. Any other type sets its own entry and leaves the other entries and the fallback alone. |
| `QueryPost.Build` | src/Query/QueryPost.php:96-108 | A non-post gives `null`. The class is the type's entry, else a truthy fallback, else the called class. A class that does not exist is replaced by the called class. |
| `QueryPost.BuildAfterSetBuiltInClass` | src/Query/QueryPost.php:276 | A registered, existing class is the class of posts of that type built afterwards. |
| `QueryPost.BuildAfterSetAny` | src/Query/QueryPost.php:273-274 | A class registered for `'any'` serves every type without an entry of its own. |
| `QueryPost.TypeInShapes` | src/Query/QueryPost.php:626-629 | A single type is matched by loose equality and a list by loose membership; `null` matches nothing. |
| `QueryPost.IsOwnClass` | src/Query/QueryPost.php:250-254 | Asked of its own class, `is` holds exactly when the type test passes or the post type restricts nothing. A non-instance never passes. |
| `QueryPost.IsUnrestricted` | src/Query/QueryPost.php:252-253 | With post type `'any'` or falsy, `is` is just `instanceof`. |
| `QueryPost.CreateFromId` | src/Query/QueryPost.php:143-154 | An instance exactly when the id is non-zero, WordPress has the post, and the type test passes; it wraps that post. |
| `QueryPost.CreateFromGlobal` | src/Query/QueryPost.php:133-138 | No global post gives `null`. Otherwise the global post is looked up again by id. |
| `QueryPost.CreateFromName` | src/Query/QueryPost.php:159-164 | An instance only when the name query found exactly one post; it wraps that query's first post. |
| `QueryPost.Create` | src/Query/QueryPost.php:113-128 | Numbers and numeric strings are ids, recognised before strings; other strings are names. A `WP_Post` is built as `Build` builds it, so its class is the one the post type selects, and an instance is looked up again. `null` takes the global post. Booleans, arrays and other objects give `null`. |
| `QueryPost.CreateNumericString` | src/Query/QueryPost.php:115-116 | `create('42')` is the id lookup of post 42. |
| `QueryPost.CreateFromWpPostSkipsIs` | src/Query/QueryPost.php:119-120 | A `WP_Post` of a foreign type is built by `create` although `createFromId` rejects it. |
| `QueryPost.ParseQueryArgs` | src/Query/QueryPost.php:259-266 | `post_type` is always set in the merged arguments. |
| `QueryPost.ParseQueryArgsKeys` | src/Query/QueryPost.php:259-266 | A caller's non-null `post_type` is kept. A missing one becomes the class's type, or `'any'` when that is falsy. Every other string key comes from the caller, else from the defaults. |
| `QueryPost.FetchFromWpQuery` | src/Query/QueryPost.php:225-245 | At most one result per post. When the post type restricts, every result's type is in it. |
| `QueryPost.FetchTypeFilterRedundant` | src/Query/QueryPost.php:235-241 | The type filter removes nothing: the result is the successful lookups, in order. |
| `QueryPost.FetchAppend` | src/Query/QueryPost.php:230-242 | Order is preserved: fetching two runs of posts concatenates their results. |
| `QueryPost.FetchOne` | src/Query/QueryPost.php:231-233 | A post whose lookup fails is skipped; one whose lookup succeeds is its instance. |
| `QueryPost.IdsArgsKeys` | src/Query/QueryPost.php:214 | The id query carries `post__in`, `posts_per_page` equal to the count, and the post type. |
| `QueryPost.FetchFromIds` | src/Query/QueryPost.php:211-220 | No ids give `[]` without running a query. |
| `QueryPost.Fetch` | src/Query/QueryPost.php:177-188 | An array is query arguments and a `WP_Query` is read directly. `null` reads the global query. Anything else gives `[]`. |
| `Terms.SetBuiltInClass` | src/Query/QueryTerm.php:255-262 | `'any'` sets only the fallback class. Any other taxonomy sets its own entry. |
| `Terms.TaxInLooseWider` | src/Query/QueryTerm.php:371-374 | `TermQuery`'s strict membership implies `QueryTerm`'s loose one, and not conversely: taxonomy `1` is loosely in `01`. |
| `Terms.Build` | src/Term/TermQuery.php:79-91 | A non-term gives `null`. The class is the taxonomy's entry, else a truthy fallback, else the called class. |
| `Terms.BuildAfterSetBuiltInClass` | src/Term/TermQuery.php:235-242 | A registered, existing class is the class of terms of that taxonomy built afterwards. |
| `Terms.IsOwnClass` | src/Query/QueryTerm.php:230-234 | Asked of its own class, `is` reduces to the taxonomy test. |
| `Terms.CreateFromId` | src/Term/TermQuery.php:133-142 | An instance exactly when the id is non-zero, WordPress has the term, and the taxonomy test of the class passes. |
| `Terms.CreateFromGlobal` | src/Query/QueryTerm.php:120-126 | Only on a taxonomy, category or tag archive; then the queried object. |
| `Terms.CreateFromSlug` | src/Query/QueryTerm.php:147-152 | The term found by slug, in the given taxonomy or else the class taxonomy, looked up again by id. |
| `Terms.Create` | src/Query/QueryTerm.php:96-115 | Numbers before strings, strings are slugs. A `WP_Term` is built as `Build` builds it. With `null`, the global term is returned only when a truthy class taxonomy is identical to its own. |
| `Terms.CreateNumericString` | src/Term/TermQuery.php:98-99 | `create('7')` is the id lookup of term 7. |
| `Terms.GlobalTaxonomyExact` | src/Query/QueryTerm.php:107-108 | The global term's taxonomy is compared with `===`, even where `taxIn` would accept it loosely. |
| `Terms.ParseQueryArgs` | src/Query/QueryTerm.php:239-250 | `hide_empty` is always set in the merged arguments, and a truthy class taxonomy is the `taxonomy` argument. |
| `Terms.ParseQueryArgsKeys` | src/Query/QueryTerm.php:239-250 | A truthy class taxonomy overrides the caller's. `hide_empty` gets the class value only when not set. Other keys come from the caller, else from the defaults. |
| `Terms.IdsArgsKeys` | src/Term/TermQuery.php:179-182 | The id query carries `include` and the class's `hide_empty`. |
| `Terms.FetchFromWpTermQuery` | src/Term/TermQuery.php:187-205 | At most one result per term. Under a restricting taxonomy, every result passes `taxIn`. |
| `Terms.FetchTaxonomyFilterRedundant` | src/Term/TermQuery.php:194-200 | The taxonomy filter removes nothing beyond what the lookup already rejected. |
| `Terms.FetchAppend` | src/Term/TermQuery.php:192-202 | Order is preserved across concatenated runs of terms. |
| `Terms.FetchFromWpTermQueryAsWritten` | src/Query/QueryTerm.php:211-224 | As written, without a restricting taxonomy there is one entry per term, `null`s included. |
| `Terms.AsWrittenAgreesWhenAllFound` | src/Query/QueryTerm.php:211-224 | When every lookup succeeds, the as-written fetch equals the null-skipping one. |
| `Terms.AsWrittenFailsOnMissing` | src/Query/QueryTerm.php:215-217 | Under a restricting taxonomy, one failed lookup anywhere ends the fetch in an `Error`. |
| `Terms.AsWrittenKeepsNulls` | src/Query/QueryTerm.php:213-221 | Without a restricting taxonomy, the list has `null` exactly where the lookup failed. |
| `Terms.ForeignTermCrashes` | src/Query/QueryTerm.php:211-224 | A `post_tag` term read by a `category` wrapper crashes as written, and is skipped with the null check. |
| `Terms.FetchTerms` | src/Query/QueryTerm.php:187-224 | The class's own fetch: `TermQuery`'s skips failed lookups. `QueryTerm`'s keeps `null` exactly where a lookup failed, or ends in an `Error` on one under a restricting taxonomy. The two agree when every lookup succeeds. |
| `Terms.FetchFromIds` | src/Query/QueryTerm.php:179-182 | The id query goes through the class's own fetch: for `TermQuery` the null-skipping result, and for `QueryTerm` an `Error` on a failed lookup under a restricting taxonomy. |
| `Terms.FetchFromIdsCorrected` | src/Term/TermQuery.php:179-182 | With the null check, the instances the lookups give for the id query's terms, in order. |
| `Terms.Fetch` | src/Query/QueryTerm.php:157-166 | Anything but an array or a `WP_Term_Query`, `null` included, gives `[]`. Otherwise the terms go through the class's own fetch: the null-skipping result for `TermQuery`, and for `QueryTerm` too whenever every lookup succeeds. For `QueryTerm` under a restricting taxonomy, a failed lookup is an `Error`. |
| `Terms.FetchCorrected` | src/Term/TermQuery.php:157-166 | With the null check, the instances the lookups give for the queried terms, in order; `[]` for anything but an array or a query. |
| `Terms.FetchForeignTerm` | src/Query/QueryTerm.php:157-166 | `QueryTerm::fetch` of a query holding a `post_tag` term, with the class restricted to `category`, ends in an `Error`; the corrected fetch gives `[]`. |

## Left out

- **Rendering and output.**
  - `send`, `exit` and the emitter.
  - The view engine: `render` is a function parameter, and only the view name and the parameters passed to it are modelled.
  - `json()` on the bag.
  - The commented-out trailing-slash redirect in the router's hook.
- **Routing libraries.**
  - Route matching (League Route / FastRoute, not part of this model): a match is an input.
  - League's default-header list: defaults are an input, added only when absent, compared case-insensitively.
  - JSON strategy defaults: the JSON strategy's default is `content-type: application/json`.
- **Illuminate `Arr`.** The source of `Arr::get`, `set`, `has`, `forget`, `pull` and `only` is not part of this model's sources. Their behaviour is modelled from Illuminate's documented behaviour: literal key first, then the dotted walk.
- ParamsBag.Walk: the dotted walk descends only into arrays; `Arr::get` and `Arr::has` also descend into `ArrayAccess` objects, which the model's values do not include. The same holds for `ParamsBag.Lookup`, `ParamsBag.Has`, `ParamsBag.SetPath` and `ParamsBag.ForgetPath`.
- ParamsBag.Get: a `Closure` default is called by `Arr::get` (`value($default)`); closures are not values of the model, so a default is always returned as it is.
- **PHP types outside the model.**
  - Floats and objects with `__toString`.
  - 64-bit integer overflow of array keys.
  - `(int)` of numeric strings beyond exact decimals.
  - `Str::camel`: modelled for the conditional-tag names, ASCII only.
  - `pathinfo` edge cases: trailing slashes and names that begin with a dot.
- **Class statics.** Static properties are one record per class family, as when no subclass redeclares them. A subclass that redeclares `$postType` or `$taxonomy` would see its own value through `static::` and the shared one through `self::`.
- **`setDefaultArgs`, `setFallbackClass`, `setPostType`.** These are plain assignments to fields of the statics record; they are record updates, with no members of their own.
- **`createFromPostdata`.** It depends on constructing a `WP_Post` from raw data inside WordPress.
- **Instance accessors.** Other instance methods of the query wrappers (titles, permalinks, thumbnails, parents) are WordPress calls.
- **Term pagination.** In `QueryTerm::fetchFromWpTermQuery`, the count query and the `pages`/`page`/`total` computation are left out: their results are never used, and the count query is a WordPress call with no effect on the result.
- **Hook execution.** Hook registration is modelled as the list of hooks added. The hooks' later execution by WordPress is modelled only for the three suppression closures.
- **1.0 `template_redirect`.** The closure is reduced to its registration.
- Terms.FetchFromIds: the query it runs is stated by `Terms.IdsArgsKeys`, not by its own contract; `QueryTerm`'s `null`-keeping result without a restricting taxonomy is stated by `Terms.FetchTerms`.
- ParamsBag.Push: the appended key is one past the largest integer key present (at least 0), not PHP's next-free counter. PHP does not lower that counter when an element is unset, and copies carry it. So after `forget('list.2')` on `['a','b','c']`, `push('list', 'd')` stores `'d'` under 3 in PHP and under 2 here. Arrays here are ordered entries without that counter. `array_merge` and the other array builders start fresh arrays, where the two agree.
- Strategies.CoerceJson: a failed `json_encode` (`false`) is modelled as an `Error`, a `TypeError` from passing `false` to a `?string` content parameter. The `Response` class is not part of this model, and neither is PHP's message text: `Strategies.FalseContentMessage` stands in for it. If the `Response` in use instead took untyped content and threw an `Exception`, as Symfony 4's `setContent` does, the JSON throwable handler would catch it all the same.
- Routing.CatchJson: League's JSON throwable handler answers an `HttpException` thrown by a handler with that exception's own status and headers; here every throw is a plain exception or error, so it becomes a 500 response. The reason phrase League passes to `withStatus` is not modelled, because responses carry no reason phrase.
- Routing.UnmatchedJson: League Route's source is not part of this model. The 404 and 405 responses, the `Allow` header and the throwable handler follow League Route 5's JSON strategy, which the JSON strategy here extends.
- QueryPost.FetchFromIds: for non-empty ids it only names the query it runs; `QueryPost.IdsArgsKeys` states what that query carries.

## Findings

| source | as written | input that shows it | evidently intended | confidence | as-written member | corrected member |
|---|---|---|---|---|---|---|
| wp-app/branches/1.1/src/Routing/WpFallbackController.php:76 | The `prepend_attachment` filter is removed when `'attachment' === $tag`, but every scanned tag is an `is_*` name. The same test is at wp-app/branches/1.0/src/Routing/WpBaseController.php:71. | An attachment page: the tag `is_attachment` holds, no controller method, and the attachment template exists. | The test is `'is_attachment' === $tag`, as in WordPress's template loader, so the filter is removed for attachment pages. | not executed | `TemplateFallback.HandleTagAsWritten` | `TemplateFallback.HandleTag` |
| src/Middleware/WpAdminMiddleware.php:42-50 | When the user lookup throws, `$user` stays `null`; for a logged-in request `$user->roleIn(...)` is then called on `null`. | `is_user_logged_in()` true and `wpUser(true)` throwing. | The request is refused with the `ForbiddenException`, like any other non-administrator. | not executed | `Users.ProcessAsWritten` | `Users.Process` |
| src/Query/QueryTerm.php:211-224 | The result of `createFromId` is used without a null check. With a restricting taxonomy, `taxIn` is called on `null`. Without one, `null` is appended to the results. | A `QueryTerm` restricted to `category` reading a query that returned a `post_tag` term. | Skip terms whose lookup fails, as `TermQuery::fetchFromWpTermQuery` does at src/Term/TermQuery.php:193. | not executed | `Terms.FetchFromWpTermQueryAsWritten` | `Terms.FetchFromWpTermQuery` |

=== FILE: config_bag.dfy ===
/**
 * `ConfigBagTrait`: a lazily created `ParamsBag` behind one entry point,
 * `config($key, $default)`, whose behaviour depends on the PHP type of the
 * key. The holder object is a record; each call returns the answer and the
 * holder afterwards.
 */
module ConfigBag {
  import opened Wrappers
  import opened Php
  import opened ParamsBag

  /** The PHP type of the `$key` argument, as `config` dispatches on it. */
  datatype ConfigKey =
    | NoKey
    | KeyString(s: string)
    | KeyArray(pairs: PArray)
    | KeyOther(v: Value)

  /** What `config` returns when it does not throw. */
  datatype Answer = TheBag(bag: Bag) | AValue(v: Value)

  /** The state the trait adds to its host: the bag once created, and what `defaultConfig()` returns. */
  datatype Holder = Holder(configBag: Option<Bag>, defaultConfig: PArray)

  const InvalidArguments: string := "Invalid ConfigBag passed method arguments"

  /** The bag `config` works on: the existing one, or one created from `defaultConfig()`. */
  function EnsureBag(h: Holder): (b: Bag)
    ensures h.configBag.Some? ==> b == h.configBag.value
    ensures h.configBag.None? ==> b == CreateFromAttrs(h.defaultConfig, [])
  {
    match h.configBag
    case Some(b) => b
    case None => CreateFromAttrs(h.defaultConfig, [])
  }

  /**
   * `config($key, $default)`: null returns the bag, a string reads it with
   * the given default, an array writes it and returns it, anything else
   * throws; the bag exists afterwards in every case, even after a throw.
   */
  function Config(h: Holder, key: ConfigKey, default: Value): (r: (Result<Answer, string>, Holder))
    ensures r.1.configBag.Some? && r.1.defaultConfig == h.defaultConfig
    ensures !key.KeyArray? ==> r.1.configBag == Some(EnsureBag(h))
    ensures key.NoKey? ==> r.0 == Ok(TheBag(EnsureBag(h)))
    ensures key.KeyString? ==> r.0 == Ok(AValue(ParamsBag.Get(EnsureBag(h), key.s, default)))
    ensures key.KeyArray? ==> r.0 == Ok(TheBag(SetAll(EnsureBag(h), key.pairs))) && r.1.configBag == Some(r.0.value.bag)
    ensures key.KeyOther? ==> r.0 == Err(InvalidArguments)
  {
    var b := EnsureBag(h);
    var h1 := h.(configBag := Some(b));
    match key
    case NoKey => (Ok(TheBag(b)), h1)
    case KeyString(s) => (Ok(AValue(ParamsBag.Get(b, s, default))), h1)
    case KeyArray(pairs) =>
      var b' := SetAll(b, pairs);
      (Ok(TheBag(b')), h.(configBag := Some(b')))
    case KeyOther(_) => (Err(InvalidArguments), h1)
  }

  /** `setConfig($params)`: `config($params)` for its effect only. */
  function SetConfig(h: Holder, params: PArray): (r: Holder)
    ensures r.configBag == Some(SetAll(EnsureBag(h), params))
  {
    Config(h, KeyArray(params), Null).1
  }

  /** The bag is created once: a second call sees the bag the first one stored, whatever the defaults say. */
  lemma CreatedOnce(h: Holder, k1: ConfigKey, k2: ConfigKey, d1: Value, d2: Value)
    requires !k1.KeyArray? && !k2.KeyArray?
    ensures Config(Config(h, k1, d1).1, k2, d2).1.configBag == Some(EnsureBag(h))
  {
  }

  /** A value written through `setConfig` under a flat key is what `config($key)` reads back. */
  lemma ReadAfterSetConfig(h: Holder, k: string, v: Value, default: Value)
    requires '.' !in k
    ensures Config(SetConfig(h, [Entry(k, v)]), KeyString(k), default).0 == Ok(AValue(v))
  {
    var b := EnsureBag(h);
    assert SetAll(b, [Entry(k, v)]) == Set(b, k, v);
    GetAfterSet(b, k, v, default);
  }
}

=== FILE: html_attrs.dfy ===
/**
 * `HtmlAttrs` (branch 1.0): turns a PHP array into HTML attribute
 * fragments, one per entry and in entry order, kept in a growing list and
 * joined by single spaces. A numeric key yields the bare value, any other
 * key `key="value"`; array values are first replaced by
 * `rawurlencode(json_encode($value))`. `json_encode` is a parameter.
 */
module HtmlAttrs {
  import opened Wrappers
  import opened Text
  import opened Php
  import opened UrlEncoding

  /** Why building attributes throws: under `strict_types` both are `TypeError`/`Error`. */
  datatype AttrError =
    | JsonFailed     // `json_encode` returned false, which `rawurlencode(string)` refuses
    | NotStringable  // an object without `__toString` met string interpolation

  /** `json_encode` with default flags: the text, or `None` for its `false` return. */
  type JsonEncoder = Value -> Option<string>

  /** The object's `$attributes`: the fragments produced so far. */
  datatype Attrs = Attrs(fragments: seq<string>)

  /** `arrayEncode($value)`: the JSON text percent-encoded; it decodes back to that text's bytes. */
  function ArrayEncode(json: JsonEncoder, v: PArray): (r: Result<string, AttrError>)
    ensures r.Err? <==> json(Arr(v)).None?
    ensures r.Ok? ==> PercentDecode(r.value) == Some(Utf8(json(Arr(v)).value))
    ensures r.Ok? ==> '"' !in r.value && ' ' !in r.value
  {
    match json(Arr(v))
    case None => Err(JsonFailed)
    case Some(text) =>
      DecodeRawUrlEncode(text);
      Ok(RawUrlEncode(text))
  }

  /** The text an attribute value contributes: encoded arrays, interpolated scalars. */
  function ValueText(json: JsonEncoder, v: Value): (r: Result<string, AttrError>)
    ensures v.Str? ==> r == Ok(v.s)
    ensures v.Obj? ==> r == Err(NotStringable)
    ensures v.Arr? ==> r == ArrayEncode(json, v.entries)
    ensures v.Int? && v.i >= 0 ==> r.Ok? && |r.value| >= 1 && AllDigits(r.value) && DigitsValue(r.value) == v.i
    ensures v.Int? && v.i < 0 ==>
      r.Ok? && |r.value| >= 2 && r.value[0] == '-' && AllDigits(r.value[1..]) && DigitsValue(r.value[1..]) == -v.i
    ensures v.Bool? ==> r == Ok(if v.b then "1" else "")
    ensures v.Null? ==> r == Ok("")
  {
    if v.Arr? then ArrayEncode(json, v.entries)
    else
      match ToText(v)
      case Some(t) => Ok(t)
      case None => Err(NotStringable)
  }

  /** `walk($value, $key)`: the fragment one entry yields. */
  function Fragment(json: JsonEncoder, key: string, v: Value): (r: Result<string, AttrError>)
    ensures r.Err? <==> ValueText(json, v).Err?
    ensures r.Ok? && IsNumericString(key) ==> r.value == ValueText(json, v).value
    ensures r.Ok? && !IsNumericString(key) ==> r.value == key + "=\"" + ValueText(json, v).value + "\""
  {
    match ValueText(json, v)
    case Err(e) => Err(e)
    case Ok(t) => Ok(if IsNumericString(key) then t else key + "=\"" + t + "\"")
  }

  /** An integer key always yields the bare value text, whatever the value; the same error when there is none. */
  lemma IntKeyBareValue(json: JsonEncoder, key: string, v: Value)
    requires IsIntKey(key)
    ensures Fragment(json, key, v) == ValueText(json, v)
  {
    IntKeyIsNumeric(key);
  }

  /** A named array attribute is `key="…"` whose quoted part percent-decodes to the JSON text and holds no quote or space. */
  lemma ArrayFragmentShape(json: JsonEncoder, key: string, v: PArray)
    requires !IsNumericString(key) && json(Arr(v)).Some?
    ensures Fragment(json, key, Arr(v)).Ok?
    ensures
      var f := Fragment(json, key, Arr(v)).value;
      var enc := f[|key| + 2..|f| - 1];
      f == key + "=\"" + enc + "\"" && PercentDecode(enc) == Some(Utf8(json(Arr(v)).value)) && '"' !in enc && ' ' !in enc
  {
    var enc := ArrayEncode(json, v).value;
    var f := key + "=\"" + enc + "\"";
    assert f[|key| + 2..|f| - 1] == enc;
  }

  /** `array_walk($attrs, [$this, 'walk'])`: one fragment per entry, in entry order; the first throw aborts. */
  function Fragments(json: JsonEncoder, attrs: PArray): (r: Result<seq<string>, AttrError>)
    ensures r.Ok? <==> forall i | 0 <= i < |attrs| :: Fragment(json, attrs[i].key, attrs[i].val).Ok?
    ensures r.Ok? ==> |r.value| == |attrs|
    ensures r.Ok? ==> forall i | 0 <= i < |attrs| :: Fragment(json, attrs[i].key, attrs[i].val) == Ok(r.value[i])
    decreases |attrs|
  {
    if attrs == [] then Ok([])
    else
      match Fragment(json, attrs[0].key, attrs[0].val)
      case Err(e) => Err(e)
      case Ok(f) =>
        assert forall i | 1 <= i < |attrs| :: attrs[1..][i - 1] == attrs[i];
        match Fragments(json, attrs[1..])
        case Err(e) => Err(e)
        case Ok(fs) => Ok([f] + fs)
  }

  /** `set($attrs)`: accumulates; the earlier fragments stay in front of the new ones. */
  function Set(json: JsonEncoder, a: Attrs, attrs: PArray): (r: Result<Attrs, AttrError>)
    ensures r.Ok? <==> Fragments(json, attrs).Ok?
    ensures r.Ok? ==> r.value.fragments == a.fragments + Fragments(json, attrs).value
  {
    match Fragments(json, attrs)
    case Ok(fs) => Ok(Attrs(a.fragments + fs))
    case Err(e) => Err(e)
  }

  /** `new HtmlAttrs($attrs)`: each entry yields exactly one fragment, in entry order. */
  function New(json: JsonEncoder, attrs: PArray): (r: Result<Attrs, AttrError>)
    ensures r.Ok? ==> |r.value.fragments| == |attrs|
    ensures r.Ok? ==> forall i | 0 <= i < |attrs| :: Fragment(json, attrs[i].key, attrs[i].val) == Ok(r.value.fragments[i])
  {
    var r := Set(json, Attrs([]), attrs);
    assert r.Ok? ==> r.value.fragments == [] + Fragments(json, attrs).value == Fragments(json, attrs).value;
    r
  }

  /** Setting the same entries twice keeps both copies of every fragment: duplicates are not merged. */
  lemma SetTwiceDuplicates(json: JsonEncoder, a: Attrs, attrs: PArray)
    requires Set(json, a, attrs).Ok?
    ensures Set(json, Set(json, a, attrs).value, attrs).Ok?
    ensures
      var once := New(json, attrs).value.fragments;
      Set(json, Set(json, a, attrs).value, attrs).value.fragments == a.fragments + once + once
  {
  }

  /** `__toString()`: the fragments joined by one space; no fragments give `''`. */
  function ToString(a: Attrs): (r: string)
    ensures a.fragments == [] ==> r == ""
    ensures |a.fragments| == 1 ==> r == a.fragments[0]
  {
    Join(a.fragments, ' ')
  }

  /** The string form splits back into the fragments when none of them holds a space. */
  lemma ToStringSplits(a: Attrs)
    requires |a.fragments| >= 1
    requires forall i | 0 <= i < |a.fragments| :: ' ' !in a.fragments[i]
    ensures Split(ToString(a), ' ') == a.fragments
  {
    SplitJoin(a.fragments, ' ');
  }

  /** What `createFromAttrs` returns: the joined string, or the fragment list. */
  datatype Created = Linear(text: string) | Listed(fragments: seq<string>)

  /** `createFromAttrs($attrs, $linearized = true)`. */
  function CreateFromAttrs(json: JsonEncoder, attrs: PArray, linearized: bool): (r: Result<Created, AttrError>)
    ensures r.Ok? <==> New(json, attrs).Ok?
    ensures r.Ok? && linearized ==> r.value == Linear(ToString(New(json, attrs).value))
    ensures r.Ok? && !linearized ==> r.value == Listed(New(json, attrs).value.fragments)
    ensures r.Ok? ==> |New(json, attrs).value.fragments| == |attrs|
  {
    match New(json, attrs)
    case Err(e) => Err(e)
    case Ok(a) => Ok(if linearized then Linear(ToString(a)) else Listed(a.fragments))
  }
}

=== FILE: http.dfy ===
/**
 * The HTTP side of the core: the response values the strategies produce,
 * default-header decoration, and `Request`'s rewrite-base derivation and
 * global-request memo. Conversions between Symfony, PSR-7 and Nyholm
 * objects are field copies here.
 */
module Http {
  import opened Wrappers
  import opened Text
  import opened Php

  datatype HeaderLine = HeaderLine(name: string, value: string)

  /** A PSR-7 response as the router emits it. */
  datatype PsrResponse = PsrResponse(status: int, headers: seq<HeaderLine>, body: string)

  /** The application's own `Response` (a Symfony response) before `psr()`. */
  datatype Response = Response(status: int, headers: seq<HeaderLine>, content: string)

  /** `new Response($content)`: status 200, no headers. */
  function NewResponse(content: string): (r: Response)
    ensures r.status == 200 && r.headers == [] && r.content == content
  {
    Response(200, [], content)
  }

  /** `$response->psr()`: the same status, headers and body as a PSR-7 response. */
  function ToPsr(r: Response): (p: PsrResponse)
    ensures p.status == r.status && p.headers == r.headers && p.body == r.content
  {
    PsrResponse(r.status, r.headers, r.content)
  }

  /** `withStatus($code)`: only the status changes. */
  function WithStatus(p: PsrResponse, code: int): (r: PsrResponse)
    ensures r.status == code && r.headers == p.headers && r.body == p.body
  {
    p.(status := code)
  }

  /** PSR-7 header names compare case-insensitively. */
  predicate SameHeaderName(a: string, b: string) {
    LowerAscii(a) == LowerAscii(b)
  }

  /** `hasHeader($name)`. */
  predicate HasHeader(p: PsrResponse, name: string) {
    exists i | 0 <= i < |p.headers| :: SameHeaderName(p.headers[i].name, name)
  }

  /** Every header of `extra` is one of `defaults` whose name `p` lacks. */
  predicate OnlyMissing(p: PsrResponse, extra: seq<HeaderLine>, defaults: seq<HeaderLine>)
    decreases |extra|
  {
    extra == [] || (extra[0] in defaults && !HasHeader(p, extra[0].name) && OnlyMissing(p, extra[1..], defaults))
  }

  /** `OnlyMissing` says of every added header what its recursion says of the first. */
  lemma {:induction false} OnlyMissingIff(p: PsrResponse, extra: seq<HeaderLine>, defaults: seq<HeaderLine>)
    ensures OnlyMissing(p, extra, defaults) <==>
      forall i | 0 <= i < |extra| :: extra[i] in defaults && !HasHeader(p, extra[i].name)
    decreases |extra|
  {
    if extra != [] {
      OnlyMissingIff(p, extra[1..], defaults);
      assert forall i | 1 <= i < |extra| :: extra[i] == extra[1..][i - 1];
    }
  }

  /** Adding only missing defaults in two steps adds only missing defaults overall. */
  lemma OnlyMissingThen(p: PsrResponse, p1: PsrResponse, first: seq<HeaderLine>, rest: seq<HeaderLine>, defaults: seq<HeaderLine>)
    requires defaults != []
    requires forall name :: HasHeader(p, name) ==> HasHeader(p1, name)
    requires OnlyMissing(p, first, defaults) && OnlyMissing(p1, rest, defaults[1..])
    ensures OnlyMissing(p, first + rest, defaults)
  {
    OnlyMissingIff(p, first, defaults);
    OnlyMissingIff(p1, rest, defaults[1..]);
    OnlyMissingIff(p, first + rest, defaults);
    forall i | 0 <= i < |first + rest|
      ensures (first + rest)[i] in defaults && !HasHeader(p, (first + rest)[i].name)
    {
      if i >= |first| {
        assert (first + rest)[i] == rest[i - |first|];
        assert rest[i - |first|] in defaults[1..];
      }
    }
  }

  /** One step of decoration: `d` is appended when the response has no header of its name. */
  function AddIfMissing(p: PsrResponse, d: HeaderLine): (r: PsrResponse)
    ensures r.status == p.status && r.body == p.body
    ensures |p.headers| <= |r.headers| && r.headers[..|p.headers|] == p.headers
    ensures HasHeader(r, d.name)
    ensures forall name :: HasHeader(p, name) ==> HasHeader(r, name)
    ensures HasHeader(p, d.name) ==> r == p
    ensures !HasHeader(p, d.name) ==> r.headers[|p.headers|..] == [d]
  {
    if HasHeader(p, d.name) then p
    else
      var r := p.(headers := p.headers + [d]);
      assert r.headers[|p.headers|] == d;
      assert forall name :: HasHeader(p, name) ==> HasHeader(r, name) by {
        forall name | HasHeader(p, name) ensures HasHeader(r, name) {
          var i :| 0 <= i < |p.headers| && SameHeaderName(p.headers[i].name, name);
          assert r.headers[i] == p.headers[i];
        }
      }
      r
  }

  /** Default-header decoration: each default is added only when the response has no header of that name. */
  function Decorate(p: PsrResponse, defaults: seq<HeaderLine>): (r: PsrResponse)
    ensures r.status == p.status && r.body == p.body
    ensures |p.headers| <= |r.headers| && r.headers[..|p.headers|] == p.headers
    ensures forall i | 0 <= i < |defaults| :: HasHeader(r, defaults[i].name)
    ensures forall name :: HasHeader(p, name) ==> HasHeader(r, name)
    ensures OnlyMissing(p, r.headers[|p.headers|..], defaults)
    decreases |defaults|
  {
    if defaults == [] then p
    else
      var p1 := AddIfMissing(p, defaults[0]);
      var first := p1.headers[|p.headers|..];
      assert OnlyMissing(p, first, defaults) by {
        assert first == [] || first == [defaults[0]];
      }
      var r := Decorate(p1, defaults[1..]);
      assert forall i | 1 <= i < |defaults| :: defaults[i] == defaults[1..][i - 1];
      assert r.headers[..|p.headers|] == r.headers[..|p1.headers|][..|p.headers|];
      OnlyMissingThen(p, p1, first, r.headers[|p1.headers|..], defaults);
      assert r.headers[|p.headers|..] == first + r.headers[|p1.headers|..];
      r
  }

  /** Decorating a response that already carries every default header changes nothing. */
  lemma {:induction false} DecorateComplete(p: PsrResponse, defaults: seq<HeaderLine>)
    requires forall i | 0 <= i < |defaults| :: HasHeader(p, defaults[i].name)
    ensures Decorate(p, defaults) == p
    decreases |defaults|
  {
    if defaults != [] {
      assert forall i | 1 <= i < |defaults| :: defaults[1..][i - 1] == defaults[i];
      DecorateComplete(p, defaults[1..]);
    }
  }

  /** Decoration is idempotent. */
  lemma DecorateIdempotent(p: PsrResponse, defaults: seq<HeaderLine>)
    ensures Decorate(Decorate(p, defaults), defaults) == Decorate(p, defaults)
  {
    DecorateComplete(Decorate(p, defaults), defaults);
  }

  // ---------------------------------------------------------------------
  // Requests
  // ---------------------------------------------------------------------

  /**
   * The parts of a request the core reads: its identity, headers and raw
   * content, the `CONTEXT_PREFIX` server variable, and scheme plus host.
   */
  datatype Request = Request(id: nat, headers: seq<HeaderLine>, content: string, contextPrefix: Option<string>, schemeAndHost: string)

  /** The PSR-7 server request converted from a request. */
  datatype PsrRequest = PsrRequest(from: Request)

  /**
   * `getRewriteBase()`: with a truthy `APP_URL` that begins, literally and
   * case-sensitively, with the request's scheme and host, `'/'` plus the
   * rest of its first line with slashes trimmed; a truthy `APP_URL` that
   * does not gives `''`; otherwise `CONTEXT_PREFIX` (default `''`) as is.
   */
  function RewriteBase(appUrl: Option<string>, req: Request): (r: string)
    ensures (appUrl.None? || !Truthy(Str(appUrl.value))) ==> r == req.contextPrefix.GetOr("")
    ensures appUrl.Some? && Truthy(Str(appUrl.value)) && !StartsWith(appUrl.value, req.schemeAndHost) ==> r == ""
    ensures appUrl.Some? && Truthy(Str(appUrl.value)) && StartsWith(appUrl.value, req.schemeAndHost) ==>
      var rest := TakeLine(appUrl.value[|req.schemeAndHost|..]);
      |r| >= 1 && r[0] == '/' && Stripped(rest, '/', r[1..]) && (|r| == 1 || (r[1] != '/' && r[|r| - 1] != '/'))
  {
    if appUrl.Some? && Truthy(Str(appUrl.value)) then
      var url := appUrl.value;
      if StartsWith(url, req.schemeAndHost) then
        var rest := TakeLine(url[|req.schemeAndHost|..]);
        SlashTrimmed(rest)
      else ""
    else req.contextPrefix.GetOr("")
  }

  /**
   * Under the host, the rewrite base is `'/'` and the first line of the
   * rest of `APP_URL` with slashes stripped from both ends, whichever way
   * that stripped text was found.
   */
  lemma RewriteBaseValue(appUrl: string, req: Request, t: string)
    requires Truthy(Str(appUrl)) && StartsWith(appUrl, req.schemeAndHost)
    requires Stripped(TakeLine(appUrl[|req.schemeAndHost|..]), '/', t)
    ensures RewriteBase(Some(appUrl), req) == "/" + t
  {
    SlashTrimmedValue(TakeLine(appUrl[|req.schemeAndHost|..]), t);
  }

  /** `APP_URL` equal to the scheme and host gives `'/'`, not `''`. */
  lemma RewriteBaseAtRoot(appUrl: string, req: Request)
    requires appUrl == req.schemeAndHost && Truthy(Str(appUrl))
    ensures RewriteBase(Some(appUrl), req) == "/"
  {
    assert appUrl[|req.schemeAndHost|..] == "";
  }

  /** The path part of `APP_URL` is read up to the first newline only, as PCRE's `.` does not match one. */
  lemma RewriteBaseStopsAtNewline(req: Request, path: string, tail: string)
    requires '\n' !in path && '/' !in path && path != []
    requires Truthy(Str(req.schemeAndHost + "/" + path + "\n" + tail))
    ensures RewriteBase(Some(req.schemeAndHost + "/" + path + "\n" + tail), req) == "/" + path
  {
    var url := req.schemeAndHost + "/" + path + "\n" + tail;
    var rest := "/" + path + "\n" + tail;
    assert url[..|req.schemeAndHost|] == req.schemeAndHost;
    assert url[|req.schemeAndHost|..] == rest;
    assert '\n' in rest && rest[|path| + 1] == '\n';
    assert '\n' !in rest[..|path| + 1] by {
      assert rest[..|path| + 1] == "/" + path;
    }
    assert TakeLine(rest) == "/" + path;
    SlashThenTrimmed(path);
  }

  /** A slash in front of a text without slashes at its ends is trimmed away. */
  lemma SlashThenTrimmed(path: string)
    requires path != [] && path[0] != '/' && path[|path| - 1] != '/'
    ensures Trim("/" + path, '/') == path
  {
    assert "/" + path == ['/'] + path;
    TrimLeftCons(path, '/');
    TrimOfTrimmed(path, '/');
  }

  /** The global request: created once, then reused. */
  datatype Globals = Globals(globalsRequest: Option<Request>)

  /** `getFromGlobals()`: builds the request from `built` on the first call only. */
  function GetFromGlobals(g: Globals, built: Request): (r: (Request, Globals))
    ensures r.1.globalsRequest == Some(r.0)
    ensures g.globalsRequest.Some? ==> r.0 == g.globalsRequest.value && r.1 == g
    ensures g.globalsRequest.None? ==> r.0 == built
  {
    match g.globalsRequest
    case Some(req) => (req, g)
    case None => (built, Globals(Some(built)))
  }

  /** Later calls return the instance the first one stored, whatever the superglobals hold by then. */
  lemma GlobalsMemoised(g: Globals, built1: Request, built2: Request)
    ensures GetFromGlobals(GetFromGlobals(g, built1).1, built2).0 == GetFromGlobals(g, built1).0
  {
  }

  /** `createPsr($request)`: converts the given request, or the global one when none is given. */
  function CreatePsr(g: Globals, request: Option<Request>, built: Request): (r: (PsrRequest, Globals))
    ensures request.Some? ==> r == (PsrRequest(request.value), g)
    ensures request.None? ==> r.0 == PsrRequest(GetFromGlobals(g, built).0) && r.1 == GetFromGlobals(g, built).1
  {
    match request
    case Some(req) => (PsrRequest(req), g)
    case None =>
      var (req, g1) := GetFromGlobals(g, built);
      (PsrRequest(req), g1)
  }

  /**
   * `createFromBase($request)`: a new request duplicated from `base`,
   * whose header bag is then replaced by `base`'s headers and whose raw
   * content is copied. `duplicated` is what `duplicate()` produced.
   */
  function CreateFromBase(duplicated: Request, base: Request): (r: Request)
    ensures r.headers == base.headers && r.content == base.content
    ensures r.id == duplicated.id && r.contextPrefix == duplicated.contextPrefix && r.schemeAndHost == duplicated.schemeAndHost
  {
    duplicated.(headers := base.headers, content := base.content)
  }

  /** The duplicated request's own headers never survive: they are replaced, not merged. */
  lemma CreateFromBaseReplacesHeaders(d1: Request, d2: Request, base: Request)
    requires d1.headers != d2.headers && d1.(headers := d2.headers) == d2
    ensures CreateFromBase(d1, base) == CreateFromBase(d2, base)
  {
  }
}

=== FILE: params_bag.dfy ===
/**
 * `ParamsBag`: an ordered key/value store whose string keys may be dotted
 * paths (`"a.b.c"` reaches `attributes['a']['b']['c']`). Reads and writes
 * go through Illuminate's `Arr` helpers, whose segment-by-segment rules are
 * written out here: a literal key wins over a dotted path when reading, a
 * write always follows the path, and `forget` tries the literal key first.
 * The `ArrayAccess` methods use the literal key only.
 */
module ParamsBag {
  import opened Wrappers
  import opened Text
  import opened Php

  datatype Bag = Bag(attrs: PArray)

  const Empty: Bag := Bag([])

  /** The segments of a dotted key (`explode('.', $key)`). */
  function Segments(k: string): (segs: seq<string>)
    ensures |segs| >= 1
    ensures forall i | 0 <= i < |segs| :: '.' !in segs[i]
    ensures '.' !in k <==> segs == [k]
  {
    Split(k, '.')
  }

  /** A literal top-level key containing a dot hides the nested path of the same name from reads. */
  predicate Shadowed(a: PArray, k: string) {
    '.' in k && KeyIn(a, k)
  }

  // ---------------------------------------------------------------------
  // Reading: Arr::get and Arr::has
  // ---------------------------------------------------------------------

  /** Follows `path` through nested arrays; `None` once a segment is missing or a non-array is met. */
  function Walk(v: Value, path: seq<string>): Option<Value>
    decreases |path|
  {
    if path == [] then Some(v)
    else if v.Arr? && KeyIn(v.entries, path[0]) then Walk(Php.Get(v.entries, path[0]).value, path[1..])
    else None
  }

  /** What `Arr::get` finds: the literal key if present, else (for a dotted key) the nested path. */
  function Lookup(a: PArray, k: string): Option<Value> {
    if KeyIn(a, k) then Php.Get(a, k)
    else if '.' !in k then None
    else Walk(Arr(a), Segments(k))
  }

  /** `get($key, $default)`: the value found, else the default (`''` in the bag's own signature). */
  function Get(b: Bag, k: string, default: Value): (r: Value)
    ensures Lookup(b.attrs, k).Some? ==> r == Lookup(b.attrs, k).value
    ensures Lookup(b.attrs, k).None? ==> r == default
  {
    Lookup(b.attrs, k).GetOr(default)
  }

  /**
   * `has($key)`: false on an empty bag; true for a literal key; otherwise the
   * path must resolve. It holds exactly when `get` finds something, so `get`
   * falls back to its default iff `has` fails.
   */
  predicate Has(b: Bag, k: string)
    ensures Has(b, k) <==> Lookup(b.attrs, k).Some?
  {
    LiteralOrPath(b.attrs, k);
    b.attrs != [] && (KeyIn(b.attrs, k) || Walk(Arr(b.attrs), Segments(k)).Some?)
  }

  /** A flat key walks to exactly what the literal lookup finds. */
  lemma LiteralOrPath(a: PArray, k: string)
    ensures (a != [] && (KeyIn(a, k) || Walk(Arr(a), Segments(k)).Some?)) <==> Lookup(a, k).Some?
  {
    if '.' !in k {
      assert Segments(k) == [k];
      assert Walk(Arr(a), [k]).Some? <==> KeyIn(a, k);
    }
  }

  /** A walk that fails stays failed however far the path is extended. */
  lemma {:induction false} WalkExtendNone(v: Value, p: seq<string>, q: seq<string>)
    requires Walk(v, p) == None
    ensures Walk(v, p + q) == None
    decreases |p|
  {
    assert p != [];
    assert (p + q)[0] == p[0];
    if v.Arr? && KeyIn(v.entries, p[0]) {
      assert (p + q)[1..] == p[1..] + q;
      WalkExtendNone(Php.Get(v.entries, p[0]).value, p[1..], q);
    }
  }

  /** A non-empty path cannot be walked from a non-array or from an empty array. */
  lemma WalkFromLeaf(v: Value, path: seq<string>)
    requires path != [] && (!v.Arr? || v.entries == [])
    ensures Walk(v, path) == None
  {
  }

  // ---------------------------------------------------------------------
  // Writing: Arr::set
  // ---------------------------------------------------------------------

  /** The array under `k`, or `[]` when `k` is missing, null or not an array (what `Arr::set` writes over). */
  function ChildArray(a: PArray, k: string): PArray {
    match Php.Get(a, k)
    case Some(Arr(e)) => e
    case _ => []
  }

  /** `Arr::set` along `segs`: every intermediate that is not an array becomes one. */
  function SetPath(a: PArray, segs: seq<string>, v: Value): (r: PArray)
    requires |segs| >= 1
    ensures KeyIn(r, segs[0])
    ensures forall k | k != segs[0] :: Php.Get(r, k) == Php.Get(a, k)
    ensures UniqueKeys(a) ==> UniqueKeys(r)
    decreases |segs|
  {
    if |segs| == 1 then Php.Put(a, segs[0], v)
    else Php.Put(a, segs[0], Arr(SetPath(ChildArray(a, segs[0]), segs[1..], v)))
  }

  /** After `SetPath`, walking the same path finds the value written. */
  lemma {:induction false} WalkSetPath(a: PArray, segs: seq<string>, v: Value)
    requires |segs| >= 1
    ensures Walk(Arr(SetPath(a, segs, v)), segs) == Some(v)
    decreases |segs|
  {
    if |segs| > 1 {
      WalkSetPath(ChildArray(a, segs[0]), segs[1..], v);
    }
  }

  /** A path that leaves `segs` at some segment reads the same before and after `SetPath`. */
  lemma {:induction false} WalkSetPathElsewhere(a: PArray, segs: seq<string>, v: Value, q: seq<string>, i: nat)
    requires |segs| >= 1 && i < |segs| && i < |q|
    requires q[..i] == segs[..i] && q[i] != segs[i]
    ensures Walk(Arr(SetPath(a, segs, v)), q) == Walk(Arr(a), q)
    decreases i
  {
    if i > 0 {
      assert q[0] == segs[0];
      var sub := ChildArray(a, segs[0]);
      assert q[1..][..i - 1] == segs[1..][..i - 1];
      WalkSetPathElsewhere(sub, segs[1..], v, q[1..], i - 1);
      if !(Php.Get(a, segs[0]).Some? && Php.Get(a, segs[0]).value.Arr?) {
        WalkFromLeaf(Arr([]), q[1..]);
        if KeyIn(a, q[0]) {
          WalkFromLeaf(Php.Get(a, q[0]).value, q[1..]);
        }
      }
    }
  }

  /** `set($key, $value)` for one key. */
  function Set(b: Bag, k: string, v: Value): (r: Bag)
    ensures forall k' | k' != Segments(k)[0] :: Php.Get(r.attrs, k') == Php.Get(b.attrs, k')
    ensures UniqueKeys(b.attrs) ==> UniqueKeys(r.attrs)
  {
    Bag(SetPath(b.attrs, Segments(k), v))
  }

  /**
   * `set` then `get` on the same key gives the value back and `has` holds,
   * unless a literal dotted key of that name hides the written path.
   */
  lemma GetAfterSet(b: Bag, k: string, v: Value, default: Value)
    requires !Shadowed(b.attrs, k)
    ensures Get(Set(b, k, v), k, default) == v
    ensures Has(Set(b, k, v), k)
    ensures !Shadowed(Set(b, k, v).attrs, k)
  {
    var r := Set(b, k, v);
    WalkSetPath(b.attrs, Segments(k), v);
    if '.' in k {
      assert Segments(k)[0] != k by {
        assert '.' !in Segments(k)[0];
      }
      assert !KeyIn(r.attrs, k);
    }
  }

  /** The shadowing case: a literal `"a.b"` key keeps answering reads after `set("a.b", …)` wrote `a → b`. */
  lemma SetUnderShadowedKey()
    ensures
      var b := Bag([Entry("a.b", Int(1))]);
      Get(Set(b, "a.b", Int(2)), "a.b", Null) == Int(1)
  {
    var b := Bag([Entry("a.b", Int(1))]);
    assert Segments("a.b") == ["a", "b"] by {
      assert FirstIndex("a.b", '.') == 1;
      assert "a.b"[2..] == "b";
      assert "a.b"[..1] == "a";
    }
  }

  /** `set` with an array: each pair is written in order (`array_walk` with the identity `map`, then `Arr::set`). */
  function SetAll(b: Bag, pairs: PArray): (r: Bag)
    ensures forall k' | (forall i | 0 <= i < |pairs| :: Segments(pairs[i].key)[0] != k') ::
      Php.Get(r.attrs, k') == Php.Get(b.attrs, k')
    ensures UniqueKeys(b.attrs) ==> UniqueKeys(r.attrs)
    decreases |pairs|
  {
    if pairs == [] then b
    else
      var r := SetAll(Set(b, pairs[0].key, pairs[0].val), pairs[1..]);
      assert forall k' | (forall i | 0 <= i < |pairs| :: Segments(pairs[i].key)[0] != k') ::
        Php.Get(r.attrs, k') == Php.Get(b.attrs, k') by {
        forall k' | (forall i | 0 <= i < |pairs| :: Segments(pairs[i].key)[0] != k')
          ensures Php.Get(r.attrs, k') == Php.Get(b.attrs, k')
        {
          assert Segments(pairs[0].key)[0] != k';
          forall i | 0 <= i < |pairs[1..]| ensures Segments(pairs[1..][i].key)[0] != k' {
            assert pairs[1..][i] == pairs[i + 1];
          }
        }
      }
      r
  }

  /** For flat keys, writing a whole array pair by pair leaves each key with the array's value. */
  lemma {:induction false} SetAllFlat(b: Bag, pairs: PArray, k: string)
    requires UniqueKeys(pairs)
    requires forall i | 0 <= i < |pairs| :: '.' !in pairs[i].key
    ensures Php.Get(SetAll(b, pairs).attrs, k) == if KeyIn(pairs, k) then Php.Get(pairs, k) else Php.Get(b.attrs, k)
    ensures UniqueKeys(b.attrs) ==> UniqueKeys(SetAll(b, pairs).attrs)
    decreases |pairs|
  {
    if pairs != [] {
      var e := pairs[0];
      assert Segments(e.key) == [e.key];
      var b' := Set(b, e.key, e.val);
      SetAllFlat(b', pairs[1..], k);
      if e.key == k {
        assert !KeyIn(pairs[1..], k);
      }
    }
  }

  // ---------------------------------------------------------------------
  // Removing: Arr::forget and Arr::pull
  // ---------------------------------------------------------------------

  /** `unset` at the end of `segs`, walking only through intermediates that are arrays; otherwise nothing changes. */
  function ForgetPath(a: PArray, segs: seq<string>): (r: PArray)
    requires |segs| >= 1
    ensures forall k | k != segs[0] :: Php.Get(r, k) == Php.Get(a, k)
    ensures UniqueKeys(a) ==> UniqueKeys(r)
    decreases |segs|
  {
    if |segs| == 1 then Php.Remove(a, segs[0])
    else
      match Php.Get(a, segs[0])
      case Some(Arr(e)) => Php.Put(a, segs[0], Arr(ForgetPath(e, segs[1..])))
      case _ => a
  }

  /** After `ForgetPath`, the path no longer resolves. */
  lemma {:induction false} WalkForgetPath(a: PArray, segs: seq<string>)
    requires |segs| >= 1
    ensures Walk(Arr(ForgetPath(a, segs)), segs) == None
    decreases |segs|
  {
    if |segs| > 1 {
      match Php.Get(a, segs[0])
      case Some(Arr(e)) =>
        WalkForgetPath(e, segs[1..]);
      case Some(x) =>
        WalkFromLeaf(x, segs[1..]);
      case None =>
    }
  }

  /** A path that leaves `segs` at some segment reads the same before and after `ForgetPath`. */
  lemma {:induction false} WalkForgetPathElsewhere(a: PArray, segs: seq<string>, q: seq<string>, i: nat)
    requires |segs| >= 1 && i < |segs| && i < |q|
    requires q[..i] == segs[..i] && q[i] != segs[i]
    ensures Walk(Arr(ForgetPath(a, segs)), q) == Walk(Arr(a), q)
    decreases i
  {
    if i > 0 {
      assert q[0] == segs[0];
      match Php.Get(a, segs[0])
      case Some(Arr(e)) =>
        assert q[1..][..i - 1] == segs[1..][..i - 1];
        WalkForgetPathElsewhere(e, segs[1..], q[1..], i - 1);
      case _ =>
    }
  }

  /** The path of the array `Arr::forget`'s reference is left on after walking `segs` (it may stop early). */
  function ForgetCursor(a: PArray, segs: seq<string>): (c: seq<string>)
    requires |segs| >= 1
    ensures |c| < |segs| && c == segs[..|c|]
    decreases |segs|
  {
    if |segs| == 1 then []
    else
      match Php.Get(a, segs[0])
      case Some(Arr(e)) => [segs[0]] + ForgetCursor(e, segs[1..])
      case _ => []
  }

  /**
   * One key of `Arr::forget`. The literal-key test runs against the array
   * the reference currently points to (`cursor`), which after a dotted key
   * is a nested array, not the top level; a dotted walk restarts at the top.
   */
  function ForgetStep(a: PArray, cursor: seq<string>, key: string): (PArray, seq<string>) {
    var at := Walk(Arr(a), cursor);
    if at.Some? && at.value.Arr? && KeyIn(at.value.entries, key) then
      (ForgetPath(a, cursor + [key]), cursor)
    else
      (ForgetPath(a, Segments(key)), ForgetCursor(a, Segments(key)))
  }

  function ForgetKeys(a: PArray, keys: seq<string>, cursor: seq<string>): PArray
    decreases |keys|
  {
    if keys == [] then a
    else
      var s := ForgetStep(a, cursor, keys[0]);
      ForgetKeys(s.0, keys[1..], s.1)
  }

  /**
   * A key that is none of `keys` and none of their first segments reads the
   * same after `ForgetKeys`, provided the cursor does not start at it.
   */
  lemma {:induction false} ForgetKeysFrame(a: PArray, keys: seq<string>, cursor: seq<string>, k': string)
    requires cursor == [] || cursor[0] != k'
    requires forall i | 0 <= i < |keys| :: keys[i] != k' && Segments(keys[i])[0] != k'
    ensures Php.Get(ForgetKeys(a, keys, cursor), k') == Php.Get(a, k')
    decreases |keys|
  {
    if keys != [] {
      var key := keys[0];
      assert key != k' && Segments(key)[0] != k';
      var s := ForgetStep(a, cursor, key);
      assert Php.Get(s.0, k') == Php.Get(a, k') && (s.1 == [] || s.1[0] != k') by {
        var at := Walk(Arr(a), cursor);
        if at.Some? && at.value.Arr? && KeyIn(at.value.entries, key) {
          assert (cursor + [key])[0] != k';
        } else {
          var c := ForgetCursor(a, Segments(key));
          assert c == Segments(key)[..|c|];
          assert c != [] ==> c[0] == Segments(key)[0];
        }
      }
      forall i | 0 <= i < |keys[1..]| ensures keys[1..][i] != k' && Segments(keys[1..][i])[0] != k' {
        assert keys[1..][i] == keys[i + 1];
      }
      ForgetKeysFrame(s.0, keys[1..], s.1, k');
    }
  }

  /** `forget($keys)` with one key or several: keys not named, nor first segments of named ones, are untouched. */
  function Forget(b: Bag, keys: seq<string>): (r: Bag)
    ensures forall k' | (forall i | 0 <= i < |keys| :: keys[i] != k' && Segments(keys[i])[0] != k') ::
      Php.Get(r.attrs, k') == Php.Get(b.attrs, k')
  {
    var r := Bag(ForgetKeys(b.attrs, keys, []));
    assert forall k' | (forall i | 0 <= i < |keys| :: keys[i] != k' && Segments(keys[i])[0] != k') ::
      Php.Get(r.attrs, k') == Php.Get(b.attrs, k') by {
      forall k' | (forall i | 0 <= i < |keys| :: keys[i] != k' && Segments(keys[i])[0] != k')
        ensures Php.Get(r.attrs, k') == Php.Get(b.attrs, k')
      {
        ForgetKeysFrame(b.attrs, keys, [], k');
      }
    }
    r
  }

  /** Forgetting one key: the literal key if present, otherwise the dotted path. */
  lemma ForgetOne(b: Bag, k: string)
    ensures Forget(b, [k]).attrs == if KeyIn(b.attrs, k) then Php.Remove(b.attrs, k) else ForgetPath(b.attrs, Segments(k))
  {
    assert Walk(Arr(b.attrs), []) == Some(Arr(b.attrs));
    assert [] + [k] == [k];
    assert ForgetKeys(b.attrs, [k], []) == ForgetStep(b.attrs, [], k).0;
  }

  /**
   * After `forget(k)` the key and everything nested under it are gone, and
   * every path that branches off `k` reads as before; the shadowed case is
   * excluded because there only the literal key is removed.
   */
  lemma ForgetRemovesSubtree(b: Bag, k: string)
    requires !Shadowed(b.attrs, k)
    ensures !Has(Forget(b, [k]), k)
    ensures forall rest :: Walk(Arr(Forget(b, [k]).attrs), Segments(k) + rest) == None
    ensures forall q, i | 0 <= i < |Segments(k)| && i < |q| && q[..i] == Segments(k)[..i] && q[i] != Segments(k)[i] ::
      Walk(Arr(Forget(b, [k]).attrs), q) == Walk(Arr(b.attrs), q)
  {
    var segs := Segments(k);
    var r := Forget(b, [k]);
    assert r.attrs == ForgetPath(b.attrs, segs) by {
      ForgetOne(b, k);
      if KeyIn(b.attrs, k) {
        assert segs == [k];
      }
    }
    WalkForgetPath(b.attrs, segs);
    if '.' in k {
      assert segs[0] != k by {
        assert '.' !in segs[0];
      }
    } else {
      assert segs == [k];
    }
    assert !KeyIn(r.attrs, k);
    forall rest ensures Walk(Arr(r.attrs), segs + rest) == None {
      WalkExtendNone(Arr(r.attrs), segs, rest);
    }
    forall q, i | 0 <= i < |segs| && i < |q| && q[..i] == segs[..i] && q[i] != segs[i]
      ensures Walk(Arr(r.attrs), q) == Walk(Arr(b.attrs), q)
    {
      WalkForgetPathElsewhere(b.attrs, segs, q, i);
    }
  }

  /** First step of the example below: `x.z` is not a literal key, so the dotted walk runs and leaves the cursor on `x`. */
  lemma ForgetDottedStep(a: PArray)
    requires a == [Entry("x", Arr([Entry("y", Int(1))])), Entry("y", Int(2))]
    ensures ForgetStep(a, [], "x.z") == (a, ["x"])
  {
    assert Segments("x.z") == ["x", "z"] by {
      assert FirstIndex("x.z", '.') == 1;
      assert "x.z"[2..] == "z";
      assert "x.z"[..1] == "x";
    }
    var inner := [Entry("y", Int(1))];
    assert ForgetPath(inner, ["z"]) == inner;
    assert ["x", "z"][1..] == ["z"];
    assert ForgetPath(a, ["x", "z"]) == Php.Put(a, "x", Arr(inner)) == a;
    assert ForgetCursor(a, ["x", "z"]) == ["x"];
  }

  /** Second step: the literal test for `y` runs inside `x`, so `x.y` is removed instead of the top-level `y`. */
  lemma ForgetNestedStep(a: PArray)
    requires a == [Entry("x", Arr([Entry("y", Int(1))])), Entry("y", Int(2))]
    ensures ForgetStep(a, ["x"], "y").0 == [Entry("x", Arr([])), Entry("y", Int(2))]
  {
    assert Walk(Arr(a), ["x"]) == Some(Arr([Entry("y", Int(1))]));
    assert ["x"] + ["y"] == ["x", "y"];
    assert ForgetPath([Entry("y", Int(1))], ["y"]) == [];
  }

  /**
   * With several keys, a later key's literal test runs on the nested
   * array an earlier dotted key walked into: forgetting `x.z` then `y`
   * removes `x.y` and keeps the top-level `y`.
   */
  lemma ForgetKeysReusesCursor()
    ensures
      var b := Bag([Entry("x", Arr([Entry("y", Int(1))])), Entry("y", Int(2))]);
      Forget(b, ["x.z", "y"]) == Bag([Entry("x", Arr([])), Entry("y", Int(2))])
  {
    var a := [Entry("x", Arr([Entry("y", Int(1))])), Entry("y", Int(2))];
    ForgetDottedStep(a);
    ForgetNestedStep(a);
    assert ["x.z", "y"][1..] == ["y"] && ["y"][1..] == [];
  }

  /** `pull($key, $default)`: what `get` returns (default `null`), and the bag after `forget($key)`. */
  function Pull(b: Bag, k: string, default: Value): (r: (Value, Bag))
    ensures Has(b, k) ==> Some(r.0) == Lookup(b.attrs, k)
    ensures !Has(b, k) ==> r.0 == default
    ensures !Shadowed(b.attrs, k) ==> !Has(r.1, k)
    ensures r.1 == Forget(b, [k])
    ensures forall k' | k' != k && k' != Segments(k)[0] :: Php.Get(r.1.attrs, k') == Php.Get(b.attrs, k')
  {
    assert !Shadowed(b.attrs, k) ==> !Has(Forget(b, [k]), k) by {
      if !Shadowed(b.attrs, k) {
        ForgetRemovesSubtree(b, k);
      }
    }
    (Get(b, k, default), Forget(b, [k]))
  }

  // ---------------------------------------------------------------------
  // push / unshift
  // ---------------------------------------------------------------------

  /** The bag `push`/`unshift` work on: `[]` written at `k` first when `has` fails. */
  function Vivify(b: Bag, k: string): (r: Bag)
    ensures !Shadowed(b.attrs, k) ==> !Shadowed(r.attrs, k)
    ensures !Shadowed(b.attrs, k) && !Has(b, k) ==> Lookup(r.attrs, k) == Some(Arr([]))
    ensures Has(b, k) ==> r == b
    ensures forall k' | k' != Segments(k)[0] :: Php.Get(r.attrs, k') == Php.Get(b.attrs, k')
  {
    if !Has(b, k) then
      assert !Shadowed(b.attrs, k) ==> !Shadowed(Set(b, k, Arr([])).attrs, k) && Lookup(Set(b, k, Arr([])).attrs, k) == Some(Arr([])) by {
        if !Shadowed(b.attrs, k) {
          GetAfterSet(b, k, Arr([]), Null);
        }
      }
      Set(b, k, Arr([]))
    else b
  }

  /** `push($key, $value)`: append to the array at `key`, creating it when absent; a non-array is left alone. */
  function Push(b: Bag, k: string, v: Value): (r: Bag)
    ensures !Shadowed(b.attrs, k) && !Has(b, k) ==> Lookup(r.attrs, k) == Some(Arr([Entry("0", v)]))
    ensures !Shadowed(b.attrs, k) && Lookup(b.attrs, k).Some? && Lookup(b.attrs, k).value.Arr? ==>
      Lookup(r.attrs, k) == Some(Arr(AppendValue(Lookup(b.attrs, k).value.entries, v)))
    ensures Lookup(b.attrs, k).Some? && !Lookup(b.attrs, k).value.Arr? ==> r == b
    ensures forall k' | k' != Segments(k)[0] :: Php.Get(r.attrs, k') == Php.Get(b.attrs, k')
  {
    var b1 := Vivify(b, k);
    var cur := Get(b1, k, Str(""));
    if cur.Arr? then
      var r := Set(b1, k, Arr(AppendValue(cur.entries, v)));
      assert !Shadowed(b.attrs, k) ==> Lookup(r.attrs, k) == Some(Arr(AppendValue(cur.entries, v))) by {
        if !Shadowed(b.attrs, k) {
          GetAfterSet(b1, k, Arr(AppendValue(cur.entries, v)), Null);
        }
      }
      assert AppendValue([], v) == [Entry("0", v)];
      r
    else b1
  }

  /** `unshift($value, $key)`: prepend to the array at `key`, creating it when absent; a non-array is left alone. */
  function Unshift(b: Bag, v: Value, k: string): (r: Bag)
    ensures !Shadowed(b.attrs, k) && !Has(b, k) ==> Lookup(r.attrs, k) == Some(Arr([Entry("0", v)]))
    ensures !Shadowed(b.attrs, k) && Lookup(b.attrs, k).Some? && Lookup(b.attrs, k).value.Arr? ==>
      Lookup(r.attrs, k) == Some(Arr(PrependValue(Lookup(b.attrs, k).value.entries, v)))
    ensures Lookup(b.attrs, k).Some? && !Lookup(b.attrs, k).value.Arr? ==> r == b
    ensures forall k' | k' != Segments(k)[0] :: Php.Get(r.attrs, k') == Php.Get(b.attrs, k')
  {
    var b1 := Vivify(b, k);
    var cur := Get(b1, k, Str(""));
    if cur.Arr? then
      var r := Set(b1, k, Arr(PrependValue(cur.entries, v)));
      assert PrependValue([], v) == [Entry("0", v)];
      assert !Shadowed(b.attrs, k) ==> Lookup(r.attrs, k) == Some(Arr(PrependValue(cur.entries, v))) by {
        if !Shadowed(b.attrs, k) {
          GetAfterSet(b1, k, Arr(PrependValue(cur.entries, v)), Null);
        }
      }
      r
    else b1
  }

  // ---------------------------------------------------------------------
  // Top-level views and ArrayAccess
  // ---------------------------------------------------------------------

  /** `count()`: top-level entries only. */
  function Count(b: Bag): (n: nat)
    ensures n == |Php.Keys(b.attrs)| == |Php.Values(b.attrs)|
  {
    |b.attrs|
  }

  /** `keys()` and `values()` line up: the i-th key looks up the i-th value. */
  lemma {:induction false} KeysValuesAlign(b: Bag, i: nat)
    requires UniqueKeys(b.attrs) && i < Count(b)
    ensures Php.Get(b.attrs, Php.Keys(b.attrs)[i]) == Some(Php.Values(b.attrs)[i])
  {
    GetAtIndex(b.attrs, i);
  }

  lemma {:induction false} GetAtIndex(a: PArray, i: nat)
    requires UniqueKeys(a) && i < |a|
    ensures Php.Get(a, a[i].key) == Some(a[i].val)
    decreases i
  {
    if i > 0 {
      GetAtIndex(a[1..], i - 1);
      assert a[1..][i - 1] == a[i];
      assert KeyIn(a[1..], a[i].key);
    }
  }

  /** `clear()`: nothing is left to count, read or find. */
  function Clear(b: Bag): (r: Bag)
    ensures Count(r) == 0
    ensures forall k :: !Has(r, k) && Lookup(r.attrs, k).None?
  {
    forall k ensures !Has(Bag([]), k) {
    }
    Bag([])
  }

  /** `only($keys)`: the top-level entries whose literal key is listed, in the bag's order. */
  function Only(b: Bag, keys: seq<string>): (r: PArray)
    ensures forall k :: Php.Get(r, k) == if k in keys then Php.Get(b.attrs, k) else None
    ensures |r| <= Count(b)
  {
    Filter(b.attrs, keys)
  }

  function Filter(a: PArray, keys: seq<string>): (r: PArray)
    ensures forall k :: Php.Get(r, k) == if k in keys then Php.Get(a, k) else None
    ensures |r| <= |a|
    decreases |a|
  {
    if a == [] then []
    else if a[0].key in keys then [a[0]] + Filter(a[1..], keys)
    else Filter(a[1..], keys)
  }

  /** `offsetExists`: `isset` on the literal key, so a key holding `null` does not count. */
  predicate OffsetExists(b: Bag, k: string)
    ensures OffsetExists(b, k) <==> Php.Isset(b.attrs, k)
    ensures OffsetExists(b, k) ==> Has(b, k)
  {
    Php.Get(b.attrs, k).Some? && Php.Get(b.attrs, k).value != Null
  }

  /** A key that holds `null` is found by `has` but not by `offsetExists`. */
  lemma NullKeyHasButNotExists(b: Bag, k: string)
    requires Php.Get(b.attrs, k) == Some(Null)
    ensures Has(b, k) && !OffsetExists(b, k)
  {
  }

  /** Why `offsetGet` throws: `get(string $key)` under strict types refuses any other offset (a `TypeError`). */
  datatype AccessError = NonStringOffset

  /**
   * `offsetGet` goes through `get`, so unlike the other `ArrayAccess` methods
   * it reads dotted paths; an offset that is not a string never reaches it.
   */
  function OffsetGet(b: Bag, offset: Value): (r: Result<Value, AccessError>)
    ensures r.Err? <==> !offset.Str?
    ensures offset.Str? && Lookup(b.attrs, offset.s).None? ==> r == Ok(Str(""))
    ensures offset.Str? && Lookup(b.attrs, offset.s).Some? ==> r == Ok(Lookup(b.attrs, offset.s).value)
  {
    match offset
    case Str(k) => Ok(Get(b, k, Str("")))
    case _ => Err(NonStringOffset)
  }

  /** `$bag['a.b']` reads the nested value even though `isset($bag['a.b'])` is false. */
  lemma OffsetGetIsDotted()
    ensures
      var b := Bag([Entry("a", Arr([Entry("b", Int(1))]))]);
      OffsetGet(b, Str("a.b")) == Ok(Int(1)) && !OffsetExists(b, "a.b")
  {
    assert Segments("a.b") == ["a", "b"] by {
      assert FirstIndex("a.b", '.') == 1;
      assert "a.b"[2..] == "b";
      assert "a.b"[..1] == "a";
    }
  }

  /**
   * `offsetSet`: a literal write. `$bag[] = $v` passes a `null` offset, and
   * PHP stores an array write at key `null` under the key `''`.
   */
  function OffsetSet(b: Bag, k: Option<string>, v: Value): (r: Bag)
    ensures Php.Get(r.attrs, k.GetOr("")) == Some(v)
    ensures forall k' | k' != k.GetOr("") :: Php.Get(r.attrs, k') == Php.Get(b.attrs, k')
    ensures UniqueKeys(b.attrs) ==> UniqueKeys(r.attrs)
  {
    Bag(Php.Put(b.attrs, k.GetOr(""), v))
  }

  /** Two appends through `$bag[] = …` land on the same key `''`: the second replaces the first. */
  lemma NullOffsetOverwrites(b: Bag, v: Value, w: Value)
    ensures OffsetGet(OffsetSet(OffsetSet(b, None, v), None, w), Str("")) == Ok(w)
    ensures Php.Get(OffsetSet(OffsetSet(b, None, v), None, w).attrs, "") == Some(w)
  {
  }

  /** `offsetUnset`: removes the literal key and nothing else. */
  function OffsetUnset(b: Bag, k: string): (r: Bag)
    ensures !KeyIn(r.attrs, k) && !OffsetExists(r, k)
    ensures forall k' | k' != k :: Php.Get(r.attrs, k') == Php.Get(b.attrs, k')
  {
    Bag(Php.Remove(b.attrs, k))
  }

  // ---------------------------------------------------------------------
  // parse / createFromAttrs
  // ---------------------------------------------------------------------

  /** `parse()`: `array_merge($this->defaults(), $this->attributes)`; `defaults()` is `[]` unless overridden. */
  /** In `parse`, a string key keeps the bag's value and takes the default only when the bag lacks it. */
  function Parse(b: Bag, defaults: PArray): (r: Bag)
    ensures UniqueKeys(b.attrs) && UniqueKeys(defaults) ==>
      forall k | !IsIntKey(k) :: Php.Get(r.attrs, k) == if KeyIn(b.attrs, k) then Php.Get(b.attrs, k) else Php.Get(defaults, k)
  {
    var r := Bag(ArrayMerge(defaults, b.attrs));
    assert UniqueKeys(b.attrs) && UniqueKeys(defaults) ==>
      forall k | !IsIntKey(k) :: Php.Get(r.attrs, k) == if KeyIn(b.attrs, k) then Php.Get(b.attrs, k) else Php.Get(defaults, k) by {
      if UniqueKeys(b.attrs) && UniqueKeys(defaults) {
        forall k | !IsIntKey(k)
          ensures Php.Get(r.attrs, k) == if KeyIn(b.attrs, k) then Php.Get(b.attrs, k) else Php.Get(defaults, k)
        {
          ArrayMergeStringKey(defaults, b.attrs, k);
        }
      }
    }
    r
  }

  /**
   * `createFromAttrs($attrs)`: a fresh bag, `set($attrs)`, then `parse()`.
   * With flat string keys, the bag holds each given attribute and takes
   * the defaults for the rest.
   */
  function CreateFromAttrs(attrs: PArray, defaults: PArray): (r: Bag)
    ensures UniqueKeys(attrs) && UniqueKeys(defaults) && (forall i | 0 <= i < |attrs| :: '.' !in attrs[i].key) ==>
      forall k | !IsIntKey(k) :: Php.Get(r.attrs, k) == if KeyIn(attrs, k) then Php.Get(attrs, k) else Php.Get(defaults, k)
  {
    var s := SetAll(Empty, attrs);
    assert UniqueKeys(attrs) && (forall i | 0 <= i < |attrs| :: '.' !in attrs[i].key) ==>
      UniqueKeys(s.attrs) && forall k :: Php.Get(s.attrs, k) == Php.Get(attrs, k) by {
      if UniqueKeys(attrs) && (forall i | 0 <= i < |attrs| :: '.' !in attrs[i].key) {
        forall k ensures Php.Get(s.attrs, k) == Php.Get(attrs, k) {
          SetAllFlat(Empty, attrs, k);
        }
      }
    }
    Parse(s, defaults)
  }
}

=== FILE: php.dfy ===
/**
 * The slice of PHP's value semantics the core depends on: ordered arrays,
 * integer-key normalisation, truthiness, `is_numeric`, `(int)` casts of
 * numeric strings, loose and strict `in_array`, `array_merge`,
 * `array_push` and `array_unshift`.
 *
 * An array is an ordered list of entries. PHP stores the key `"5"` as the
 * integer 5, so `"5"` and `5` are one key; the model therefore writes every
 * key as a string and an integer key as its canonical decimal form
 * (`IsIntKey`).
 */
module Php {
  import opened Wrappers
  import opened Text

  datatype Value =
    | Null
    | Bool(b: bool)
    | Int(i: int)
    | Str(s: string)
    | Arr(entries: seq<Entry>)
    | Obj(cls: string, id: nat)

  datatype Entry = Entry(key: string, val: Value)

  type PArray = seq<Entry>

  // ---------------------------------------------------------------------
  // Keyed access
  // ---------------------------------------------------------------------

  /** `$a[$k] ?? null` as an option: the value of the first entry keyed `k`. */
  function Get(a: PArray, k: string): Option<Value>
    decreases |a|
  {
    if a == [] then None
    else if a[0].key == k then Some(a[0].val)
    else Get(a[1..], k)
  }

  /** `array_key_exists($k, $a)`. */
  predicate KeyIn(a: PArray, k: string) {
    Get(a, k).Some?
  }

  /** `isset($a[$k])`: the key is present and its value is not `null`. */
  predicate Isset(a: PArray, k: string) {
    Get(a, k).Some? && !Get(a, k).value.Null?
  }

  /** No key occurs twice: every array PHP can build has this shape. */
  predicate UniqueKeys(a: PArray)
    decreases |a|
  {
    a == [] || (!KeyIn(a[1..], a[0].key) && UniqueKeys(a[1..]))
  }

  /** `$a[$k] = $v`: an existing key keeps its position, a new one goes last. */
  function Put(a: PArray, k: string, v: Value): (r: PArray)
    ensures Get(r, k) == Some(v)
    ensures forall k' | k' != k :: Get(r, k') == Get(a, k')
    ensures KeyIn(a, k) ==> |r| == |a|
    ensures !KeyIn(a, k) ==> r == a + [Entry(k, v)]
    ensures UniqueKeys(a) ==> UniqueKeys(r)
    decreases |a|
  {
    if a == [] then [Entry(k, v)]
    else if a[0].key == k then [Entry(k, v)] + a[1..]
    else [a[0]] + Put(a[1..], k, v)
  }

  /** `unset($a[$k])`: every other entry keeps its value and relative order. */
  function Remove(a: PArray, k: string): (r: PArray)
    ensures Get(r, k) == None
    ensures forall k' | k' != k :: Get(r, k') == Get(a, k')
    ensures |r| <= |a|
    ensures !KeyIn(a, k) ==> r == a
    ensures UniqueKeys(a) ==> UniqueKeys(r)
    decreases |a|
  {
    if a == [] then []
    else if a[0].key == k then Remove(a[1..], k)
    else [a[0]] + Remove(a[1..], k)
  }

  /** Looking a key up past an appended entry with another key. */
  lemma {:induction false} GetAppend(a: PArray, e: Entry, k: string)
    ensures Get(a + [e], k) == if KeyIn(a, k) then Get(a, k) else if e.key == k then Some(e.val) else None
    decreases |a|
  {
    if a != [] {
      assert (a + [e])[1..] == a[1..] + [e];
      GetAppend(a[1..], e, k);
    } else {
      assert (a + [e])[1..] == [];
    }
  }

  /** `array_keys`. */
  function Keys(a: PArray): (r: seq<string>)
    ensures |r| == |a|
  {
    seq(|a|, i requires 0 <= i < |a| => a[i].key)
  }

  /** `array_values`. */
  function Values(a: PArray): (r: seq<Value>)
    ensures |r| == |a|
  {
    seq(|a|, i requires 0 <= i < |a| => a[i].val)
  }

  // ---------------------------------------------------------------------
  // Integer keys and automatic indices
  // ---------------------------------------------------------------------

  /** A canonical decimal natural: digits only, no leading zero except `"0"` itself. */
  predicate IsCanonicalNat(s: string) {
    |s| >= 1 && AllDigits(s) && (s[0] != '0' || s == "0")
  }

  /** A key PHP stores as an integer: the canonical decimal form of one. */
  predicate IsIntKey(k: string) {
    IsCanonicalNat(k) || (|k| >= 2 && k[0] == '-' && IsCanonicalNat(k[1..]) && k[1..] != "0")
  }

  function IntKeyValue(k: string): int
    requires IsIntKey(k)
  {
    if k[0] == '-' then -(DigitsValue(k[1..]) as int) else DigitsValue(k)
  }

  /** Integer keys are exactly the decimal forms of integers. */
  lemma IntToStringIsIntKey(i: int)
    ensures IsIntKey(IntToString(i)) && IntKeyValue(IntToString(i)) == i
  {
    if i < 0 {
      var r := IntToString(i);
      assert r[1..] == NatToString(-i);
    }
  }

  /** An integer key's value determines it. */
  lemma {:induction false} IntKeyValueInjective(k: string, i: int)
    requires IsIntKey(k) && IntKeyValue(k) == i
    ensures k == IntToString(i)
  {
    if k[0] == '-' {
      CanonicalNatUnique(k[1..], NatToString(-i));
      assert k == [k[0]] + k[1..];
    } else {
      CanonicalNatUnique(k, NatToString(i));
    }
  }

  lemma {:induction false} CanonicalNatUnique(s: string, t: string)
    requires IsCanonicalNat(s) && IsCanonicalNat(t) && DigitsValue(s) == DigitsValue(t)
    ensures s == t
    decreases |s| + |t|
  {
    if |s| >= 2 {
      DigitsValueBound(s);
    }
    if |t| >= 2 {
      DigitsValueBound(t);
    }
    if |s| >= 2 && |t| >= 2 {
      var s', t' := s[..|s| - 1], t[..|t| - 1];
      assert s'[0] == s[0] && t'[0] == t[0];
      assert DigitsValue(s') == DigitsValue(t');
      CanonicalNatUnique(s', t');
      assert s == s' + [s[|s| - 1]];
      assert t == t' + [t[|t| - 1]];
    }
  }

  /** A canonical numeral of two or more digits denotes at least ten. */
  lemma {:induction false} DigitsValueBound(s: string)
    requires IsCanonicalNat(s) && |s| >= 2
    ensures DigitsValue(s) >= 10
    decreases |s|
  {
    var p := s[..|s| - 1];
    assert p[0] == s[0];
    if |p| >= 2 {
      DigitsValueBound(p);
    } else {
      assert DigitsValue(p) == DigitsValue([]) * 10 + (p[0] as int - '0' as int);
    }
  }

  /**
   * The index `$a[] = $v` takes in an array built without removals: one
   * past the largest integer key, and at least 0. PHP keeps a separate
   * next-free counter that `unset` does not lower; the array values here
   * do not carry it.
   */
  function NextIndex(a: PArray): (n: nat)
    ensures forall i | 0 <= i < |a| && IsIntKey(a[i].key) :: IntKeyValue(a[i].key) < n
    decreases |a|
  {
    if a == [] then 0
    else
      var rest := NextIndex(a[1..]);
      if IsIntKey(a[0].key) && IntKeyValue(a[0].key) >= rest then IntKeyValue(a[0].key) + 1 else rest
  }

  /** `array_push($a, $v)`: `v` goes last under a fresh integer key. */
  function AppendValue(a: PArray, v: Value): (r: PArray)
    ensures |r| == |a| + 1 && r[..|a|] == a && r[|a|].val == v
    ensures IsIntKey(r[|a|].key) && !KeyIn(a, r[|a|].key)
    ensures Values(r) == Values(a) + [v]
    ensures forall k | !IsIntKey(k) :: Get(r, k) == Get(a, k)
    ensures UniqueKeys(a) ==> UniqueKeys(r)
  {
    var k := IntToString(NextIndex(a));
    IntToStringIsIntKey(NextIndex(a));
    FreshIndexAbsent(a, k);
    var r := a + [Entry(k, v)];
    forall k' | !IsIntKey(k') ensures Get(r, k') == Get(a, k') {
      GetAppend(a, Entry(k, v), k');
    }
    UniqueAppend(a, Entry(k, v));
    assert Values(r) == Values(a) + [v];
    r
  }

  lemma FreshIndexAbsent(a: PArray, k: string)
    requires k == IntToString(NextIndex(a))
    ensures !KeyIn(a, k)
  {
    IntToStringIsIntKey(NextIndex(a));
    forall j | 0 <= j < |a| ensures a[j].key != k {
      if IsIntKey(a[j].key) {
        assert IntKeyValue(a[j].key) < NextIndex(a);
      }
    }
    KeyAbsent(a, k);
  }

  /** A key no entry carries is absent. */
  lemma KeyAbsent(a: PArray, k: string)
    requires forall j | 0 <= j < |a| :: a[j].key != k
    ensures !KeyIn(a, k)
  {
    if KeyIn(a, k) {
      var j := KeyIndex(a, k);
    }
  }

  /** The position of a key that is present. */
  function KeyIndex(a: PArray, k: string): (j: nat)
    requires KeyIn(a, k)
    ensures j < |a| && a[j].key == k && Get(a, k) == Some(a[j].val)
    decreases |a|
  {
    if a[0].key == k then 0 else KeyIndex(a[1..], k) + 1
  }

  lemma {:induction false} UniqueAppend(a: PArray, e: Entry)
    requires !KeyIn(a, e.key)
    ensures UniqueKeys(a) ==> UniqueKeys(a + [e])
    decreases |a|
  {
    if a != [] {
      assert (a + [e])[1..] == a[1..] + [e];
      GetAppend(a[1..], e, a[0].key);
      UniqueAppend(a[1..], e);
    } else {
      assert (a + [e])[1..] == [];
    }
  }

  /**
   * The renumbering `array_unshift` applies: integer keys become
   * `next, next + 1, ...` in order, string keys are kept.
   */
  function Renumber(a: PArray, next: nat): (r: PArray)
    ensures |r| == |a| && Values(r) == Values(a)
    decreases |a|
  {
    if a == [] then []
    else
      var head := if IsIntKey(a[0].key) then Entry(IntToString(next), a[0].val) else a[0];
      var rest := Renumber(a[1..], if IsIntKey(a[0].key) then next + 1 else next);
      var r := [head] + rest;
      assert Values(r) == [a[0].val] + Values(rest);
      assert Values(a) == [a[0].val] + Values(a[1..]);
      r
  }

  /** Renumbering leaves every string key, and its value, where it was. */
  lemma {:induction false} RenumberStringKey(a: PArray, next: nat, k: string)
    requires !IsIntKey(k)
    ensures Get(Renumber(a, next), k) == Get(a, k)
    decreases |a|
  {
    if a != [] {
      IntToStringIsIntKey(next);
      RenumberStringKey(a[1..], if IsIntKey(a[0].key) then next + 1 else next, k);
    }
  }

  /** `array_unshift($a, $v)`: `v` first under key 0, then the renumbered entries. */
  function PrependValue(a: PArray, v: Value): (r: PArray)
    ensures |r| == |a| + 1 && r[0] == Entry("0", v)
    ensures Values(r) == [v] + Values(a)
    ensures forall k | !IsIntKey(k) :: Get(r, k) == Get(a, k)
  {
    var rest := Renumber(a, 1);
    var r := [Entry("0", v)] + rest;
    assert Values(r) == [v] + Values(rest);
    assert IsIntKey("0");
    forall k | !IsIntKey(k) ensures Get(r, k) == Get(a, k) {
      RenumberStringKey(a, 1, k);
    }
    r
  }

  // ---------------------------------------------------------------------
  // array_merge
  // ---------------------------------------------------------------------

  /** One step of `array_merge`: integer keys are appended afresh, string keys overwrite. */
  function MergeEntry(acc: PArray, e: Entry): PArray {
    if IsIntKey(e.key) then AppendValue(acc, e.val) else Put(acc, e.key, e.val)
  }

  function MergeInto(acc: PArray, b: PArray): PArray
    decreases |b|
  {
    if b == [] then acc else MergeInto(MergeEntry(acc, b[0]), b[1..])
  }

  /** `array_merge($a, $b)`. */
  function ArrayMerge(a: PArray, b: PArray): PArray {
    MergeInto(MergeInto([], a), b)
  }

  /** For a string key, the later array wins; a key only in the earlier array keeps its value. */
  lemma {:induction false} MergeIntoStringKey(acc: PArray, b: PArray, k: string)
    requires !IsIntKey(k) && UniqueKeys(b)
    ensures Get(MergeInto(acc, b), k) == if KeyIn(b, k) then Get(b, k) else Get(acc, k)
    decreases |b|
  {
    if b != [] {
      var acc' := MergeEntry(acc, b[0]);
      MergeIntoStringKey(acc', b[1..], k);
      if b[0].key == k {
        assert !KeyIn(b[1..], k);
      }
    }
  }

  /** `array_merge($defaults, $attrs)` for a string key: `attrs` wins, `defaults` fills in. */
  lemma ArrayMergeStringKey(a: PArray, b: PArray, k: string)
    requires !IsIntKey(k) && UniqueKeys(a) && UniqueKeys(b)
    ensures Get(ArrayMerge(a, b), k) == if KeyIn(b, k) then Get(b, k) else Get(a, k)
  {
    MergeIntoStringKey([], a, k);
    MergeIntoStringKey(MergeInto([], a), b, k);
  }

  // ---------------------------------------------------------------------
  // Truthiness, numeric strings, casts and comparisons
  // ---------------------------------------------------------------------

  /** PHP's boolean conversion: `null`, `false`, `0`, `""`, `"0"` and `[]` are falsy. */
  predicate Truthy(v: Value) {
    match v
    case Null => false
    case Bool(b) => b
    case Int(i) => i != 0
    case Str(s) => s != "" && s != "0"
    case Arr(a) => a != []
    case Obj(_, _) => true
  }

  /** `mant * 10^exp`, the exact value of a numeric string. */
  datatype Decimal = Decimal(mant: int, exp: int)

  function Pow10(n: nat): (r: nat)
    ensures r >= 1
  {
    if n == 0 then 1 else 10 * Pow10(n - 1)
  }

  predicate DecimalEq(x: Decimal, y: Decimal) {
    if x.exp <= y.exp then x.mant == y.mant * Pow10(y.exp - x.exp)
    else x.mant * Pow10(x.exp - y.exp) == y.mant
  }

  /** Truncation toward zero, as `(int)` does for a numeric string. */
  function TruncToInt(d: Decimal): int {
    if d.exp >= 0 then d.mant * Pow10(d.exp)
    else if d.mant >= 0 then d.mant / Pow10(-d.exp)
    else -((-d.mant) / Pow10(-d.exp))
  }

  /** PHP's whitespace for numeric strings: space, tab, newline, carriage return, vertical tab, form feed. */
  predicate IsNumWs(c: char) {
    c == ' ' || c == '\t' || c == '\n' || c == '\r' || c as int == 11 || c as int == 12
  }

  function WsEnd(s: string, i: nat): (j: nat)
    requires i <= |s|
    ensures i <= j <= |s| && (j == |s| || !IsNumWs(s[j]))
    decreases |s| - i
  {
    if i < |s| && IsNumWs(s[i]) then WsEnd(s, i + 1) else i
  }

  function DigitEnd(s: string, i: nat): (j: nat)
    requires i <= |s|
    ensures i <= j <= |s| && AllDigits(s[i..j]) && (j == |s| || !IsDigit(s[j]))
    decreases |s| - i
  {
    if i < |s| && IsDigit(s[i]) then
      var j := DigitEnd(s, i + 1);
      assert forall t | i <= t < j :: s[t] == (if t == i then s[i] else s[i + 1..j][t - i - 1]);
      j
    else i
  }

  /** An optional exponent `[eE][+-]?digits` at `i`: its value and where it ends (`i` itself when absent). */
  function Exponent(s: string, i: nat): (r: (int, nat))
    requires i <= |s|
    ensures i <= r.1 <= |s|
  {
    if i < |s| && (s[i] == 'e' || s[i] == 'E') then
      var j := if i + 1 < |s| && (s[i + 1] == '+' || s[i + 1] == '-') then i + 2 else i + 1;
      var k := DigitEnd(s, j);
      if k > j then
        var e: int := DigitsValue(s[j..k]);
        (if j == i + 2 && s[i + 1] == '-' then -e else e, k)
      else (0, i)
    else (0, i)
  }

  /**
   * The value of a PHP numeric string, or `None` when `is_numeric` rejects
   * it: optional surrounding whitespace, an optional sign, digits with at
   * most one decimal point (at least one digit in all), an optional exponent.
   */
  function NumericValue(s: string): Option<Decimal> {
    var i0 := WsEnd(s, 0);
    var neg := i0 < |s| && s[i0] == '-';
    var i1 := if i0 < |s| && (s[i0] == '+' || s[i0] == '-') then i0 + 1 else i0;
    var i2 := DigitEnd(s, i1);
    var hasDot := i2 < |s| && s[i2] == '.';
    var i3 := if hasDot then DigitEnd(s, i2 + 1) else i2;
    var intDigits := s[i1..i2];
    var fracDigits := if hasDot then s[i2 + 1..i3] else "";
    if |intDigits| + |fracDigits| == 0 then None
    else
      var ex := Exponent(s, i3);
      if WsEnd(s, ex.1) != |s| then None
      else
        var m: int := DigitsValue(intDigits + fracDigits);
        Some(Decimal(if neg then -m else m, ex.0 - |fracDigits|))
  }

  /** `is_numeric` on a string. */
  predicate IsNumericString(s: string) {
    NumericValue(s).Some?
  }

  /** `is_numeric($v)`: integers and numeric strings (floats are not modelled). */
  predicate IsNumeric(v: Value) {
    v.Int? || (v.Str? && IsNumericString(v.s))
  }

  /** `(int)$v` for a value that `is_numeric` accepts. */
  function NumericToInt(v: Value): int
    requires IsNumeric(v)
  {
    if v.Int? then v.i else TruncToInt(NumericValue(v.s).value)
  }

  /** A canonical decimal integer is numeric and denotes itself. */
  lemma {:induction false} IntKeyIsNumeric(k: string)
    requires IsIntKey(k)
    ensures IsNumericString(k)
    ensures NumericValue(k) == Some(Decimal(IntKeyValue(k), 0))
  {
    var i1 := if k[0] == '-' then 1 else 0;
    assert WsEnd(k, 0) == 0;
    assert forall t | i1 <= t < |k| :: IsDigit(k[t]) by {
      if i1 == 1 {
        assert forall t | 1 <= t < |k| :: k[t] == k[1..][t - 1];
      }
    }
    DigitEndAll(k, i1);
    assert k[i1..|k|] == (if i1 == 1 then k[1..] else k);
    assert k[i1..|k|] + "" == k[i1..|k|];
  }

  lemma {:induction false} DigitEndAll(s: string, i: nat)
    requires i <= |s|
    requires forall t | i <= t < |s| :: IsDigit(s[t])
    ensures DigitEnd(s, i) == |s|
    decreases |s| - i
  {
    if i < |s| {
      DigitEndAll(s, i + 1);
    }
  }

  /**
   * `$s == $v` under PHP 8 rules, for a string `s`: numeric strings compare
   * by value with numbers and with other numeric strings; otherwise strings
   * compare byte for byte; booleans compare truthiness; `null` equals only
   * the empty string.
   */
  predicate LooseEqualsString(s: string, v: Value) {
    match v
    case Null => s == ""
    case Bool(b) => Truthy(Str(s)) == b
    case Int(i) =>
      if IsNumericString(s) then DecimalEq(NumericValue(s).value, Decimal(i, 0)) else s == IntToString(i)
    case Str(t) =>
      if IsNumericString(s) && IsNumericString(t) then DecimalEq(NumericValue(s).value, NumericValue(t).value)
      else s == t
    case Arr(_) => false
    case Obj(_, _) => false
  }

  /** `in_array($s, $list)` (loose) and `in_array($s, $list, true)` (strict). */
  predicate InArray(s: string, list: seq<Value>, strict: bool) {
    exists i | 0 <= i < |list| :: if strict then list[i] == Str(s) else LooseEqualsString(s, list[i])
  }

  /** A string is loosely equal to itself. */
  lemma LooseEqualsReflexive(s: string)
    ensures LooseEqualsString(s, Str(s))
  {
    if IsNumericString(s) {
      var d := NumericValue(s).value;
      assert Pow10(0) == 1;
      assert DecimalEq(d, d);
    }
  }

  /** Strict membership implies loose membership; the converse fails (`"1"` is loosely in `["01"]`). */
  lemma StrictInArrayImpliesLoose(s: string, list: seq<Value>)
    ensures InArray(s, list, true) ==> InArray(s, list, false)
  {
    if InArray(s, list, true) {
      var i :| 0 <= i < |list| && list[i] == Str(s);
      LooseEqualsReflexive(s);
    }
  }

  /** A key that starts with a letter is a string key. */
  lemma LetterKeyNotInt(k: string)
    requires |k| > 0 && 'a' <= k[0] <= 'z'
    ensures !IsIntKey(k)
  {
    assert !IsDigit(k[0]);
  }

  /** An array of two entries with different keys: its keys are unique, and each key finds its own value. */
  lemma TwoEntries(k1: string, v1: Value, k2: string, v2: Value, k: string)
    requires k1 != k2
    ensures UniqueKeys([Entry(k1, v1), Entry(k2, v2)])
    ensures Get([Entry(k1, v1), Entry(k2, v2)], k) == if k == k1 then Some(v1) else if k == k2 then Some(v2) else None
  {
    var a := [Entry(k1, v1), Entry(k2, v2)];
    var b := [Entry(k2, v2)];
    assert a[1..] == b && b[1..] == [];
    assert Get(b, k) == if k == k2 then Some(v2) else None;
    assert Get(b, k1) == None;
    assert UniqueKeys(b);
  }

  /** Loose membership is wider than strict: `"1"` is loosely, but not strictly, in `["01"]`. */
  lemma LooseWiderThanStrict()
    ensures InArray("1", [Str("01")], false)
    ensures !InArray("1", [Str("01")], true)
  {
    var s := "01";
    assert WsEnd(s, 0) == 0;
    assert DigitEnd(s, 2) == 2;
    assert DigitEnd(s, 1) == 2;
    assert DigitEnd(s, 0) == 2;
    assert Exponent(s, 2) == (0, 2);
    assert WsEnd(s, 2) == 2;
    assert s[0..2] + "" == s;
    assert DigitsValue(s[..1]) == 0;
    assert DigitsValue(s) == 1;
    assert NumericValue(s) == Some(Decimal(1, 0));
    assert IsIntKey("1") && IntKeyValue("1") == 1;
    IntKeyIsNumeric("1");
    assert LooseEqualsString("1", [Str(s)][0]);
  }

  /** PHP's class table as far as the code consults it: `class_exists` and inheritance. */
  datatype ClassTable = ClassTable(defined: string -> bool, inherits: (string, string) -> bool)

  /** `$o instanceof C` for an object of class `cls`: the class itself or a descendant. */
  predicate InstanceOf(t: ClassTable, cls: string, of: string) {
    cls == of || t.inherits(cls, of)
  }

  /** `Arr::wrap`: `null` is the empty list, an array its values, anything else a one-element list. */
  function Wrap(v: Value): (r: seq<Value>)
    ensures v.Arr? ==> r == Values(v.entries)
    ensures v.Null? ==> r == []
    ensures !v.Arr? && !v.Null? ==> r == [v]
  {
    match v
    case Null => []
    case Arr(a) => Values(a)
    case _ => [v]
  }

  /** `(string)$v` for the scalars string interpolation accepts; arrays and objects have none. */
  function ToText(v: Value): Option<string> {
    match v
    case Null => Some("")
    case Bool(b) => Some(if b then "1" else "")
    case Int(i) => Some(IntToString(i))
    case Str(s) => Some(s)
    case Arr(_) => None
    case Obj(_, _) => None
  }
}

=== FILE: query_post.dfy ===
/**
 * `QueryPost`: the static side of the post wrapper. It builds an instance
 * from a WordPress post and picks the instance's class. It dispatches
 * `create` and `fetch` on the type of their argument, builds the
 * `WP_Query` arguments, and filters query results by post type.
 *
 * WordPress is an input: `get_post`, the global post and query, and
 * running a `WP_Query` are fields of `PostWp`. The static properties are
 * one record shared by the whole class hierarchy, as they are when no
 * subclass redeclares them.
 */
module QueryPost {
  import opened Wrappers
  import opened Php

  /** A `WP_Post`, reduced to what the class reads: its id and post type. */
  datatype WpPost = WpPost(id: int, postType: string)

  /** A wrapper instance: its class and the post it wraps (`getId`, `getType`). */
  datatype PostInstance = PostInstance(cls: string, post: WpPost)

  /** The parts of a `WP_Query` read here: its posts and `found_posts`. */
  datatype WpQuery = WpQuery(posts: seq<WpPost>, foundPosts: int)

  /** The static properties: `$builtInClasses`, `$defaultArgs`, `$fallbackClass`, `$postType`. */
  datatype PostStatics = PostStatics(
    builtInClasses: map<string, string>,
    defaultArgs: PArray,
    fallbackClass: Option<string>,
    postType: Value)

  /** The statics as declared: no classes, no default arguments, post type `'any'`. */
  const InitialStatics: PostStatics := PostStatics(map[], [], None, Str("any"))

  /** WordPress: `get_post`, `global $post`, `global $wp_query`, and `new WP_Query($args)`. */
  datatype PostWp = PostWp(
    getPost: int -> Option<WpPost>,
    globalPost: Option<WpPost>,
    globalQuery: WpQuery,
    run: PArray -> WpQuery)

  /** Everything a static call sees: the statics, the called class (`static::class`), the class table and WordPress. */
  datatype Ctx = Ctx(statics: PostStatics, caller: string, classes: ClassTable, wp: PostWp)

  /** The object passed to `build`: a `WP_Post` or anything else. */
  datatype WpObject = APost(post: WpPost) | OtherObject

  /** The argument of `create`: a plain PHP value, a `WP_Post`, or a wrapper instance. */
  datatype PostArg = PlainArg(v: Value) | WpPostArg(post: WpPost) | InstanceArg(instance: PostInstance)

  /** The argument of `fetch`: a plain PHP value or a `WP_Query`. */
  datatype FetchArg = PlainQuery(v: Value) | QueryObject(query: WpQuery)

  // ---------------------------------------------------------------------
  // Statics
  // ---------------------------------------------------------------------

  /** `setBuiltInClass($post_type, $classname)`: `'any'` sets the fallback class, any other type its own entry. */
  function SetBuiltInClass(s: PostStatics, postType: string, cls: string): (r: PostStatics)
    ensures postType == "any" ==> r.fallbackClass == Some(cls) && r.builtInClasses == s.builtInClasses
    ensures postType != "any" ==> r.fallbackClass == s.fallbackClass && postType in r.builtInClasses && r.builtInClasses[postType] == cls
    ensures forall t | t != postType && t in s.builtInClasses :: t in r.builtInClasses && r.builtInClasses[t] == s.builtInClasses[t]
    ensures r.builtInClasses.Keys <= s.builtInClasses.Keys + {postType}
    ensures r.defaultArgs == s.defaultArgs && r.postType == s.postType
  {
    if postType == "any" then s.(fallbackClass := Some(cls))
    else s.(builtInClasses := s.builtInClasses[postType := cls])
  }

  /** Whether the post type restricts results: it is truthy and not the string `'any'`. */
  predicate FiltersByType(t: Value) {
    Truthy(t) && t != Str("any")
  }

  // ---------------------------------------------------------------------
  // Instances
  // ---------------------------------------------------------------------

  /** `typeIn($post_types)`: the post type is loosely `in_array` of the wrapped argument. */
  predicate TypeIn(p: PostInstance, types: Value) {
    InArray(p.post.postType, Wrap(types), false)
  }

  /** A single type is matched by loose equality; a list by loose membership of its values. */
  lemma TypeInShapes(p: PostInstance, types: Value)
    ensures types.Str? ==> (TypeIn(p, types) <==> LooseEqualsString(p.post.postType, types))
    ensures types.Arr? ==> (TypeIn(p, types) <==> InArray(p.post.postType, Values(types.entries), false))
    ensures types.Null? ==> !TypeIn(p, types)
  {
    if types.Str? && LooseEqualsString(p.post.postType, types) {
      assert Wrap(types)[0] == types;
    }
  }

  /**
   * `build($wp_post)`: a non-post gives `null`. Otherwise the class is
   * the post type's entry in `$builtInClasses`, else a truthy fallback
   * class, else the called class; a class that does not exist is replaced
   * by the called class.
   */
  function Build(c: Ctx, obj: WpObject): (r: Option<PostInstance>)
    ensures r.Some? <==> obj.APost?
    ensures r.Some? ==> r.value.post == obj.post
    ensures r.Some? && obj.post.postType in c.statics.builtInClasses ==>
      r.value.cls == (if c.classes.defined(c.statics.builtInClasses[obj.post.postType]) then c.statics.builtInClasses[obj.post.postType] else c.caller)
    ensures r.Some? && obj.post.postType !in c.statics.builtInClasses && c.statics.fallbackClass.Some? && Truthy(Str(c.statics.fallbackClass.value)) ==>
      r.value.cls == (if c.classes.defined(c.statics.fallbackClass.value) then c.statics.fallbackClass.value else c.caller)
    ensures r.Some? && obj.post.postType !in c.statics.builtInClasses && (c.statics.fallbackClass.None? || !Truthy(Str(c.statics.fallbackClass.value))) ==>
      r.value.cls == c.caller
  {
    match obj
    case OtherObject => None
    case APost(p) =>
      var s := c.statics;
      var cls :=
        if p.postType in s.builtInClasses then s.builtInClasses[p.postType]
        else if s.fallbackClass.Some? && Truthy(Str(s.fallbackClass.value)) then s.fallbackClass.value
        else c.caller;
      Some(PostInstance(if c.classes.defined(cls) then cls else c.caller, p))
  }

  /** A registered class that exists is the class of every post of that type built afterwards. */
  lemma BuildAfterSetBuiltInClass(c: Ctx, postType: string, cls: string, p: WpPost)
    requires postType != "any" && p.postType == postType && c.classes.defined(cls)
    ensures Build(c.(statics := SetBuiltInClass(c.statics, postType, cls)), APost(p)) == Some(PostInstance(cls, p))
  {
  }

  /** `'any'` registers a fallback: it serves every type without an entry of its own. */
  lemma BuildAfterSetAny(c: Ctx, cls: string, p: WpPost)
    requires p.postType !in c.statics.builtInClasses && Truthy(Str(cls)) && c.classes.defined(cls)
    ensures Build(c.(statics := SetBuiltInClass(c.statics, "any", cls)), APost(p)) == Some(PostInstance(cls, p))
  {
  }

  /**
   * `static::is($instance)` called on class `of`: an instance of that
   * class (or a descendant) whose type is in the class's post type when
   * that restricts anything. `None` stands for a value that is no
   * wrapper instance at all.
   */
  predicate Is(c: Ctx, inst: Option<PostInstance>, of: string) {
    inst.Some? && InstanceOf(c.classes, inst.value.cls, of) &&
    (FiltersByType(c.statics.postType) ==> TypeIn(inst.value, c.statics.postType))
  }

  /** Asked of its own class, as `createFromId` asks it, `is` reduces to the type test. */
  lemma IsOwnClass(c: Ctx, p: PostInstance)
    ensures Is(c, Some(p), p.cls) <==> (FiltersByType(c.statics.postType) ==> TypeIn(p, c.statics.postType))
    ensures !Is(c, None, p.cls)
  {
  }

  /** With the post type `'any'`, falsy or unset, every instance of the class qualifies. */
  lemma IsUnrestricted(c: Ctx, p: PostInstance, of: string)
    requires !FiltersByType(c.statics.postType)
    ensures Is(c, Some(p), of) <==> InstanceOf(c.classes, p.cls, of)
  {
  }

  // ---------------------------------------------------------------------
  // Creation
  // ---------------------------------------------------------------------

  /**
   * `createFromId($post_id)`: an instance exactly when the id is non-zero,
   * WordPress has the post, and the instance passes its own class's `is`.
   */
  function CreateFromId(c: Ctx, id: int): (r: Option<PostInstance>)
    ensures r.Some? ==> id != 0 && c.wp.getPost(id).Some? && r.value.post == c.wp.getPost(id).value
    ensures r.Some? && FiltersByType(c.statics.postType) ==> TypeIn(r.value, c.statics.postType)
    ensures (id != 0 && c.wp.getPost(id).Some? &&
             (FiltersByType(c.statics.postType) ==> InArray(c.wp.getPost(id).value.postType, Wrap(c.statics.postType), false)))
            ==> r.Some?
  {
    if id != 0 && c.wp.getPost(id).Some? then
      var inst := Build(c, APost(c.wp.getPost(id).value));
      if Is(c, inst, inst.value.cls) then inst else None
    else None
  }

  /** `createFromGlobal()`: the global post, looked up again by its id; `null` when there is none. */
  function CreateFromGlobal(c: Ctx): (r: Option<PostInstance>)
    ensures c.wp.globalPost.None? ==> r.None?
    ensures r.Some? ==> c.wp.getPost(c.wp.globalPost.value.id) == Some(r.value.post)
  {
    match c.wp.globalPost
    case None => None
    case Some(p) => CreateFromId(c, p.id)
  }

  /**
   * The id `createFromName` looks up: the first post's, or `0` when the
   * query has none (`current([])` is `false`, whose `ID` is `null`).
   */
  function FirstId(q: WpQuery): (id: int)
    ensures q.posts == [] ==> id == 0
    ensures q.posts != [] ==> id == q.posts[0].id
  {
    if q.posts == [] then 0 else q.posts[0].id
  }

  /** The query `createFromName` runs: `name` through `parseQueryArgs`. */
  function NameArgs(s: PostStatics, name: string): PArray {
    ParseQueryArgs(s, [Entry("name", Str(name))])
  }

  /** `createFromName($post_name)`: an instance only when the name query found exactly one post. */
  function CreateFromName(c: Ctx, name: string): (r: Option<PostInstance>)
    ensures c.wp.run(NameArgs(c.statics, name)).foundPosts != 1 ==> r.None?
    ensures r.Some? ==>
      var q := c.wp.run(NameArgs(c.statics, name));
      q.posts != [] && c.wp.getPost(q.posts[0].id) == Some(r.value.post)
  {
    var q := c.wp.run(NameArgs(c.statics, name));
    if q.foundPosts == 1 then CreateFromId(c, FirstId(q)) else None
  }

  /**
   * `create($id)`: a numeric value (integer or numeric string) is an id,
   * recognised before strings; another string is a post name; a `WP_Post` is
   * built; a wrapper instance is looked up again by id; `null` is the
   * global post; any other value gives `null`.
   */
  function Create(c: Ctx, arg: PostArg): (r: Option<PostInstance>)
    ensures arg.PlainArg? && IsNumeric(arg.v) ==> r == CreateFromId(c, NumericToInt(arg.v))
    ensures arg.PlainArg? && arg.v.Str? && !IsNumeric(arg.v) ==> r == CreateFromName(c, arg.v.s)
    ensures arg.PlainArg? && arg.v.Null? ==> r == CreateFromGlobal(c)
    ensures arg.PlainArg? && (arg.v.Bool? || arg.v.Arr? || arg.v.Obj?) ==> r.None?
    ensures arg.WpPostArg? ==> r.Some? && r.value.post == arg.post && r == Build(c, APost(arg.post))
    ensures arg.InstanceArg? ==> r == CreateFromId(c, arg.instance.post.id)
  {
    match arg
    case PlainArg(v) =>
      if IsNumeric(v) then CreateFromId(c, NumericToInt(v))
      else if v.Str? then CreateFromName(c, v.s)
      else if v.Null? then CreateFromGlobal(c)
      else None
    case WpPostArg(p) => Build(c, APost(p))
    case InstanceArg(inst) => CreateFromId(c, inst.post.id)
  }

  /** `create('42')` looks post 42 up by id; it never runs a name query. */
  lemma CreateNumericString(c: Ctx)
    ensures Create(c, PlainArg(Str("42"))) == CreateFromId(c, 42)
  {
    assert "42"[..1] == "4" && "4"[..0] == "";
    assert IsIntKey("42") && IntKeyValue("42") == 42;
    IntKeyIsNumeric("42");
  }

  /** A `WP_Post` passed to `create` is built without the `is` check that ids go through. */
  lemma CreateFromWpPostSkipsIs(c: Ctx, p: WpPost)
    requires c.wp.getPost(p.id) == Some(p)
    requires FiltersByType(c.statics.postType) && !InArray(p.postType, Wrap(c.statics.postType), false)
    ensures Create(c, WpPostArg(p)).Some?
    ensures CreateFromId(c, p.id).None?
  {
    var inst := Build(c, APost(p));
    assert !Is(c, inst, inst.value.cls);
  }

  // ---------------------------------------------------------------------
  // Query arguments
  // ---------------------------------------------------------------------

  /**
   * `parseQueryArgs($args)`: `post_type` is filled in only when not set
   * (with the class's post type, or `'any'` when that is falsy), then the
   * result is `array_merge`d over the default arguments.
   */
  function ParseQueryArgs(s: PostStatics, args: PArray): (r: PArray)
    ensures UniqueKeys(args) && UniqueKeys(s.defaultArgs) ==> Isset(r, "post_type")
  {
    var filled :=
      if Isset(args, "post_type") then args
      else Put(args, "post_type", if Truthy(s.postType) then s.postType else Str("any"));
    var r := ArrayMerge(s.defaultArgs, filled);
    assert UniqueKeys(args) && UniqueKeys(s.defaultArgs) ==> Isset(r, "post_type") by {
      if UniqueKeys(args) && UniqueKeys(s.defaultArgs) {
        LetterKeyNotInt("post_type");
        assert Isset(filled, "post_type");
        ArrayMergeStringKey(s.defaultArgs, filled, "post_type");
      }
    }
    r
  }

  /**
   * The keys `parseQueryArgs` produces: a caller's non-null `post_type`
   * is kept, a missing one becomes the class's type or `'any'`; every
   * other string key comes from the caller when present, else from the
   * defaults.
   */
  lemma ParseQueryArgsKeys(s: PostStatics, args: PArray, k: string)
    requires UniqueKeys(args) && UniqueKeys(s.defaultArgs) && !IsIntKey(k)
    ensures k == "post_type" ==>
      Get(ParseQueryArgs(s, args), k) == if Isset(args, k) then Get(args, k) else Some(if Truthy(s.postType) then s.postType else Str("any"))
    ensures k != "post_type" ==>
      Get(ParseQueryArgs(s, args), k) == if KeyIn(args, k) then Get(args, k) else Get(s.defaultArgs, k)
  {
    var filled :=
      if Isset(args, "post_type") then args
      else Put(args, "post_type", if Truthy(s.postType) then s.postType else Str("any"));
    ArrayMergeStringKey(s.defaultArgs, filled, k);
  }

  // ---------------------------------------------------------------------
  // Fetching
  // ---------------------------------------------------------------------

  /**
   * `fetchFromWpQuery($wp_query)` over the query's posts: each post is
   * looked up again by id, failures are skipped, and when the post type
   * restricts anything only instances whose type is in it are kept.
   */
  function FetchFromWpQuery(c: Ctx, posts: seq<WpPost>): (r: seq<PostInstance>)
    ensures |r| <= |posts|
    ensures FiltersByType(c.statics.postType) ==> forall i | 0 <= i < |r| :: TypeIn(r[i], c.statics.postType)
    decreases |posts|
  {
    if posts == [] then []
    else
      var rest := FetchFromWpQuery(c, posts[1..]);
      match CreateFromId(c, posts[0].id)
      case None => rest
      case Some(inst) =>
        if FiltersByType(c.statics.postType) then
          if TypeIn(inst, c.statics.postType) then [inst] + rest else rest
        else [inst] + rest
  }

  /** The instances `createFromId` gives for the posts, in order, failures dropped: no type filter. */
  function Created(c: Ctx, posts: seq<WpPost>): (r: seq<PostInstance>)
    ensures |r| <= |posts|
    decreases |posts|
  {
    if posts == [] then []
    else
      match CreateFromId(c, posts[0].id)
      case None => Created(c, posts[1..])
      case Some(inst) => [inst] + Created(c, posts[1..])
  }

  /** The type filter in `fetchFromWpQuery` never removes anything: `createFromId` already applied it. */
  lemma {:induction false} FetchTypeFilterRedundant(c: Ctx, posts: seq<WpPost>)
    ensures FetchFromWpQuery(c, posts) == Created(c, posts)
    decreases |posts|
  {
    if posts != [] {
      FetchTypeFilterRedundant(c, posts[1..]);
    }
  }

  /** Fetching preserves order: the results for two runs of posts are the results for each, concatenated. */
  lemma {:induction false} FetchAppend(c: Ctx, a: seq<WpPost>, b: seq<WpPost>)
    ensures FetchFromWpQuery(c, a + b) == FetchFromWpQuery(c, a) + FetchFromWpQuery(c, b)
    decreases |a|
  {
    if a != [] {
      assert (a + b)[1..] == a[1..] + b;
      FetchAppend(c, a[1..], b);
    } else {
      assert a + b == b;
    }
  }

  /** A post whose lookup succeeds appears in the results; one whose lookup fails does not. */
  lemma FetchOne(c: Ctx, p: WpPost)
    ensures FetchFromWpQuery(c, [p]) == if CreateFromId(c, p.id).Some? then [CreateFromId(c, p.id).value] else []
  {
    assert [p][1..] == [];
  }

  /** The query `fetchFromIds` runs: `post__in` and `posts_per_page` through `parseQueryArgs`. */
  function IdsArgs(s: PostStatics, ids: PArray): PArray {
    ParseQueryArgs(s, [Entry("post__in", Arr(ids)), Entry("posts_per_page", Int(|ids|))])
  }

  /** The id query asks for exactly the given ids, one page of them, and fills in the post type. */
  lemma IdsArgsKeys(s: PostStatics, ids: PArray)
    requires UniqueKeys(s.defaultArgs)
    ensures Get(IdsArgs(s, ids), "post__in") == Some(Arr(ids))
    ensures Get(IdsArgs(s, ids), "posts_per_page") == Some(Int(|ids|))
    ensures Get(IdsArgs(s, ids), "post_type") == Some(if Truthy(s.postType) then s.postType else Str("any"))
  {
    var args := [Entry("post__in", Arr(ids)), Entry("posts_per_page", Int(|ids|))];
    TwoEntries("post__in", Arr(ids), "posts_per_page", Int(|ids|), "post_type");
    LetterKeyNotInt("post__in");
    LetterKeyNotInt("posts_per_page");
    LetterKeyNotInt("post_type");
    ParseQueryArgsKeys(s, args, "post__in");
    TwoEntries("post__in", Arr(ids), "posts_per_page", Int(|ids|), "post__in");
    ParseQueryArgsKeys(s, args, "posts_per_page");
    TwoEntries("post__in", Arr(ids), "posts_per_page", Int(|ids|), "posts_per_page");
    ParseQueryArgsKeys(s, args, "post_type");
  }

  /** `fetchFromIds($ids)`: no ids give no results without a query; otherwise the id query's results. */
  function FetchFromIds(c: Ctx, ids: PArray): (r: seq<PostInstance>)
    ensures ids == [] ==> r == []
    ensures ids != [] ==> r == FetchFromWpQuery(c, c.wp.run(IdsArgs(c.statics, ids)).posts)
  {
    if ids == [] then [] else FetchFromWpQuery(c, c.wp.run(IdsArgs(c.statics, ids)).posts)
  }

  /**
   * `fetch($query)`: an array is query arguments, a `WP_Query` is read
   * directly, `null` reads the global query; anything else gives `[]`.
   */
  function Fetch(c: Ctx, arg: FetchArg): (r: seq<PostInstance>)
    ensures arg.PlainQuery? && arg.v.Arr? ==> r == FetchFromWpQuery(c, c.wp.run(ParseQueryArgs(c.statics, arg.v.entries)).posts)
    ensures arg.QueryObject? ==> r == FetchFromWpQuery(c, arg.query.posts)
    ensures arg.PlainQuery? && arg.v.Null? ==> r == FetchFromWpQuery(c, c.wp.globalQuery.posts)
    ensures arg.PlainQuery? && !arg.v.Arr? && !arg.v.Null? ==> r == []
  {
    match arg
    case QueryObject(q) => FetchFromWpQuery(c, q.posts)
    case PlainQuery(v) =>
      match v
      case Arr(args) => FetchFromWpQuery(c, c.wp.run(ParseQueryArgs(c.statics, args)).posts)
      case Null => FetchFromWpQuery(c, c.wp.globalQuery.posts)
      case _ => []
  }
}

=== FILE: query_term.dfy ===
/**
 * The two term wrappers, `QueryTerm` and `TermQuery`. They have the same
 * static surface: building an instance from a `WP_Term` with a class
 * chosen by taxonomy, dispatching `create` and `fetch` on their
 * argument, building `WP_Term_Query` arguments, and filtering by
 * taxonomy. They differ in two places, so the wrapper is a parameter.
 * `taxIn` is loose in `QueryTerm` and strict in `TermQuery`. Only
 * `TermQuery` skips failed lookups when fetching.
 *
 * WordPress (`get_term`, `get_term_by`, the global query, running a
 * `WP_Term_Query`) is an input. The statics are one record shared by
 * the hierarchy.
 */
module Terms {
  import opened Wrappers
  import opened Php

  /** Which of the two classes is called. */
  datatype Flavor = QueryTermClass | TermQueryClass

  /** A `WP_Term`, reduced to its id and taxonomy. */
  datatype WpTerm = WpTerm(id: int, taxonomy: string)

  /** A wrapper instance: its class and the term it wraps (`getId`, `getTaxonomy`). */
  datatype TermInstance = TermInstance(cls: string, term: WpTerm)

  /** The statics: `$builtInClasses`, `$defaultArgs`, `$fallbackClass`, `$taxonomy`, `$hideEmpty`. */
  datatype TermStatics = TermStatics(
    builtInClasses: map<string, string>,
    defaultArgs: PArray,
    fallbackClass: Option<string>,
    taxonomy: string,
    hideEmpty: bool)

  /** The statics as declared: no classes, no defaults, taxonomy `''`, `hide_empty` false. */
  const InitialStatics: TermStatics := TermStatics(map[], [], None, "", false)

  /**
   * WordPress: `get_term`, `get_term_by('slug', …)`, whether the global
   * query is a taxonomy, category or tag archive and its queried object
   * id, and the terms a `WP_Term_Query` with given arguments returns.
   */
  datatype TermWp = TermWp(
    getTerm: int -> Option<WpTerm>,
    termBySlug: (string, string) -> Option<WpTerm>,
    isTermArchive: bool,
    queriedObjectId: int,
    run: PArray -> seq<WpTerm>)

  /** What a static call sees: the class family, the statics, the called class, the class table, WordPress. */
  datatype Ctx = Ctx(flavor: Flavor, statics: TermStatics, caller: string, classes: ClassTable, wp: TermWp)

  /** The object passed to `build`: a `WP_Term` or anything else. */
  datatype WpObject = ATerm(term: WpTerm) | OtherObject

  /** The argument of `create`: a plain PHP value, a `WP_Term`, or a wrapper instance. */
  datatype TermArg = PlainArg(v: Value) | WpTermArg(term: WpTerm) | InstanceArg(instance: TermInstance)

  /** The argument of `fetch`: a plain PHP value or a `WP_Term_Query` (given by the terms it returns). */
  datatype FetchArg = PlainQuery(v: Value) | QueryObject(terms: seq<WpTerm>)

  /** `setBuiltInClass($taxonomy, $classname)`: `'any'` sets the fallback class, any other taxonomy its own entry. */
  function SetBuiltInClass(s: TermStatics, taxonomy: string, cls: string): (r: TermStatics)
    ensures taxonomy == "any" ==> r.fallbackClass == Some(cls) && r.builtInClasses == s.builtInClasses
    ensures taxonomy != "any" ==> r.fallbackClass == s.fallbackClass && taxonomy in r.builtInClasses && r.builtInClasses[taxonomy] == cls
    ensures forall t | t != taxonomy && t in s.builtInClasses :: t in r.builtInClasses && r.builtInClasses[t] == s.builtInClasses[t]
    ensures r.builtInClasses.Keys <= s.builtInClasses.Keys + {taxonomy}
    ensures r.defaultArgs == s.defaultArgs && r.taxonomy == s.taxonomy && r.hideEmpty == s.hideEmpty
  {
    if taxonomy == "any" then s.(fallbackClass := Some(cls))
    else s.(builtInClasses := s.builtInClasses[taxonomy := cls])
  }

  /** Whether the class taxonomy restricts results: it is truthy and not `'any'`. */
  predicate FiltersByTaxonomy(t: string) {
    Truthy(Str(t)) && t != "any"
  }

  /** `taxIn($taxonomies)`: `in_array` of the term's taxonomy in the wrapped argument, loose or strict by class. */
  predicate TaxIn(f: Flavor, inst: TermInstance, taxonomies: Value) {
    InArray(inst.term.taxonomy, Wrap(taxonomies), f.TermQueryClass?)
  }

  /** `TermQuery`'s strict test implies `QueryTerm`'s loose one, but not the converse. */
  lemma TaxInLooseWider(inst: TermInstance, taxonomies: Value)
    ensures TaxIn(TermQueryClass, inst, taxonomies) ==> TaxIn(QueryTermClass, inst, taxonomies)
    ensures inst.term.taxonomy == "1" ==>
      TaxIn(QueryTermClass, inst, Str("01")) && !TaxIn(TermQueryClass, inst, Str("01"))
  {
    StrictInArrayImpliesLoose(inst.term.taxonomy, Wrap(taxonomies));
    if inst.term.taxonomy == "1" {
      assert Wrap(Str("01")) == [Str("01")];
      LooseWiderThanStrict();
    }
  }

  /**
   * `build($wp_term)`: a non-term gives `null`; otherwise the class is the
   * taxonomy's entry in `$builtInClasses`, else a truthy fallback, else
   * the called class; a class that does not exist is replaced by the
   * called class.
   */
  function Build(c: Ctx, obj: WpObject): (r: Option<TermInstance>)
    ensures r.Some? <==> obj.ATerm?
    ensures r.Some? ==> r.value.term == obj.term
    ensures r.Some? && obj.term.taxonomy in c.statics.builtInClasses ==>
      r.value.cls == (if c.classes.defined(c.statics.builtInClasses[obj.term.taxonomy]) then c.statics.builtInClasses[obj.term.taxonomy] else c.caller)
    ensures r.Some? && obj.term.taxonomy !in c.statics.builtInClasses && c.statics.fallbackClass.Some? && Truthy(Str(c.statics.fallbackClass.value)) ==>
      r.value.cls == (if c.classes.defined(c.statics.fallbackClass.value) then c.statics.fallbackClass.value else c.caller)
    ensures r.Some? && obj.term.taxonomy !in c.statics.builtInClasses && (c.statics.fallbackClass.None? || !Truthy(Str(c.statics.fallbackClass.value))) ==>
      r.value.cls == c.caller
  {
    match obj
    case OtherObject => None
    case ATerm(t) =>
      var s := c.statics;
      var cls :=
        if t.taxonomy in s.builtInClasses then s.builtInClasses[t.taxonomy]
        else if s.fallbackClass.Some? && Truthy(Str(s.fallbackClass.value)) then s.fallbackClass.value
        else c.caller;
      Some(TermInstance(if c.classes.defined(cls) then cls else c.caller, t))
  }

  /** A registered class that exists is the class of every term of that taxonomy built afterwards. */
  lemma BuildAfterSetBuiltInClass(c: Ctx, taxonomy: string, cls: string, t: WpTerm)
    requires taxonomy != "any" && t.taxonomy == taxonomy && c.classes.defined(cls)
    ensures Build(c.(statics := SetBuiltInClass(c.statics, taxonomy, cls)), ATerm(t)) == Some(TermInstance(cls, t))
  {
  }

  /**
   * `static::is($instance)` on class `of`: an instance of that class or a
   * descendant whose taxonomy passes `taxIn` when the class taxonomy
   * restricts anything. `None` is a value that is no instance at all.
   */
  predicate Is(c: Ctx, inst: Option<TermInstance>, of: string) {
    inst.Some? && InstanceOf(c.classes, inst.value.cls, of) &&
    (FiltersByTaxonomy(c.statics.taxonomy) ==> TaxIn(c.flavor, inst.value, Str(c.statics.taxonomy)))
  }

  /** Asked of its own class, as `createFromId` asks it, `is` reduces to the taxonomy test. */
  lemma IsOwnClass(c: Ctx, t: TermInstance)
    ensures Is(c, Some(t), t.cls) <==> (FiltersByTaxonomy(c.statics.taxonomy) ==> TaxIn(c.flavor, t, Str(c.statics.taxonomy)))
    ensures !Is(c, None, t.cls)
  {
  }

  /** `createFromId($term_id)`: an instance exactly when the id is non-zero, WordPress has the term, and its class's `is` accepts it. */
  function CreateFromId(c: Ctx, id: int): (r: Option<TermInstance>)
    ensures r.Some? ==> id != 0 && c.wp.getTerm(id).Some? && r.value.term == c.wp.getTerm(id).value
    ensures r.Some? && FiltersByTaxonomy(c.statics.taxonomy) ==> TaxIn(c.flavor, r.value, Str(c.statics.taxonomy))
    ensures (id != 0 && c.wp.getTerm(id).Some? &&
             (FiltersByTaxonomy(c.statics.taxonomy) ==>
                InArray(c.wp.getTerm(id).value.taxonomy, [Str(c.statics.taxonomy)], c.flavor.TermQueryClass?)))
            ==> r.Some?
  {
    if id != 0 && c.wp.getTerm(id).Some? then
      var inst := Build(c, ATerm(c.wp.getTerm(id).value));
      if Is(c, inst, inst.value.cls) then inst else None
    else None
  }

  /** `createFromGlobal()`: on a taxonomy, category or tag archive, the queried object; otherwise `null`. */
  function CreateFromGlobal(c: Ctx): (r: Option<TermInstance>)
    ensures !c.wp.isTermArchive ==> r.None?
    ensures r.Some? ==> c.wp.getTerm(c.wp.queriedObjectId) == Some(r.value.term)
  {
    if c.wp.isTermArchive then CreateFromId(c, c.wp.queriedObjectId) else None
  }

  /** `createFromSlug($slug, $taxonomy)`: the term with that slug in the given taxonomy, else the class taxonomy, looked up again by id. */
  function CreateFromSlug(c: Ctx, slug: string, taxonomy: Option<string>): (r: Option<TermInstance>)
    ensures c.wp.termBySlug(slug, taxonomy.GetOr(c.statics.taxonomy)).None? ==> r.None?
    ensures r.Some? ==>
      var t := c.wp.termBySlug(slug, taxonomy.GetOr(c.statics.taxonomy)).value;
      c.wp.getTerm(t.id) == Some(r.value.term)
  {
    match c.wp.termBySlug(slug, taxonomy.GetOr(c.statics.taxonomy))
    case None => None
    case Some(t) => CreateFromId(c, t.id)
  }

  /**
   * `create($id, …$args)`: numbers (and numeric strings) are ids, recognised
   * before strings; other strings are slugs; a `WP_Term` is built; an
   * instance is looked up again; `null` takes the global term, which a
   * truthy class taxonomy must match exactly; anything else is `null`.
   */
  function Create(c: Ctx, arg: TermArg, slugTaxonomy: Option<string>): (r: Option<TermInstance>)
    ensures arg.PlainArg? && IsNumeric(arg.v) ==> r == CreateFromId(c, NumericToInt(arg.v))
    ensures arg.PlainArg? && arg.v.Str? && !IsNumeric(arg.v) ==> r == CreateFromSlug(c, arg.v.s, slugTaxonomy)
    ensures arg.PlainArg? && arg.v.Null? ==>
      (r.Some? <==> CreateFromGlobal(c).Some? &&
                    (Truthy(Str(c.statics.taxonomy)) ==> CreateFromGlobal(c).value.term.taxonomy == c.statics.taxonomy))
    ensures arg.PlainArg? && arg.v.Null? && r.Some? ==> r == CreateFromGlobal(c)
    ensures arg.PlainArg? && (arg.v.Bool? || arg.v.Arr? || arg.v.Obj?) ==> r.None?
    ensures arg.WpTermArg? ==> r.Some? && r.value.term == arg.term && r == Build(c, ATerm(arg.term))
    ensures arg.InstanceArg? ==> r == CreateFromId(c, arg.instance.term.id)
  {
    match arg
    case PlainArg(v) =>
      if IsNumeric(v) then CreateFromId(c, NumericToInt(v))
      else if v.Str? then CreateFromSlug(c, v.s, slugTaxonomy)
      else if v.Null? then
        match CreateFromGlobal(c)
        case None => None
        case Some(inst) =>
          if Truthy(Str(c.statics.taxonomy)) then
            if inst.term.taxonomy == c.statics.taxonomy then Some(inst) else None
          else Some(inst)
      else None
    case WpTermArg(t) => Build(c, ATerm(t))
    case InstanceArg(inst) => CreateFromId(c, inst.term.id)
  }

  /** `create('7')` is an id lookup, never a slug lookup. */
  lemma CreateNumericString(c: Ctx, slugTaxonomy: Option<string>)
    ensures Create(c, PlainArg(Str("7")), slugTaxonomy) == CreateFromId(c, 7)
  {
    assert "7"[..0] == "";
    assert IsIntKey("7") && IntKeyValue("7") == 7;
    IntKeyIsNumeric("7");
  }

  /** The global term is checked against the class taxonomy with `===`, even in `QueryTerm`, whose `taxIn` is loose. */
  lemma GlobalTaxonomyExact(c: Ctx)
    requires c.flavor == QueryTermClass && c.statics.taxonomy == "01"
    requires c.wp.isTermArchive && c.wp.queriedObjectId != 0
    requires c.wp.getTerm(c.wp.queriedObjectId) == Some(WpTerm(c.wp.queriedObjectId, "1"))
    ensures CreateFromGlobal(c).Some?
    ensures Create(c, PlainArg(Null), None).None?
  {
    LooseWiderThanStrict();
    assert CreateFromId(c, c.wp.queriedObjectId).Some?;
    assert CreateFromGlobal(c).value.term.taxonomy == "1" != "01";
    assert Truthy(Str("01"));
  }

  // ---------------------------------------------------------------------
  // Query arguments
  // ---------------------------------------------------------------------

  /** The caller's arguments before the merge: the class taxonomy forced in when truthy, `hide_empty` filled when not set. */
  function FilledArgs(s: TermStatics, args: PArray): (r: PArray)
    ensures UniqueKeys(args) ==> UniqueKeys(r)
    ensures Truthy(Str(s.taxonomy)) ==> Get(r, "taxonomy") == Some(Str(s.taxonomy))
    ensures Get(r, "hide_empty") == if Isset(args, "hide_empty") then Get(args, "hide_empty") else Some(Bool(s.hideEmpty))
    ensures forall k | k != "hide_empty" && (k != "taxonomy" || !Truthy(Str(s.taxonomy))) :: Get(r, k) == Get(args, k)
  {
    var withTaxonomy := if Truthy(Str(s.taxonomy)) then Put(args, "taxonomy", Str(s.taxonomy)) else args;
    assert Get(withTaxonomy, "hide_empty") == Get(args, "hide_empty");
    if Isset(withTaxonomy, "hide_empty") then withTaxonomy else Put(withTaxonomy, "hide_empty", Bool(s.hideEmpty))
  }

  /**
   * `parseQueryArgs($args)`: a truthy class taxonomy overrides the
   * caller's; `hide_empty` is filled in only when not set; the result is
   * `array_merge`d over the default arguments.
   */
  function ParseQueryArgs(s: TermStatics, args: PArray): (r: PArray)
    ensures UniqueKeys(args) && UniqueKeys(s.defaultArgs) ==> Isset(r, "hide_empty")
    ensures UniqueKeys(args) && UniqueKeys(s.defaultArgs) && Truthy(Str(s.taxonomy)) ==> Get(r, "taxonomy") == Some(Str(s.taxonomy))
  {
    var filled := FilledArgs(s, args);
    var r := ArrayMerge(s.defaultArgs, filled);
    assert UniqueKeys(args) && UniqueKeys(s.defaultArgs) ==>
      Isset(r, "hide_empty") && (Truthy(Str(s.taxonomy)) ==> Get(r, "taxonomy") == Some(Str(s.taxonomy))) by {
      if UniqueKeys(args) && UniqueKeys(s.defaultArgs) {
        LetterKeyNotInt("hide_empty");
        LetterKeyNotInt("taxonomy");
        ArrayMergeStringKey(s.defaultArgs, filled, "hide_empty");
        ArrayMergeStringKey(s.defaultArgs, filled, "taxonomy");
      }
    }
    r
  }

  /**
   * The keys `parseQueryArgs` produces: `taxonomy` is forced by a truthy
   * class taxonomy; a caller's non-null `hide_empty` is kept and a
   * missing one gets the class value; every other string key comes from
   * the caller when present, else from the defaults.
   */
  lemma ParseQueryArgsKeys(s: TermStatics, args: PArray, k: string)
    requires UniqueKeys(args) && UniqueKeys(s.defaultArgs) && !IsIntKey(k)
    ensures k == "taxonomy" && Truthy(Str(s.taxonomy)) ==> Get(ParseQueryArgs(s, args), k) == Some(Str(s.taxonomy))
    ensures k == "hide_empty" ==>
      Get(ParseQueryArgs(s, args), k) == if Isset(args, k) then Get(args, k) else Some(Bool(s.hideEmpty))
    ensures k != "hide_empty" && (k != "taxonomy" || !Truthy(Str(s.taxonomy))) ==>
      Get(ParseQueryArgs(s, args), k) == if KeyIn(args, k) then Get(args, k) else Get(s.defaultArgs, k)
  {
    ArrayMergeStringKey(s.defaultArgs, FilledArgs(s, args), k);
  }

  /** The query `fetchFromIds` runs: `include` through `parseQueryArgs`, even for no ids. */
  function IdsArgs(s: TermStatics, ids: PArray): PArray {
    ParseQueryArgs(s, [Entry("include", Arr(ids))])
  }

  /** The id query includes exactly the given ids and carries the class's `hide_empty`. */
  lemma IdsArgsKeys(s: TermStatics, ids: PArray)
    requires UniqueKeys(s.defaultArgs)
    ensures Get(IdsArgs(s, ids), "include") == Some(Arr(ids))
    ensures Get(IdsArgs(s, ids), "hide_empty") == Some(Bool(s.hideEmpty))
  {
    var args := [Entry("include", Arr(ids))];
    assert args[1..] == [];
    assert UniqueKeys(args);
    LetterKeyNotInt("include");
    LetterKeyNotInt("hide_empty");
    ParseQueryArgsKeys(s, args, "include");
    ParseQueryArgsKeys(s, args, "hide_empty");
  }

  // ---------------------------------------------------------------------
  // Fetching
  // ---------------------------------------------------------------------

  /**
   * `fetchFromWpTermQuery` as `TermQuery` writes it: each term is looked
   * up again by id, failures are skipped, and a restricting class
   * taxonomy keeps only instances that pass `taxIn`.
   */
  function FetchFromWpTermQuery(c: Ctx, terms: seq<WpTerm>): (r: seq<TermInstance>)
    ensures |r| <= |terms|
    ensures FiltersByTaxonomy(c.statics.taxonomy) ==> forall i | 0 <= i < |r| :: TaxIn(c.flavor, r[i], Str(c.statics.taxonomy))
    decreases |terms|
  {
    if terms == [] then []
    else
      var rest := FetchFromWpTermQuery(c, terms[1..]);
      match CreateFromId(c, terms[0].id)
      case None => rest
      case Some(inst) =>
        if FiltersByTaxonomy(c.statics.taxonomy) then
          if TaxIn(c.flavor, inst, Str(c.statics.taxonomy)) then [inst] + rest else rest
        else [inst] + rest
  }

  /**
   * The instances `createFromId` gives for the terms, in order, failures
   * dropped: no taxonomy filter. It has the shape of `QueryPost.Created`,
   * but runs over terms and term instances.
   */
  function Created(c: Ctx, terms: seq<WpTerm>): (r: seq<TermInstance>)
    ensures |r| <= |terms|
    decreases |terms|
  {
    if terms == [] then []
    else
      match CreateFromId(c, terms[0].id)
      case None => Created(c, terms[1..])
      case Some(inst) => [inst] + Created(c, terms[1..])
  }

  /** The taxonomy filter never removes anything: `createFromId` already applied it. */
  lemma {:induction false} FetchTaxonomyFilterRedundant(c: Ctx, terms: seq<WpTerm>)
    ensures FetchFromWpTermQuery(c, terms) == Created(c, terms)
    decreases |terms|
  {
    if terms != [] {
      FetchTaxonomyFilterRedundant(c, terms[1..]);
    }
  }

  /** Fetching preserves order: two runs of terms give their results concatenated. */
  lemma {:induction false} FetchAppend(c: Ctx, a: seq<WpTerm>, b: seq<WpTerm>)
    ensures FetchFromWpTermQuery(c, a + b) == FetchFromWpTermQuery(c, a) + FetchFromWpTermQuery(c, b)
    decreases |a|
  {
    if a != [] {
      assert (a + b)[1..] == a[1..] + b;
      FetchAppend(c, a[1..], b);
    } else {
      assert a + b == b;
    }
  }

  /** How `QueryTerm::fetchFromWpTermQuery` ends: a list that may hold `null`s, or an `Error` from `null->taxIn()`. */
  datatype RawFetch = Fetched(items: seq<Option<TermInstance>>) | NullMethodCall

  /**
   * `fetchFromWpTermQuery` as `QueryTerm` writes it: the result of
   * `createFromId` is used without a null check. Under a restricting
   * class taxonomy a failed lookup calls `taxIn` on `null`; otherwise the
   * `null` is appended to the results.
   */
  function FetchFromWpTermQueryAsWritten(c: Ctx, terms: seq<WpTerm>): (r: RawFetch)
    ensures r.Fetched? ==> |r.items| <= |terms|
    ensures !FiltersByTaxonomy(c.statics.taxonomy) ==> r.Fetched? && |r.items| == |terms|
    decreases |terms|
  {
    if terms == [] then Fetched([])
    else
      var inst := CreateFromId(c, terms[0].id);
      var rest := FetchFromWpTermQueryAsWritten(c, terms[1..]);
      if FiltersByTaxonomy(c.statics.taxonomy) then
        if inst.None? then NullMethodCall
        else if rest.NullMethodCall? then NullMethodCall
        else if TaxIn(c.flavor, inst.value, Str(c.statics.taxonomy)) then Fetched([inst] + rest.items)
        else rest
      else Fetched([inst] + rest.items)
  }

  /** Every item of a list, wrapped as present. */
  function Present(xs: seq<TermInstance>): (r: seq<Option<TermInstance>>)
    ensures |r| == |xs| && forall i | 0 <= i < |xs| :: r[i] == Some(xs[i])
  {
    seq(|xs|, i requires 0 <= i < |xs| => Some(xs[i]))
  }

  /** When every lookup succeeds, the version without a null check agrees with the one that has it. */
  lemma {:induction false} AsWrittenAgreesWhenAllFound(c: Ctx, terms: seq<WpTerm>)
    requires forall i | 0 <= i < |terms| :: CreateFromId(c, terms[i].id).Some?
    ensures FetchFromWpTermQueryAsWritten(c, terms) == Fetched(Present(FetchFromWpTermQuery(c, terms)))
    decreases |terms|
  {
    if terms != [] {
      assert CreateFromId(c, terms[0].id).Some?;
      forall i | 0 <= i < |terms[1..]|
        ensures CreateFromId(c, terms[1..][i].id).Some?
      {
        assert terms[1..][i] == terms[i + 1];
      }
      AsWrittenAgreesWhenAllFound(c, terms[1..]);
      PresentCons(CreateFromId(c, terms[0].id).value, FetchFromWpTermQuery(c, terms[1..]));
    }
  }

  lemma PresentCons(x: TermInstance, xs: seq<TermInstance>)
    ensures Present([x] + xs) == [Some(x)] + Present(xs)
  {
    assert Present([x] + xs)[1..] == Present(xs);
  }

  /** Under a restricting class taxonomy, one failed lookup anywhere ends the fetch in an `Error`. */
  lemma {:induction false} AsWrittenFailsOnMissing(c: Ctx, terms: seq<WpTerm>, j: nat)
    requires FiltersByTaxonomy(c.statics.taxonomy)
    requires j < |terms| && CreateFromId(c, terms[j].id).None?
    ensures FetchFromWpTermQueryAsWritten(c, terms) == NullMethodCall
    decreases |terms|
  {
    if j > 0 {
      assert terms[1..][j - 1] == terms[j];
      AsWrittenFailsOnMissing(c, terms[1..], j - 1);
    }
  }

  /** Without a restricting taxonomy, the list holds one entry per term: `null` exactly where the lookup failed. */
  lemma {:induction false} AsWrittenKeepsNulls(c: Ctx, terms: seq<WpTerm>)
    requires !FiltersByTaxonomy(c.statics.taxonomy)
    ensures FetchFromWpTermQueryAsWritten(c, terms).Fetched?
    ensures forall i | 0 <= i < |terms| :: FetchFromWpTermQueryAsWritten(c, terms).items[i] == CreateFromId(c, terms[i].id)
    decreases |terms|
  {
    if terms != [] {
      AsWrittenKeepsNulls(c, terms[1..]);
      var items := FetchFromWpTermQueryAsWritten(c, terms).items;
      assert forall i | 1 <= i < |terms| :: items[i] == FetchFromWpTermQueryAsWritten(c, terms[1..]).items[i - 1];
      assert forall i | 1 <= i < |terms| :: terms[i] == terms[1..][i - 1];
    }
  }

  /**
   * A `QueryTerm` restricted to `category` reading a query that returned a
   * `post_tag` term: as written the fetch ends in an `Error`, with the
   * null check it returns no terms.
   */
  lemma ForeignTermCrashes(c: Ctx, t: WpTerm)
    requires c.flavor == QueryTermClass && c.statics.taxonomy == "category"
    requires t.id != 0 && t.taxonomy == "post_tag" && c.wp.getTerm(t.id) == Some(t)
    ensures FetchFromWpTermQueryAsWritten(c, [t]) == NullMethodCall
    ensures FetchFromWpTermQuery(c, [t]) == []
  {
    assert FiltersByTaxonomy("category");
    assert !LooseEqualsString("post_tag", Str("category")) by {
      assert !IsNumericString("post_tag") by {
        assert WsEnd("post_tag", 0) == 0 && DigitEnd("post_tag", 0) == 0;
      }
      assert "post_tag"[0] != "category"[0];
    }
    assert !InArray("post_tag", [Str("category")], false);
    assert CreateFromId(c, t.id).None?;
    AsWrittenFailsOnMissing(c, [t], 0);
    assert [t][1..] == [];
  }

  /** A failed lookup among the terms: as written, under a restricting taxonomy, that is an `Error`. */
  predicate AnyMissing(c: Ctx, terms: seq<WpTerm>) {
    exists j | 0 <= j < |terms| :: CreateFromId(c, terms[j].id).None?
  }

  /**
   * The class's own `fetchFromWpTermQuery`, which `static::` reaches:
   * `QueryTerm`'s has no null check, `TermQuery`'s skips failed lookups.
   * The two agree when every lookup succeeds.
   */
  function FetchTerms(c: Ctx, terms: seq<WpTerm>): (r: RawFetch)
    ensures c.flavor.TermQueryClass? || !AnyMissing(c, terms) ==> r == Fetched(Present(FetchFromWpTermQuery(c, terms)))
    ensures c.flavor.QueryTermClass? && !FiltersByTaxonomy(c.statics.taxonomy) ==>
      r.Fetched? && |r.items| == |terms| && forall i | 0 <= i < |terms| :: r.items[i] == CreateFromId(c, terms[i].id)
    ensures c.flavor.QueryTermClass? && FiltersByTaxonomy(c.statics.taxonomy) && AnyMissing(c, terms) ==> r == NullMethodCall
  {
    if c.flavor.TermQueryClass? then Fetched(Present(FetchFromWpTermQuery(c, terms)))
    else
      var r := FetchFromWpTermQueryAsWritten(c, terms);
      assert !AnyMissing(c, terms) ==> r == Fetched(Present(FetchFromWpTermQuery(c, terms))) by {
        if !AnyMissing(c, terms) {
          AsWrittenAgreesWhenAllFound(c, terms);
        }
      }
      assert !FiltersByTaxonomy(c.statics.taxonomy) ==>
        r.Fetched? && forall i | 0 <= i < |terms| :: r.items[i] == CreateFromId(c, terms[i].id) by {
        if !FiltersByTaxonomy(c.statics.taxonomy) {
          AsWrittenKeepsNulls(c, terms);
        }
      }
      assert FiltersByTaxonomy(c.statics.taxonomy) && AnyMissing(c, terms) ==> r == NullMethodCall by {
        if FiltersByTaxonomy(c.statics.taxonomy) && AnyMissing(c, terms) {
          var j :| 0 <= j < |terms| && CreateFromId(c, terms[j].id).None?;
          AsWrittenFailsOnMissing(c, terms, j);
        }
      }
      r
  }

  /** `fetchFromIds($ids)`: the id query's results through the class's own fetch, run even when there are no ids. */
  function FetchFromIds(c: Ctx, ids: PArray): (r: RawFetch)
    ensures c.flavor.TermQueryClass? ==> r == Fetched(Present(FetchFromIdsCorrected(c, ids)))
    ensures c.flavor.QueryTermClass? && FiltersByTaxonomy(c.statics.taxonomy) && AnyMissing(c, c.wp.run(IdsArgs(c.statics, ids))) ==>
      r == NullMethodCall
  {
    FetchTerms(c, c.wp.run(IdsArgs(c.statics, ids)))
  }

  /** `fetchFromIds` with the null check: the instances the lookups give, failures dropped. */
  function FetchFromIdsCorrected(c: Ctx, ids: PArray): (r: seq<TermInstance>)
    ensures r == Created(c, c.wp.run(IdsArgs(c.statics, ids)))
  {
    FetchTaxonomyFilterRedundant(c, c.wp.run(IdsArgs(c.statics, ids)));
    FetchFromWpTermQuery(c, c.wp.run(IdsArgs(c.statics, ids)))
  }

  /** The terms `fetch($query)` reads: a `WP_Term_Query`'s, or those of a new query built from an array. */
  function QueriedTerms(c: Ctx, arg: FetchArg): seq<WpTerm> {
    match arg
    case QueryObject(terms) => terms
    case PlainQuery(v) => if v.Arr? then c.wp.run(ParseQueryArgs(c.statics, v.entries)) else []
  }

  /**
   * `fetch($query)`: an array is query arguments, a `WP_Term_Query` is
   * read, through the class's own fetch; anything else, `null` included,
   * gives `[]`.
   */
  function Fetch(c: Ctx, arg: FetchArg): (r: RawFetch)
    ensures arg.PlainQuery? && !arg.v.Arr? ==> r == Fetched([])
    ensures c.flavor.TermQueryClass? || !AnyMissing(c, QueriedTerms(c, arg)) ==> r == Fetched(Present(FetchCorrected(c, arg)))
    ensures c.flavor.QueryTermClass? && FiltersByTaxonomy(c.statics.taxonomy) && AnyMissing(c, QueriedTerms(c, arg)) ==>
      r == NullMethodCall
  {
    match arg
    case QueryObject(terms) => FetchTerms(c, terms)
    case PlainQuery(v) =>
      if v.Arr? then FetchTerms(c, c.wp.run(ParseQueryArgs(c.statics, v.entries))) else Fetched([])
  }

  /** `fetch` with the null check: the instances the lookups give for the queried terms, in order. */
  function FetchCorrected(c: Ctx, arg: FetchArg): (r: seq<TermInstance>)
    ensures r == Created(c, QueriedTerms(c, arg))
    ensures arg.PlainQuery? && !arg.v.Arr? ==> r == []
  {
    FetchTaxonomyFilterRedundant(c, QueriedTerms(c, arg));
    match arg
    case QueryObject(terms) => FetchFromWpTermQuery(c, terms)
    case PlainQuery(v) =>
      if v.Arr? then FetchFromWpTermQuery(c, c.wp.run(ParseQueryArgs(c.statics, v.entries))) else []
  }

  /** Reading a query object holding one foreign term: `QueryTerm::fetch` ends in an `Error`, the corrected fetch gives `[]`. */
  lemma FetchForeignTerm(c: Ctx, t: WpTerm)
    requires c.flavor == QueryTermClass && c.statics.taxonomy == "category"
    requires t.id != 0 && t.taxonomy == "post_tag" && c.wp.getTerm(t.id) == Some(t)
    ensures Fetch(c, QueryObject([t])) == NullMethodCall
    ensures FetchCorrected(c, QueryObject([t])) == []
  {
    ForeignTermCrashes(c, t);
  }
}

=== FILE: router.dfy ===
/**
 * The router: base-prefix normalisation and its memo, route and group
 * registration, strategy defaulting at dispatch, and the `parse_request`
 * hook's decision to emit the response or hand the request back to
 * WordPress (the status-100 sentinel). Route matching belongs to League
 * Route and FastRoute; the match is an input here.
 */
module Routing {
  import opened Wrappers
  import opened Text
  import opened Php
  import opened Http
  import opened Strategies

  /** A mapped route; `handler` names the callable, `strategy` is one the route selected for itself. */
  datatype Route = Route(verb: string, path: string, handler: nat, container: Option<Container>, strategy: Option<Strategy>)

  /** A route group: its prefix as given, its callback, and the container it received. */
  datatype Group = Group(prefix: string, callback: nat, container: Option<Container>)

  /**
   * The router's state: the stored base prefix and its memoised normal
   * form, the routes and groups in registration order, the container, and
   * the strategy.
   */
  datatype Router = Router(
    basePrefix: string,
    normalized: Option<string>,
    routes: seq<Route>,
    groups: seq<Group>,
    container: Option<Container>,
    strategy: Option<Strategy>)

  /**
   * The normal form of a base prefix: `''` for a falsy prefix, otherwise
   * `'/'` followed by the prefix stripped of slashes at both ends.
   */
  function NormalizePrefix(p: string): (r: string)
    ensures !Truthy(Str(p)) ==> r == ""
    ensures Truthy(Str(p)) ==> |r| >= 1 && r[0] == '/' && Stripped(p, '/', r[1..])
    ensures Truthy(Str(p)) ==> |r| >= 1 && r[0] == '/' && (|r| == 1 || (r[1] != '/' && r[|r| - 1] != '/'))
    ensures Truthy(Str(p)) && AllChar(p, '/') ==> r == "/"
  {
    if Truthy(Str(p)) then
      assert AllChar(p, '/') ==> SlashTrimmed(p) == "/" by {
        if AllChar(p, '/') {
          TrimAll(p, '/');
        }
      }
      SlashTrimmed(p)
    else ""
  }

  /**
   * A truthy prefix (neither `''` nor `'0'`) normalises to `'/'` and its
   * slash-stripped text, whichever way that text was found.
   */
  lemma NormalizePrefixValue(p: string, t: string)
    requires p != "" && p != "0" && Stripped(p, '/', t)
    ensures NormalizePrefix(p) == "/" + t
  {
    SlashTrimmedValue(p, t);
  }

  /** A leading slash is the only one a normalised prefix has: normalising again changes nothing. */
  lemma NormalizePrefixIdempotent(p: string)
    ensures NormalizePrefix(NormalizePrefix(p)) == NormalizePrefix(p)
  {
    var n := NormalizePrefix(p);
    if Truthy(Str(p)) {
      var t := Trim(p, '/');
      assert n == "/" + t;
      NormalizedIsFixed(t);
    }
  }

  /** `'/'` plus a slash-trimmed text is already in normal form. */
  lemma NormalizedIsFixed(t: string)
    requires t == [] || (t[0] != '/' && t[|t| - 1] != '/')
    ensures NormalizePrefix("/" + t) == "/" + t
  {
    assert ("/" + t)[0] == '/';
    assert "/" + t == ['/'] + t;
    TrimLeftCons(t, '/');
    TrimOfTrimmed(t, '/');
    assert TrimLeft(t, '/') == t;
  }

  /** `getBasePrefix()`: normalises on the first call and stores the result; later calls return the stored one. */
  function GetBasePrefix(r: Router): (res: (string, Router))
    ensures res.1.normalized == Some(res.0)
    ensures r.normalized.Some? ==> res == (r.normalized.value, r)
    ensures r.normalized.None? ==> res.0 == NormalizePrefix(r.basePrefix) && res.1 == r.(normalized := Some(res.0))
  {
    match r.normalized
    case Some(n) => (n, r)
    case None =>
      var n := NormalizePrefix(r.basePrefix);
      (n, r.(normalized := Some(n)))
  }

  /** `setBasePrefix($p)`: replaces the stored prefix only; the memo is left alone. */
  function SetBasePrefix(r: Router, p: string): (r': Router)
    ensures r'.basePrefix == p
    ensures r' == r.(basePrefix := p)
  {
    r.(basePrefix := p)
  }

  /** Once the prefix has been read, setting another one does not change what is read. */
  lemma BasePrefixMemoised(r: Router, p: string)
    ensures GetBasePrefix(SetBasePrefix(GetBasePrefix(r).1, p)).0 == GetBasePrefix(r).0
  {
  }

  /** Before the first read, the prefix last set is the one normalised. */
  lemma SetBeforeFirstRead(r: Router, p: string)
    requires r.normalized.None?
    ensures GetBasePrefix(SetBasePrefix(r, p)).0 == NormalizePrefix(p)
  {
  }

  /**
   * `map($method, $path, $handler)`: the route's path is the base prefix,
   * one slash, and the caller's path without its leading slashes; the
   * route gets the router's container and goes last in the route list.
   */
  function Map(r: Router, verb: string, path: string, handler: nat): (res: (Route, Router))
    ensures var prefix := GetBasePrefix(r).0;
      res.0.path == prefix + "/" + TrimLeft(path, '/') && res.0.verb == verb && res.0.handler == handler
    ensures res.0.container == r.container && res.0.strategy.None?
    ensures res.1.routes == r.routes + [res.0]
    ensures res.1.groups == r.groups && res.1.container == r.container && res.1.strategy == r.strategy
    ensures res.1.basePrefix == r.basePrefix && res.1.normalized == Some(GetBasePrefix(r).0)
  {
    var (prefix, r1) := GetBasePrefix(r);
    var route := Route(verb, prefix + "/" + TrimLeft(path, '/'), handler, r.container, None);
    (route, r1.(routes := r1.routes + [route]))
  }

  /** Leading slashes on the caller's path never matter: they collapse into the one the router adds. */
  lemma MapLeadingSlash(r: Router, verb: string, path: string, handler: nat)
    ensures Map(r, verb, "/" + path, handler) == Map(r, verb, path, handler)
  {
    assert "/" + path == ['/'] + path;
    TrimLeftCons(path, '/');
  }

  /** Right after the prefix comes exactly one slash. */
  lemma MapPathShape(r: Router, verb: string, path: string, handler: nat)
    ensures var prefix := GetBasePrefix(r).0;
      var p := Map(r, verb, path, handler).0.path;
      |p| > |prefix| && p[..|prefix|] == prefix && p[|prefix|] == '/' && (|p| == |prefix| + 1 || p[|prefix| + 1] != '/')
  {
    var prefix := GetBasePrefix(r).0;
    var t := TrimLeft(path, '/');
    var p := prefix + "/" + t;
    assert Map(r, verb, path, handler).0.path == p;
    assert p[..|prefix|] == prefix;
    assert p[|prefix|] == '/';
    if |p| > |prefix| + 1 {
      assert p[|prefix| + 1] == t[0];
    }
  }

  /** The caller's trailing slashes are kept. */
  lemma MapKeepsTrailingSlash(r: Router, verb: string, path: string, handler: nat)
    requires path != [] && path[|path| - 1] == '/' && TrimLeft(path, '/') != []
    ensures var p := Map(r, verb, path, handler).0.path;
      p[|p| - 1] == '/'
  {
    var t := TrimLeft(path, '/');
    var p := GetBasePrefix(r).0 + "/" + t;
    assert Map(r, verb, path, handler).0.path == p;
    assert p[|p| - 1] == t[|t| - 1];
  }

  /** `group($prefix, $callback)`: one group appended, with the prefix as given and the router's container. */
  function AddGroup(r: Router, prefix: string, callback: nat): (res: (Group, Router))
    ensures res.0 == Group(prefix, callback, r.container)
    ensures res.1.groups == r.groups + [res.0]
    ensures res.1.routes == r.routes && res.1.basePrefix == r.basePrefix && res.1.normalized == r.normalized
    ensures res.1.container == r.container && res.1.strategy == r.strategy
  {
    var g := Group(prefix, callback, r.container);
    (g, r.(groups := r.groups + [g]))
  }

  /** `->strategy($alias)` on a route: the route's own container decides, as `SelectStrategy` states. */
  function RouteStrategy(route: Route, alias: string): (r: Result<Route, StrategyError>)
    ensures r.Ok? <==> SelectStrategy(StrategyAware(route.container, route.strategy), alias).Ok?
    ensures r.Ok? ==> r.value == route.(strategy := SelectStrategy(StrategyAware(route.container, route.strategy), alias).value.strategy)
    ensures r.Err? ==> r.error == SelectStrategy(StrategyAware(route.container, route.strategy), alias).error
  {
    match SelectStrategy(StrategyAware(route.container, route.strategy), alias)
    case Ok(s) => Ok(route.(strategy := s.strategy))
    case Err(e) => Err(e)
  }

  /** A route mapped on a router holding the provider's container can select the `wp-template` strategy; without a container it cannot. */
  lemma MappedRouteSelectsTemplate(r: Router, verb: string, path: string, handler: nat)
    ensures r.container == Some(ProviderContainer()) ==>
      RouteStrategy(Map(r, verb, path, handler).0, "wp-template") == Ok(Map(r, verb, path, handler).0.(strategy := Some(WpTemplateStrategy(V10, false))))
    ensures r.container.None? ==> RouteStrategy(Map(r, verb, path, handler).0, "wp-template") == Err(NoContainer)
  {
  }

  /** `dispatch()`'s first step: an `ApplicationStrategy` is installed only when no strategy is set. */
  function EnsureStrategy(r: Router): (r': Router)
    ensures r'.strategy.Some?
    ensures r.strategy.Some? ==> r' == r
    ensures r.strategy.None? ==> r' == r.(strategy := Some(ApplicationStrategy))
  {
    if r.strategy.None? then r.(strategy := Some(ApplicationStrategy)) else r
  }

  /**
   * What League's matcher found: a route and its variables, no route for
   * the path (404), or routes for the path under the listed methods only (405).
   */
  datatype Match = Found(route: Route, vars: PArray) | NotFound | NotAllowed(allowed: seq<string>)

  /** `implode(', ', $methods)`: the `Allow` header's value. */
  function AllowList(methods: seq<string>): string
    decreases |methods|
  {
    if |methods| == 0 then ""
    else if |methods| == 1 then methods[0]
    else methods[0] + ", " + AllowList(methods[1..])
  }

  /** The JSON object League writes for an HTTP exception: `{"status_code":…,"reason_phrase":"…"}`. */
  function JsonStatusBody(status: int, phrase: string): string {
    "{\"status_code\":" + IntToString(status) + ",\"reason_phrase\":\"" + phrase + "\"}"
  }

  /**
   * `HttpException::buildJsonResponse` for the not-found or not-allowed
   * exception, as League's JSON strategy answers an unmatched request: the
   * exception's own headers (`Allow` for 405), then the JSON content type,
   * and the status and reason phrase as a JSON body.
   */
  function UnmatchedJson(m: Match): (p: PsrResponse)
    requires !m.Found?
    ensures m.NotFound? ==> p.status == 404 && p.headers == JsonDefaults && p.body == JsonStatusBody(404, "Not Found")
    ensures m.NotAllowed? ==>
      p.status == 405 && p.headers == [HeaderLine("Allow", AllowList(m.allowed))] + JsonDefaults &&
      p.body == JsonStatusBody(405, "Method Not Allowed")
    ensures HasHeader(p, "content-type")
  {
    var p := match m
      case NotAllowed(methods) =>
        PsrResponse(405, [HeaderLine("Allow", AllowList(methods))] + JsonDefaults, JsonStatusBody(405, "Method Not Allowed"))
      case _ => PsrResponse(404, JsonDefaults, JsonStatusBody(404, "Not Found"));
    assert p.headers[|p.headers| - 1] == JsonDefaults[0];
    p
  }

  /** The strategy that runs a route: its own, else the router's. */
  function EffectiveStrategy(route: Route, r: Router): (s: Strategy)
    requires r.strategy.Some?
    ensures route.strategy.Some? ==> s == route.strategy.value
    ensures route.strategy.None? ==> s == r.strategy.value
  {
    route.strategy.GetOr(r.strategy.value)
  }

  /** The array League's JSON throwable handler encodes: `['status_code' => 500, 'reason_phrase' => $message]`. */
  function FailurePayload(message: string): Value {
    Arr([Entry("status_code", Int(500)), Entry("reason_phrase", Str(message))])
  }

  /**
   * League's JSON throwable handler, which wraps a matched route run by the
   * JSON strategy: a throw becomes a 500 response with the JSON content type
   * and the encoded status and message. If that encoding fails, writing
   * `false` to the body is itself a `TypeError`.
   */
  function CatchJson(res: Result<Invocation, Throwable>, json: Value -> Option<string>): (r: Result<Invocation, Throwable>)
    ensures res.Ok? ==> r == res
    ensures res.Err? && json(FailurePayload(res.error.message)).Some? ==>
      r.Ok? && r.value.hooks == [] && r.value.response.status == 500 &&
      r.value.response.headers == JsonDefaults && r.value.response.body == json(FailurePayload(res.error.message)).value
    ensures res.Err? && json(FailurePayload(res.error.message)).None? ==> r.Err? && r.error.AnError?
  {
    match res
    case Ok(_) => res
    case Err(t) =>
      match json(FailurePayload(t.message))
      case Some(text) => Ok(Invocation(PsrResponse(500, JsonDefaults, text), []))
      case None => Err(AnError(FalseContentMessage))
  }

  /**
   * `dispatch($request)`: default the strategy, then run the matched route's
   * handler through its strategy, inside the JSON throwable handler when
   * that strategy is the JSON one. An unmatched request goes to the
   * router's strategy: the JSON strategy answers it with a JSON error
   * response, the others throw the not-found or not-allowed exception.
   */
  function Dispatch(r: Router, request: PsrRequest, m: Match, controllers: nat -> Controller,
                    json: Value -> Option<string>, defaults: seq<HeaderLine>): (res: (Result<Invocation, Throwable>, Router))
    ensures res.1 == EnsureStrategy(r)
    ensures !m.Found? && EnsureStrategy(r).strategy.value.JsonStrategy? ==> res.0 == Ok(Invocation(UnmatchedJson(m), []))
    ensures m.NotFound? && !EnsureStrategy(r).strategy.value.JsonStrategy? ==> res.0 == Err(AnException("Not Found"))
    ensures m.NotAllowed? && !EnsureStrategy(r).strategy.value.JsonStrategy? ==> res.0 == Err(AnException("Method Not Allowed"))
    ensures m.Found? && !EffectiveStrategy(m.route, EnsureStrategy(r)).JsonStrategy? ==>
      res.0 == Invoke(EffectiveStrategy(m.route, EnsureStrategy(r)), controllers(m.route.handler), m.vars, request, json, defaults)
    ensures m.Found? && EffectiveStrategy(m.route, EnsureStrategy(r)).JsonStrategy? ==>
      res.0 == CatchJson(Invoke(JsonStrategy, controllers(m.route.handler), m.vars, request, json, defaults), json)
  {
    var r1 := EnsureStrategy(r);
    match m
    case Found(route, vars) =>
      var s := EffectiveStrategy(route, r1);
      var inv := Invoke(s, controllers(route.handler), vars, request, json, defaults);
      (if s.JsonStrategy? then CatchJson(inv, json) else inv, r1)
    case NotFound =>
      (if r1.strategy.value.JsonStrategy? then Ok(Invocation(UnmatchedJson(m), [])) else Err(AnException("Not Found")), r1)
    case NotAllowed(_) =>
      (if r1.strategy.value.JsonStrategy? then Ok(Invocation(UnmatchedJson(m), [])) else Err(AnException("Method Not Allowed")), r1)
  }

  /** What the `parse_request` hook ends in. */
  datatype Outcome =
    | Emitted(response: PsrResponse)  // sent, then `exit`
    | Deferred(hooks: seq<Hook>)      // status 100: WordPress carries on, with these hooks added
    | Swallowed                       // an `Exception` was caught; WordPress carries on
    | Crashed                         // an `Error` escaped the hook

  /** The hook's decision on a dispatch result: emit unless the status is 100; swallow exceptions only. */
  function Decide(res: Result<Invocation, Throwable>): (o: Outcome)
    ensures o.Emitted? <==> res.Ok? && res.value.response.status != 100
    ensures o.Emitted? ==> o.response == res.value.response
    ensures o.Deferred? <==> res.Ok? && res.value.response.status == 100
    ensures o.Deferred? ==> o.hooks == res.value.hooks
    ensures o.Swallowed? <==> res.Err? && res.error.AnException?
    ensures o.Crashed? <==> res.Err? && res.error.AnError?
  {
    match res
    case Ok(inv) => if inv.response.status != 100 then Emitted(inv.response) else Deferred(inv.hooks)
    case Err(AnException(_)) => Swallowed
    case Err(AnError(_)) => Crashed
  }

  /**
   * The `parse_request` closure: dispatch the global request (built from
   * `built` if there is none yet) and decide.
   */
  function ParseRequest(r: Router, g: Globals, built: Request, m: Match, controllers: nat -> Controller,
                        json: Value -> Option<string>, defaults: seq<HeaderLine>): (res: (Outcome, Router, Globals))
    ensures res.2 == GetFromGlobals(g, built).1 && res.1 == EnsureStrategy(r)
    ensures res.0 == Decide(Dispatch(r, PsrRequest(GetFromGlobals(g, built).0), m, controllers, json, defaults).0)
  {
    var (req, g1) := GetFromGlobals(g, built);
    var (d, r1) := Dispatch(r, PsrRequest(req), m, controllers, json, defaults);
    (Decide(d), r1, g1)
  }

  /** A route run by the WordPress template strategy is never emitted by the router: WordPress carries on. */
  lemma TemplateRouteDefers(r: Router, g: Globals, built: Request, route: Route, vars: PArray,
                            controllers: nat -> Controller, json: Value -> Option<string>, defaults: seq<HeaderLine>)
    requires EffectiveStrategy(route, EnsureStrategy(r)).WpTemplateStrategy?
    ensures ParseRequest(r, g, built, Found(route, vars), controllers, json, defaults).0.Deferred?
  {
  }

  /**
   * An unmatched request is emitted as the 404 or 405 JSON response when the
   * router's strategy is the JSON one; under any other strategy the
   * exception is swallowed and WordPress carries on.
   */
  lemma UnmatchedOutcome(r: Router, g: Globals, built: Request, m: Match,
                         controllers: nat -> Controller, json: Value -> Option<string>, defaults: seq<HeaderLine>)
    requires !m.Found?
    ensures EnsureStrategy(r).strategy.value.JsonStrategy? ==>
      ParseRequest(r, g, built, m, controllers, json, defaults).0 == Emitted(UnmatchedJson(m))
    ensures !EnsureStrategy(r).strategy.value.JsonStrategy? ==>
      ParseRequest(r, g, built, m, controllers, json, defaults).0 == Swallowed
  {
  }

  /**
   * A route run by the JSON strategy never hands WordPress an exception:
   * whatever its handler throws becomes a 500 JSON response, and the hook
   * fails with an `Error` exactly when encoding the message fails.
   */
  lemma JsonRouteNeverSwallowed(r: Router, g: Globals, built: Request, route: Route, vars: PArray,
                                controllers: nat -> Controller, json: Value -> Option<string>, defaults: seq<HeaderLine>)
    requires EffectiveStrategy(route, EnsureStrategy(r)).JsonStrategy?
    ensures !ParseRequest(r, g, built, Found(route, vars), controllers, json, defaults).0.Swallowed?
    ensures ParseRequest(r, g, built, Found(route, vars), controllers, json, defaults).0.Crashed? <==>
      var req := PsrRequest(GetFromGlobals(g, built).0);
      var t := InvokeJson(controllers(route.handler), vars, req, json);
      t.Err? && json(FailurePayload(t.error.message)).None?
  {
  }

  /** With no strategy set, a handler returning a string is emitted with status 200 and that body. */
  lemma DefaultStrategyEmitsString(r: Router, g: Globals, built: Request, route: Route, vars: PArray,
                                   controllers: nat -> Controller, json: Value -> Option<string>, defaults: seq<HeaderLine>, s: string)
    requires r.strategy.None? && route.strategy.None?
    requires controllers(route.handler)(BuildArgs(vars, PsrRequest(GetFromGlobals(g, built).0))) == Plain(Str(s))
    ensures ParseRequest(r, g, built, Found(route, vars), controllers, json, defaults).0.Emitted?
    ensures ParseRequest(r, g, built, Found(route, vars), controllers, json, defaults).0.response.status == 200
    ensures ParseRequest(r, g, built, Found(route, vars), controllers, json, defaults).0.response.body == s
  {
  }

  /** The `parse_request` registration: priority 0. */
  const ParseRequestHook: Hook := Hook(Action, "parse_request", 0, 1)

  /**
   * `new Router($collector, $container)`: keeps the container if one is
   * given, stores the global request's rewrite base as the base prefix,
   * and registers the `parse_request` hook.
   */
  function NewRouter(container: Option<Container>, appUrl: Option<string>, g: Globals, built: Request): (res: (Router, Globals, Hook))
    ensures res.0.basePrefix == RewriteBase(appUrl, GetFromGlobals(g, built).0)
    ensures res.0.normalized.None? && res.0.routes == [] && res.0.groups == [] && res.0.strategy.None?
    ensures res.0.container == container
    ensures res.1 == GetFromGlobals(g, built).1 && res.2 == ParseRequestHook
  {
    var (req, g1) := GetFromGlobals(g, built);
    (Router(RewriteBase(appUrl, req), None, [], [], container, None), g1, ParseRequestHook)
  }

  /** When `APP_URL` lies under the request's host, the router's first read of its prefix is the rewrite base itself. */
  lemma NewRouterPrefixFromAppUrl(container: Option<Container>, appUrl: string, g: Globals, built: Request)
    requires Truthy(Str(appUrl)) && StartsWith(appUrl, GetFromGlobals(g, built).0.schemeAndHost)
    ensures var r := NewRouter(container, Some(appUrl), g, built).0;
      GetBasePrefix(r).0 == r.basePrefix
  {
    var req := GetFromGlobals(g, built).0;
    var t := Trim(TakeLine(appUrl[|req.schemeAndHost|..]), '/');
    assert RewriteBase(Some(appUrl), req) == "/" + t;
    NormalizedIsFixed(t);
  }
}

=== FILE: strategy.dfy ===
/**
 * Route strategies: how a matched route's handler is called and how what
 * it returns becomes a PSR-7 response (`ApplicationStrategy`,
 * `JsonStrategy`), the WordPress template strategy that answers with the
 * status-100 "defer to WordPress" sentinel and registers hooks instead, and
 * strategy selection by alias through the container.
 */
module Strategies {
  import opened Wrappers
  import opened Php
  import opened Http

  datatype Version = V10 | V11

  /** The strategies the service provider registers. */
  datatype Strategy =
    | ApplicationStrategy
    | JsonStrategy
    | WpTemplateStrategy(version: Version, wpQueryDisabled: bool)

  /**
   * What PHP can throw, with its message: an `Exception` (the router's hook
   * catches these) or an `Error` such as `TypeError` (it does not).
   */
  datatype Throwable = AnException(message: string) | AnError(message: string)

  /**
   * The message of the `TypeError` that `false` content raises. PHP writes
   * it; the model does not reproduce its text.
   */
  const FalseContentMessage: string := "TypeError: false given as response content"

  // ---------------------------------------------------------------------
  // Selection by alias (StrategyAwareTrait, RoutingServiceProvider)
  // ---------------------------------------------------------------------

  /** The dependency-injection container, reduced to the strategies it can build, by service id. */
  datatype Container = Container(entries: map<string, Strategy>)

  function StrategyId(alias: string): string {
    "routing.strategy." + alias
  }

  datatype StrategyError =
    | NoContainer                    // RuntimeException
    | AliasNotManaged(alias: string) // InvalidArgumentException

  /** The state `StrategyAwareTrait` works on: the host's container and strategy. */
  datatype StrategyAware = StrategyAware(container: Option<Container>, strategy: Option<Strategy>)

  /**
   * `strategy($alias)`: the container is checked first, then the alias;
   * on success the strategy becomes the container's entry for the alias.
   */
  function SelectStrategy(s: StrategyAware, alias: string): (r: Result<StrategyAware, StrategyError>)
    ensures s.container.None? <==> r == Err(NoContainer)
    ensures (s.container.Some? && StrategyId(alias) !in s.container.value.entries) <==> r == Err(AliasNotManaged(alias))
    ensures r.Ok? ==> r.value.container == s.container && r.value.strategy == Some(s.container.value.entries[StrategyId(alias)])
  {
    match s.container
    case None => Err(NoContainer)
    case Some(c) =>
      if StrategyId(alias) !in c.entries then Err(AliasNotManaged(alias))
      else Ok(s.(strategy := Some(c.entries[StrategyId(alias)])))
  }

  /** The container after `RoutingServiceProvider::registerStrategies()`. */
  function ProviderContainer(): (c: Container)
    ensures |c.entries| == 3
  {
    Container(map[
      StrategyId("app") := ApplicationStrategy,
      StrategyId("json") := JsonStrategy,
      StrategyId("wp-template") := WpTemplateStrategy(V10, false)])
  }

  /** With the provider's container, exactly the aliases `app`, `json` and `wp-template` resolve. */
  lemma ProviderAliases(alias: string, current: Option<Strategy>)
    ensures SelectStrategy(StrategyAware(Some(ProviderContainer()), current), alias).Ok? <==> alias in {"app", "json", "wp-template"}
  {
    var p := "routing.strategy.";
    forall a | a in {"app", "json", "wp-template"} && StrategyId(alias) == StrategyId(a) ensures alias == a {
      AppendCancel(p, alias, a);
    }
  }

  lemma AppendCancel(p: string, a: string, b: string)
    requires p + a == p + b
    ensures a == b
  {
    assert a == (p + a)[|p|..];
    assert b == (p + b)[|p|..];
  }

  // ---------------------------------------------------------------------
  // Calling the handler and coercing its result
  // ---------------------------------------------------------------------

  /** One positional argument of the handler call. */
  datatype Arg = Positional(v: Value) | TheRequest(request: PsrRequest)

  /** What a handler returns (or throws). */
  datatype HandlerResult =
    | AppResponse(response: Response)  // the application's ResponseInterface
    | PsrResult(psr: PsrResponse)      // a PSR-7 response
    | Plain(v: Value)                  // anything else
    | Raised(t: Throwable)

  /** The controller `getCallable()` resolves: positional arguments to a result. */
  type Controller = seq<Arg> -> HandlerResult

  /** `array_values($route->getVars())` then `array_push($args, $request)`: the route variables in order, then the request. */
  function BuildArgs(vars: PArray, request: PsrRequest): (args: seq<Arg>)
    ensures |args| == |vars| + 1
    ensures forall i | 0 <= i < |vars| :: args[i] == Positional(vars[i].val)
    ensures args[|vars|] == TheRequest(request)
  {
    var values := Php.Values(vars);
    seq(|values|, i requires 0 <= i < |values| => Positional(values[i])) + [TheRequest(request)]
  }

  /** `ApplicationStrategy`'s coercion: responses convert, a string becomes the body, anything else an empty response. */
  function CoerceApplication(res: HandlerResult): (r: Result<PsrResponse, Throwable>)
    ensures res.Raised? <==> r.Err?
    ensures res.AppResponse? ==> r == Ok(ToPsr(res.response))
    ensures res.PsrResult? ==> r == Ok(res.psr)
    ensures res.Plain? && res.v.Str? ==> r.Ok? && r.value.status == 200 && r.value.body == res.v.s
    ensures res.Plain? && !res.v.Str? ==> r.Ok? && r.value.status == 200 && r.value.body == ""
  {
    match res
    case AppResponse(resp) => Ok(ToPsr(resp))
    case PsrResult(p) => Ok(p)
    case Plain(v) => Ok(if v.Str? then ToPsr(NewResponse(v.s)) else ToPsr(NewResponse("")))
    case Raised(t) => Err(t)
  }

  /** `ApplicationStrategy::invokeRouteCallable`: call, coerce, then apply the default headers on every path. */
  function InvokeApplication(controller: Controller, vars: PArray, request: PsrRequest, defaults: seq<HeaderLine>): (r: Result<PsrResponse, Throwable>)
    ensures r.Ok? <==> CoerceApplication(controller(BuildArgs(vars, request))).Ok?
    ensures r.Ok? ==>
      var c := CoerceApplication(controller(BuildArgs(vars, request))).value;
      r.value.status == c.status && r.value.body == c.body &&
      |c.headers| <= |r.value.headers| && r.value.headers[..|c.headers|] == c.headers &&
      (forall i | 0 <= i < |defaults| :: HasHeader(r.value, defaults[i].name)) &&
      OnlyMissing(c, r.value.headers[|c.headers|..], defaults)
  {
    match CoerceApplication(controller(BuildArgs(vars, request)))
    case Ok(p) => Ok(Decorate(p, defaults))
    case Err(t) => Err(t)
  }

  /** League's `isJsonSerializable`: arrays and objects. */
  predicate IsJsonSerializable(v: Value) {
    v.Arr? || v.Obj?
  }

  /**
   * `JsonStrategy`'s coercion: a serialisable value becomes a response whose
   * body is its JSON text; anything else (a string included) an empty
   * response. A `false` from `json_encode` reaches the `?string` content
   * parameter under strict types: a `TypeError`.
   */
  function CoerceJson(res: HandlerResult, json: Value -> Option<string>): (r: Result<PsrResponse, Throwable>)
    ensures res.AppResponse? ==> r == Ok(ToPsr(res.response))
    ensures res.PsrResult? ==> r == Ok(res.psr)
    ensures res.Plain? && IsJsonSerializable(res.v) && json(res.v).Some? ==> r.Ok? && r.value.status == 200 && r.value.body == json(res.v).value
    ensures res.Plain? && IsJsonSerializable(res.v) && json(res.v).None? ==> r == Err(AnError(FalseContentMessage))
    ensures res.Plain? && !IsJsonSerializable(res.v) ==> r.Ok? && r.value.status == 200 && r.value.body == ""
    ensures res.Raised? ==> r == Err(res.t)
  {
    match res
    case AppResponse(resp) => Ok(ToPsr(resp))
    case PsrResult(p) => Ok(p)
    case Plain(v) =>
      if IsJsonSerializable(v) then
        match json(v)
        case Some(text) => Ok(ToPsr(NewResponse(text)))
        case None => Err(AnError(FalseContentMessage))
      else Ok(ToPsr(NewResponse("")))
    case Raised(t) => Err(t)
  }

  /** The header `JsonStrategy` decorates every response with unless one of that name is present. */
  const JsonDefaults: seq<HeaderLine> := [HeaderLine("content-type", "application/json")]

  /** `JsonStrategy::invokeRouteCallable`: call, coerce, then decorate on every path. */
  function InvokeJson(controller: Controller, vars: PArray, request: PsrRequest, json: Value -> Option<string>): (r: Result<PsrResponse, Throwable>)
    ensures r.Ok? <==> CoerceJson(controller(BuildArgs(vars, request)), json).Ok?
    ensures r.Ok? ==> HasHeader(r.value, "content-type")
    ensures r.Ok? ==>
      var c := CoerceJson(controller(BuildArgs(vars, request)), json).value;
      r.value.status == c.status && r.value.body == c.body &&
      |c.headers| <= |r.value.headers| && r.value.headers[..|c.headers|] == c.headers &&
      OnlyMissing(c, r.value.headers[|c.headers|..], JsonDefaults)
  {
    match CoerceJson(controller(BuildArgs(vars, request)), json)
    case Ok(p) =>
      var r := Decorate(p, JsonDefaults);
      assert HasHeader(r, JsonDefaults[0].name);
      Ok(r)
    case Err(t) => Err(t)
  }

  /**
   * Under the JSON strategy, a response that already names a content type
   * keeps its headers as they are; one without gets `application/json`
   * appended and nothing else.
   */
  lemma JsonContentType(controller: Controller, vars: PArray, request: PsrRequest, json: Value -> Option<string>)
    requires CoerceJson(controller(BuildArgs(vars, request)), json).Ok?
    ensures var c := CoerceJson(controller(BuildArgs(vars, request)), json).value;
      var r := InvokeJson(controller, vars, request, json).value;
      (HasHeader(c, "content-type") ==> r.headers == c.headers) &&
      (!HasHeader(c, "content-type") ==> r.headers == c.headers + JsonDefaults)
  {
  }

  /** A handler returning a string under the JSON strategy gets an empty body: strings are not serialisable there. */
  lemma JsonDropsStrings(controller: Controller, vars: PArray, request: PsrRequest, json: Value -> Option<string>, s: string)
    requires controller(BuildArgs(vars, request)) == Plain(Str(s))
    ensures InvokeJson(controller, vars, request, json).Ok?
    ensures InvokeJson(controller, vars, request, json).value.body == ""
  {
  }

  // ---------------------------------------------------------------------
  // The WordPress template strategy
  // ---------------------------------------------------------------------

  /** The conditional-tag flags the strategy clears on the main query. */
  const WpQueryTags: seq<string> := [
    "is_single", "is_preview", "is_page", "is_archive", "is_date", "is_year", "is_month", "is_day",
    "is_time", "is_author", "is_category", "is_tag", "is_tax", "is_search", "is_feed", "is_comment_feed",
    "is_trackback", "is_home", "is_404", "is_embed", "is_paged", "is_admin", "is_attachment",
    "is_singular", "is_robots", "is_posts_page", "is_post_type_archive"]

  /**
   * The `WP_Query` fields the hook closures read and write: the tag flags
   * (`is_admin` among them), whether it is the main query, its query vars,
   * and its `query` property (`None` once unset).
   */
  datatype WpQuery = WpQuery(flags: map<string, bool>, isMain: bool, queryVars: PArray, query: Option<PArray>)

  predicate Flag(q: WpQuery, tag: string) {
    tag in q.flags && q.flags[tag]
  }

  /** The closures' guard: the main query outside the admin (1.0 tests the two in the other order, to the same effect). */
  predicate IsMainFrontQuery(q: WpQuery) {
    !Flag(q, "is_admin") && q.isMain
  }

  function ClearFlags(flags: map<string, bool>, tags: seq<string>): (r: map<string, bool>)
    ensures forall t | t in tags :: t in r && !r[t]
    ensures forall t | t !in tags :: (t in r <==> t in flags) && (t in flags ==> r[t] == flags[t])
    decreases |tags|
  {
    if tags == [] then flags else ClearFlags(flags[tags[0] := false], tags[1..])
  }

  /**
   * The `pre_get_posts` closure: on the main front query every listed tag
   * becomes false, the query vars become `fill_query_vars([])` (given as
   * `filled`) and `query` is unset; any other query is left alone.
   */
  function OnPreGetPosts(q: WpQuery, filled: PArray): (r: WpQuery)
    ensures IsMainFrontQuery(q) ==> forall t | t in WpQueryTags :: t in r.flags && !r.flags[t]
    ensures IsMainFrontQuery(q) ==> r.queryVars == filled && r.query.None? && r.isMain
    ensures IsMainFrontQuery(q) ==> forall t | t !in WpQueryTags && t in q.flags :: t in r.flags && r.flags[t] == q.flags[t]
    ensures !IsMainFrontQuery(q) ==> r == q
  {
    if IsMainFrontQuery(q) then WpQuery(ClearFlags(q.flags, WpQueryTags), q.isMain, filled, None) else q
  }

  /** Running the closure twice is running it once: the cleared query is still the main front query. */
  lemma OnPreGetPostsIdempotent(q: WpQuery, filled: PArray)
    ensures OnPreGetPosts(OnPreGetPosts(q, filled), filled) == OnPreGetPosts(q, filled)
  {
    var r := OnPreGetPosts(q, filled);
    if IsMainFrontQuery(q) {
      assert "is_admin" in WpQueryTags;
      ClearFlagsCleared(r.flags, WpQueryTags);
    }
  }

  /** Clearing flags that are already cleared changes nothing. */
  lemma {:induction false} ClearFlagsCleared(flags: map<string, bool>, tags: seq<string>)
    requires forall t | t in tags :: t in flags && !flags[t]
    ensures ClearFlags(flags, tags) == flags
    decreases |tags|
  {
    if tags != [] {
      assert flags[tags[0] := false] == flags;
      ClearFlagsCleared(flags, tags[1..]);
    }
  }

  /** The `wp` closure: on the main front query `is_404` becomes false, `query` becomes `[]`, and status 200 is sent. */
  function OnWp(q: WpQuery): (r: (WpQuery, Option<int>))
    ensures IsMainFrontQuery(q) ==> r.1 == Some(200) && "is_404" in r.0.flags && !r.0.flags["is_404"] && r.0.query == Some([])
    ensures IsMainFrontQuery(q) ==> forall t | t != "is_404" && t in q.flags :: t in r.0.flags && r.0.flags[t] == q.flags[t]
    ensures !IsMainFrontQuery(q) ==> r == (q, None)
  {
    if IsMainFrontQuery(q) then (q.(flags := q.flags["is_404" := false], query := Some([])), Some(200)) else (q, None)
  }

  /** The `posts_pre_query` filter: no posts for the main front query, the incoming value otherwise. */
  function OnPostsPreQuery(posts: Option<PArray>, q: WpQuery): (r: Option<PArray>)
    ensures IsMainFrontQuery(q) ==> r == Some([])
    ensures !IsMainFrontQuery(q) ==> r == posts
  {
    if IsMainFrontQuery(q) then Some([]) else posts
  }

  datatype HookKind = Action | Filter

  /** A registration with `add_action`/`add_filter`: hook name, priority and accepted argument count. */
  datatype Hook = Hook(kind: HookKind, name: string, priority: int, acceptedArgs: nat)

  /** The three hooks that suppress WordPress's own main query. */
  const SuppressionHooks: seq<Hook> := [
    Hook(Action, "pre_get_posts", 0, 1),
    Hook(Action, "wp", 10, 1),
    Hook(Filter, "posts_pre_query", 10, 2)]

  /** The hook branch 1.0 always adds: at `template_redirect` it runs the application strategy and sends. */
  const TemplateRedirectHook: Hook := Hook(Action, "template_redirect", 0, 1)

  /** An empty response with the sentinel status 100, decorated. */
  function Sentinel(defaults: seq<HeaderLine>): (r: PsrResponse)
    ensures r.status == 100 && r.body == ""
  {
    Decorate(WithStatus(ToPsr(NewResponse("")), 100), defaults)
  }

  /**
   * `WpTemplateStrategy::invokeRouteCallable`: never calls the handler;
   * registers the suppression hooks only when the WordPress query is
   * disabled (and, in 1.0, always the `template_redirect` hook), and
   * answers with the status-100 sentinel.
   */
  function InvokeWpTemplate(version: Version, wpQueryDisabled: bool, defaults: seq<HeaderLine>): (r: (PsrResponse, seq<Hook>))
    ensures r.0.status == 100
    ensures version == V11 ==> (r.1 == [] <==> !wpQueryDisabled)
    ensures version == V11 && wpQueryDisabled ==> r.1 == SuppressionHooks
    ensures version == V10 ==> |r.1| >= 1 && r.1[|r.1| - 1] == TemplateRedirectHook
    ensures version == V10 ==> r.1[..|r.1| - 1] == if wpQueryDisabled then SuppressionHooks else []
  {
    var suppress := if wpQueryDisabled then SuppressionHooks else [];
    var hooks := if version == V10 then suppress + [TemplateRedirectHook] else suppress;
    (Sentinel(defaults), hooks)
  }

  /** `disableWpQuery()`: sets the flag; doing it again changes nothing. */
  function DisableWpQuery(s: Strategy): (r: Strategy)
    requires s.WpTemplateStrategy?
    ensures r.WpTemplateStrategy? && r.wpQueryDisabled && r.version == s.version
    ensures s.wpQueryDisabled ==> r == s
  {
    s.(wpQueryDisabled := true)
  }

  // ---------------------------------------------------------------------
  // One entry point per strategy
  // ---------------------------------------------------------------------

  /** What `invokeRouteCallable` produces: a response and the hooks it registered. */
  datatype Invocation = Invocation(response: PsrResponse, hooks: seq<Hook>)

  /** `$strategy->invokeRouteCallable($route, $request)` for whichever strategy is set. */
  function Invoke(s: Strategy, controller: Controller, vars: PArray, request: PsrRequest,
                  json: Value -> Option<string>, defaults: seq<HeaderLine>): (r: Result<Invocation, Throwable>)
    ensures s.WpTemplateStrategy? ==> r.Ok? && r.value.response.status == 100
    ensures s.ApplicationStrategy? ==> r == (match InvokeApplication(controller, vars, request, defaults)
      case Ok(p) => Ok(Invocation(p, [])) case Err(t) => Err(t))
    ensures s.JsonStrategy? ==> r == (match InvokeJson(controller, vars, request, json)
      case Ok(p) => Ok(Invocation(p, [])) case Err(t) => Err(t))
  {
    match s
    case ApplicationStrategy =>
      (match InvokeApplication(controller, vars, request, defaults)
       case Ok(p) => Ok(Invocation(p, []))
       case Err(t) => Err(t))
    case JsonStrategy =>
      (match InvokeJson(controller, vars, request, json)
       case Ok(p) => Ok(Invocation(p, []))
       case Err(t) => Err(t))
    case WpTemplateStrategy(version, disabled) =>
      var (p, hooks) := InvokeWpTemplate(version, disabled, defaults);
      Ok(Invocation(p, hooks))
  }
}

=== FILE: template_fallback.dfy ===
/**
 * The WordPress template fallback controllers (`WpFallbackController` in
 * branch 1.1, `WpBaseController` in branch 1.0): WordPress's conditional
 * tags are tried in a fixed order; the first tag that holds and whose
 * handling yields a response wins, else a 404. Handling a tag prefers a
 * controller method named after the tag, then the tag's template (or the
 * index template), passed through the `template_include` filter and
 * rendered. WordPress's functions and the view engine are oracles.
 */
module TemplateFallback {
  import opened Wrappers
  import opened Text
  import opened Php
  import opened Http

  /** The conditional tags, in the order they are tried, each with the function that finds its template. */
  datatype TagGetter = TagGetter(tag: string, getter: string)

  const TagGetters: seq<TagGetter> := [
    TagGetter("is_embed", "get_embed_template"),
    TagGetter("is_404", "get_404_template"),
    TagGetter("is_search", "get_search_template"),
    TagGetter("is_front_page", "get_front_page_template"),
    TagGetter("is_home", "get_home_template"),
    TagGetter("is_privacy_policy", "get_privacy_policy_template"),
    TagGetter("is_post_type_archive", "get_post_type_archive_template"),
    TagGetter("is_tax", "get_taxonomy_template"),
    TagGetter("is_attachment", "get_attachment_template"),
    TagGetter("is_single", "get_single_template"),
    TagGetter("is_page", "get_page_template"),
    TagGetter("is_singular", "get_singular_template"),
    TagGetter("is_category", "get_category_template"),
    TagGetter("is_tag", "get_tag_template"),
    TagGetter("is_author", "get_author_template"),
    TagGetter("is_date", "get_date_template"),
    TagGetter("is_archive", "get_archive_template")]

  /** `array_keys($this->wpTemplateTags)`. */
  const TemplateTags: seq<string> := [
    "is_embed", "is_404", "is_search", "is_front_page", "is_home", "is_privacy_policy",
    "is_post_type_archive", "is_tax", "is_attachment", "is_single", "is_page", "is_singular",
    "is_category", "is_tag", "is_author", "is_date", "is_archive"]

  /** The two lists agree: the tags are the map's keys, in order. */
  lemma TemplateTagsAreKeys()
    ensures |TemplateTags| == |TagGetters|
    ensures forall i | 0 <= i < |TagGetters| :: TagGetters[i].tag == TemplateTags[i]
  {
  }

  function GetterIn(tag: string, gs: seq<TagGetter>): string
    decreases |gs|
  {
    if gs == [] then "" else if gs[0].tag == tag then gs[0].getter else GetterIn(tag, gs[1..])
  }

  /** `$this->wpTemplateTags[$tag]`: the template function registered for a tag. */
  function Getter(tag: string): string {
    GetterIn(tag, TagGetters)
  }

  /** What WordPress answers during one request. */
  datatype Wp = Wp(
    holds: string -> bool,             // the conditional tag functions (`is_404()`, …)
    templates: string -> string,       // the `get_*_template()` functions, by name
    indexTemplate: string,             // `get_index_template()`
    templateInclude: string -> string, // the `template_include` filter
    templateDirectory: string)         // `get_template_directory()`

  /**
   * The controller: its methods by lower-cased name (PHP method names are
   * case-insensitive) with what each returns (`None` for `null`), the
   * branch, and its parameters (passed to the view in branch 1.0 only).
   */
  datatype Version = V10 | V11
  datatype Controller = Controller(version: Version, methods: map<string, Option<Response>>, params: PArray)

  /** The view engine: renders a view name with data. */
  type Render = (string, PArray) -> string

  /** `$this->response($content, $status)`. */
  function MakeResponse(content: string, status: int): (r: Response)
    ensures r.status == status && r.content == content && r.headers == []
  {
    Response(status, [], content)
  }

  /** What `dispatch()` answers when no tag yields a response. */
  const Unavailable: Response := MakeResponse("Template unavailable", 404)

  // ---------------------------------------------------------------------
  // From template path to view name
  // ---------------------------------------------------------------------

  /** Index of the last `c` in `s`. */
  function LastIndex(s: string, c: char): (i: nat)
    requires c in s
    ensures i < |s| && s[i] == c && c !in s[i + 1..]
    decreases |s|
  {
    if s[|s| - 1] == c then |s| - 1
    else
      assert c in s[..|s| - 1] by {
        var k :| 0 <= k < |s| && s[k] == c;
        assert s[..|s| - 1][k] == c;
      }
      var i := LastIndex(s[..|s| - 1], c);
      assert s[i + 1..] == s[..|s| - 1][i + 1..] + [s[|s| - 1]];
      i
  }

  /** The last `c` is the only `c` with none after it. */
  lemma {:induction false} LastIndexUnique(s: string, c: char, k: nat)
    requires k < |s| && s[k] == c && c !in s[k + 1..]
    ensures LastIndex(s, c) == k
    decreases |s|
  {
    if k < |s| - 1 {
      assert s[k + 1..][|s| - k - 2] == s[|s| - 1];
      assert s[..|s| - 1][k] == c;
      assert s[..|s| - 1][k + 1..] == s[k + 1..|s| - 1];
      LastIndexUnique(s[..|s| - 1], c, k);
    }
  }

  /** `pathinfo($p, PATHINFO_FILENAME)`: the last path component up to its last dot. */
  function FileName(p: string): (r: string)
    ensures '/' !in r
    ensures '/' !in p && '.' !in p ==> r == p
  {
    var base := if '/' in p then p[LastIndex(p, '/') + 1..] else p;
    var r := if '.' in base then base[..LastIndex(base, '.')] else base;
    assert '/' !in base;
    assert forall k | 0 <= k < |r| :: r[k] == base[k];
    r
  }

  /** A directory and a `.php` file in it: the view name is the file's stem. */
  lemma FileNameOfTemplate(dir: string, stem: string)
    requires '/' !in stem && '.' !in stem
    ensures FileName(dir + "/" + stem + ".php") == stem
  {
    var p := dir + "/" + stem + ".php";
    var base := stem + ".php";
    assert p[|dir|] == '/';
    assert p[|dir| + 1..] == base;
    assert '/' !in base by {
      assert forall k | 0 <= k < |base| :: base[k] == if k < |stem| then stem[k] else ".php"[k - |stem|];
    }
    LastIndexUnique(p, '/', |dir|);
    assert base[|stem|] == '.';
    assert base[|stem| + 1..] == "php";
    LastIndexUnique(base, '.', |stem|);
    assert base[..|stem|] == stem;
  }

  /** `preg_replace('#dir#', '', $s)`: every occurrence of `d` removed, left to right; an empty `d` matches nothing worth removing. */
  function RemoveAll(s: string, d: string): (r: string)
    ensures |r| <= |s|
    decreases |s|
  {
    if d == [] || s == [] then s
    else if StartsWith(s, d) then RemoveAll(s[|d|..], d)
    else [s[0]] + RemoveAll(s[1..], d)
  }

  predicate Occurs(s: string, d: string) {
    exists i | 0 <= i <= |s| :: StartsWith(s[i..], d)
  }

  /** A text in which `d` never occurs is left as it is. */
  lemma {:induction false} RemoveAllAbsent(s: string, d: string)
    requires !Occurs(s, d)
    ensures RemoveAll(s, d) == s
    decreases |s|
  {
    if d != [] && s != [] {
      assert s[0..] == s;
      assert !StartsWith(s, d);
      assert !Occurs(s[1..], d) by {
        forall i | 0 <= i <= |s[1..]| ensures !StartsWith(s[1..][i..], d) {
          assert s[1..][i..] == s[i + 1..];
        }
      }
      RemoveAllAbsent(s[1..], d);
      assert s == [s[0]] + s[1..];
    }
  }

  /** The view a template path names: the template directory removed, then the file's stem. */
  function ViewName(template: string, directory: string): (r: string)
    ensures '/' !in r
  {
    FileName(RemoveAll(template, directory))
  }

  /** A template file directly in the template directory renders the view named by its stem. */
  lemma ViewNameOfTemplate(dir: string, stem: string)
    requires dir != [] && '/' !in stem && '.' !in stem
    requires !Occurs("/" + stem + ".php", dir)
    ensures ViewName(dir + "/" + stem + ".php", dir) == stem
  {
    var t := dir + "/" + stem + ".php";
    var rest := "/" + stem + ".php";
    assert t == dir + rest;
    assert StartsWith(t, dir);
    assert t[|dir|..] == rest;
    RemoveAllAbsent(rest, dir);
    assert rest == "" + "/" + stem + ".php";
    FileNameOfTemplate("", stem);
  }

  // ---------------------------------------------------------------------
  // One tag
  // ---------------------------------------------------------------------

  /** What handling one tag gives: a response or `null`, and whether it removed the `prepend_attachment` content filter. */
  datatype TagResult = TagResult(response: Option<Response>, unhookedAttachment: bool)

  /** The controller method a tag maps to, under PHP's case-insensitive method lookup. */
  function MethodKey(tag: string): string {
    LowerAscii(Camel(tag))
  }

  /** The template a tag uses: its own when that is truthy, the index template otherwise. */
  function ChosenTemplate(wp: Wp, tag: string): (t: string)
    ensures Truthy(Str(wp.templates(Getter(tag)))) ==> t == wp.templates(Getter(tag))
    ensures !Truthy(Str(wp.templates(Getter(tag)))) ==> t == wp.indexTemplate
  {
    var own := wp.templates(Getter(tag));
    if Truthy(Str(own)) then own else wp.indexTemplate
  }

  /**
   * The response `handleTag($tag)` gives: a matching method answers for
   * the tag; otherwise the chosen template goes through `template_include`,
   * and a truthy result is rendered (with the controller's parameters in
   * branch 1.0, none in 1.1) while a falsy one gives `null`.
   */
  function TagResponse(c: Controller, wp: Wp, render: Render, tag: string): (r: Option<Response>)
    ensures MethodKey(tag) in c.methods ==> r == c.methods[MethodKey(tag)]
    ensures MethodKey(tag) !in c.methods ==>
      (r.None? <==> !Truthy(Str(wp.templateInclude(ChosenTemplate(wp, tag)))))
    ensures MethodKey(tag) !in c.methods && r.Some? ==>
      var view := ViewName(wp.templateInclude(ChosenTemplate(wp, tag)), wp.templateDirectory);
      r.value == NewResponse(render(view, if c.version == V10 then c.params else []))
  {
    if MethodKey(tag) in c.methods then c.methods[MethodKey(tag)]
    else
      var template := wp.templateInclude(ChosenTemplate(wp, tag));
      if Truthy(Str(template)) then
        var data := if c.version == V10 then c.params else [];
        Some(NewResponse(render(ViewName(template, wp.templateDirectory), data)))
      else None
  }

  /** Whether handling `tag` removes the `prepend_attachment` filter, when that is done for the tag `unhookTag`. */
  predicate UnhooksWith(c: Controller, wp: Wp, tag: string, unhookTag: string) {
    MethodKey(tag) !in c.methods && Truthy(Str(wp.templates(Getter(tag)))) && unhookTag == tag
  }

  /** `handleTag` as written: the filter is removed for the tag `'attachment'`, which is not one of the tags. */
  function HandleTagAsWritten(c: Controller, wp: Wp, render: Render, tag: string): (r: TagResult)
    ensures r.response == TagResponse(c, wp, render, tag)
    ensures r.unhookedAttachment <==>
      tag == "attachment" && MethodKey(tag) !in c.methods && Truthy(Str(wp.templates(Getter(tag))))
    ensures tag in TemplateTags ==> !r.unhookedAttachment
  {
    assert tag in TemplateTags ==> tag != "attachment";
    TagResult(TagResponse(c, wp, render, tag), UnhooksWith(c, wp, tag, "attachment"))
  }

  /** `handleTag` as intended: the attachment tag is `is_attachment`, as in WordPress's template loader. */
  function HandleTag(c: Controller, wp: Wp, render: Render, tag: string): (r: TagResult)
    ensures r.response == TagResponse(c, wp, render, tag)
    ensures r.unhookedAttachment <==>
      tag == "is_attachment" && MethodKey(tag) !in c.methods && Truthy(Str(wp.templates("get_attachment_template")))
  {
    GetterOfAttachment();
    TagResult(TagResponse(c, wp, render, tag), UnhooksWith(c, wp, tag, "is_attachment"))
  }

  /** The lookup answers with the getter of the first entry for the tag. */
  lemma {:induction false} GetterInFirst(tag: string, gs: seq<TagGetter>, n: nat)
    requires n < |gs| && gs[n].tag == tag
    requires forall j | 0 <= j < n :: gs[j].tag != tag
    ensures GetterIn(tag, gs) == gs[n].getter
    decreases n
  {
    if n > 0 {
      GetterInFirst(tag, gs[1..], n - 1);
    }
  }

  lemma GetterOfAttachment()
    ensures Getter("is_attachment") == "get_attachment_template"
  {
    forall j | 0 <= j < 8
      ensures TagGetters[j].tag != "is_attachment"
    {
      assert TagGetters[j].tag[3] != 'a' || TagGetters[j].tag[4] != 't';
    }
    GetterInFirst("is_attachment", TagGetters, 8);
  }

  /** The two differ exactly when the attachment template exists and no method takes over: only the corrected one removes the filter. */
  lemma AttachmentFilterNeverRemoved(c: Controller, wp: Wp, render: Render)
    requires MethodKey("is_attachment") !in c.methods && Truthy(Str(wp.templates("get_attachment_template")))
    ensures !HandleTagAsWritten(c, wp, render, "is_attachment").unhookedAttachment
    ensures HandleTag(c, wp, render, "is_attachment").unhookedAttachment
  {
  }

  // ---------------------------------------------------------------------
  // The scan
  // ---------------------------------------------------------------------

  /** A tag answers when its condition holds and handling it yields a response. */
  predicate Answers(holds: string -> bool, handle: string -> TagResult, tag: string) {
    holds(tag) && handle(tag).response.Some?
  }

  /**
   * The scan over `tags`: the first tag that answers gives the response;
   * the filter removal of every tag handled along the way is kept.
   */
  function Scan(holds: string -> bool, handle: string -> TagResult, tags: seq<string>): (r: TagResult)
    ensures r.response.None? <==> forall i | 0 <= i < |tags| :: !Answers(holds, handle, tags[i])
    decreases |tags|
  {
    if tags == [] then TagResult(None, false)
    else
      var rest := Scan(holds, handle, tags[1..]);
      assert forall i | 1 <= i < |tags| :: tags[i] == tags[1..][i - 1];
      if !holds(tags[0]) then rest
      else
        var h := handle(tags[0]);
        if h.response.Some? then h
        else TagResult(rest.response, h.unhookedAttachment || rest.unhookedAttachment)
  }

  /** The scan answers with the first tag that answers. */
  lemma {:induction false} ScanFirstMatch(holds: string -> bool, handle: string -> TagResult, tags: seq<string>, k: nat)
    requires k < |tags| && Answers(holds, handle, tags[k])
    requires forall j | 0 <= j < k :: !Answers(holds, handle, tags[j])
    ensures Scan(holds, handle, tags).response == handle(tags[k]).response
    decreases k
  {
    if k > 0 {
      var rest := tags[1..];
      assert forall j | 0 <= j < k - 1 :: rest[j] == tags[j + 1];
      assert !Answers(holds, handle, tags[0]);
      ScanFirstMatch(holds, handle, rest, k - 1);
    }
  }

  /** The scan reports the filter removed only if some tag that holds removed it when handled. */
  lemma {:induction false} ScanUnhookWitness(holds: string -> bool, handle: string -> TagResult, tags: seq<string>)
    requires Scan(holds, handle, tags).unhookedAttachment
    ensures exists k | 0 <= k < |tags| :: holds(tags[k]) && handle(tags[k]).unhookedAttachment
    decreases |tags|
  {
    var rest := tags[1..];
    if !(holds(tags[0]) && handle(tags[0]).unhookedAttachment) {
      ScanUnhookWitness(holds, handle, rest);
      var k :| 0 <= k < |rest| && holds(rest[k]) && handle(rest[k]).unhookedAttachment;
      assert rest[k] == tags[k + 1];
    }
  }

  /** When no tag removes the filter, neither does the scan. */
  lemma ScanKeepsFilter(holds: string -> bool, handle: string -> TagResult, tags: seq<string>)
    requires forall i | 0 <= i < |tags| :: !handle(tags[i]).unhookedAttachment
    ensures !Scan(holds, handle, tags).unhookedAttachment
  {
    if Scan(holds, handle, tags).unhookedAttachment {
      ScanUnhookWitness(holds, handle, tags);
      assert false;
    }
  }

  /** A tag that holds and removes the filter, reached before any tag answers, leaves the filter removed. */
  lemma {:induction false} ScanUnhooksAt(holds: string -> bool, handle: string -> TagResult, tags: seq<string>, k: nat)
    requires k < |tags| && holds(tags[k]) && handle(tags[k]).unhookedAttachment
    requires forall j | 0 <= j < k :: !Answers(holds, handle, tags[j])
    ensures Scan(holds, handle, tags).unhookedAttachment
    decreases k
  {
    if k > 0 {
      var rest := tags[1..];
      assert forall j | 0 <= j < k - 1 :: rest[j] == tags[j + 1];
      assert !Answers(holds, handle, tags[0]);
      ScanUnhooksAt(holds, handle, rest, k - 1);
    }
  }

  /** Two handlers that give the same responses make the scan give the same response. */
  lemma {:induction false} ScanResponseAgree(holds: string -> bool, h1: string -> TagResult, h2: string -> TagResult, tags: seq<string>)
    requires forall t :: h1(t).response == h2(t).response
    ensures Scan(holds, h1, tags).response == Scan(holds, h2, tags).response
    decreases |tags|
  {
    if tags != [] {
      ScanResponseAgree(holds, h1, h2, tags[1..]);
    }
  }

  /** `handleTag` as written, as the function the scan calls. */
  function Handler(c: Controller, wp: Wp, render: Render): (h: string -> TagResult)
    ensures forall tag :: h(tag) == HandleTagAsWritten(c, wp, render, tag)
  {
    tag => HandleTagAsWritten(c, wp, render, tag)
  }

  /** The corrected `handleTag`, as the function the scan calls. */
  function HandlerCorrected(c: Controller, wp: Wp, render: Render): (h: string -> TagResult)
    ensures forall tag :: h(tag) == HandleTag(c, wp, render, tag)
  {
    tag => HandleTag(c, wp, render, tag)
  }

  /**
   * `dispatch()` as written: the first tag that answers gives the response,
   * else the 404 response; the attachment filter is never removed.
   */
  function Dispatch(c: Controller, wp: Wp, render: Render): (r: (Response, bool))
    ensures (forall i | 0 <= i < |TemplateTags| :: !Answers(wp.holds, Handler(c, wp, render), TemplateTags[i])) ==> r.0 == Unavailable
    ensures forall k | 0 <= k < |TemplateTags| && Answers(wp.holds, Handler(c, wp, render), TemplateTags[k]) &&
      (forall j | 0 <= j < k :: !Answers(wp.holds, Handler(c, wp, render), TemplateTags[j])) ::
      Some(r.0) == TagResponse(c, wp, render, TemplateTags[k])
    ensures !r.1
  {
    var handle := Handler(c, wp, render);
    var s := Scan(wp.holds, handle, TemplateTags);
    forall k | 0 <= k < |TemplateTags| && Answers(wp.holds, handle, TemplateTags[k]) &&
      (forall j | 0 <= j < k :: !Answers(wp.holds, handle, TemplateTags[j]))
      ensures s.response == TagResponse(c, wp, render, TemplateTags[k])
    {
      ScanFirstMatch(wp.holds, handle, TemplateTags, k);
    }
    AsWrittenScanKeepsFilter(c, wp, render);
    (s.response.GetOr(Unavailable), s.unhookedAttachment)
  }

  /** An attachment page whose attachment template exists and which no controller method takes over. */
  predicate AttachmentPage(c: Controller, wp: Wp) {
    wp.holds("is_attachment") && MethodKey("is_attachment") !in c.methods &&
    Truthy(Str(wp.templates("get_attachment_template")))
  }

  /** No tag scanned before `is_attachment` answers, so the scan reaches it. */
  predicate ReachesAttachment(c: Controller, wp: Wp, render: Render) {
    forall j | 0 <= j < 8 :: !Answers(wp.holds, Handler(c, wp, render), TemplateTags[j])
  }

  /** With the corrected handler, the scan removes the filter only on an attachment page. */
  lemma CorrectedScanUnhooksOnlyThere(c: Controller, wp: Wp, render: Render)
    requires Scan(wp.holds, HandlerCorrected(c, wp, render), TemplateTags).unhookedAttachment
    ensures AttachmentPage(c, wp)
  {
    var handle := HandlerCorrected(c, wp, render);
    ScanUnhookWitness(wp.holds, handle, TemplateTags);
    var k :| 0 <= k < |TemplateTags| && wp.holds(TemplateTags[k]) && handle(TemplateTags[k]).unhookedAttachment;
    assert TemplateTags[k] == "is_attachment";
  }

  lemma AttachmentTagIndex()
    ensures TemplateTags[8] == "is_attachment"
  {
  }

  /** The as-written and corrected handlers answer for the same tags. */
  lemma AnswersAlike(c: Controller, wp: Wp, render: Render, tag: string)
    ensures Answers(wp.holds, Handler(c, wp, render), tag) <==> Answers(wp.holds, HandlerCorrected(c, wp, render), tag)
  {
    assert Handler(c, wp, render)(tag).response == HandlerCorrected(c, wp, render)(tag).response;
  }

  /** With the corrected handler, the scan removes the filter once it reaches `is_attachment` on an attachment page. */
  lemma CorrectedScanUnhooksThere(c: Controller, wp: Wp, render: Render)
    requires AttachmentPage(c, wp) && ReachesAttachment(c, wp, render)
    ensures Scan(wp.holds, HandlerCorrected(c, wp, render), TemplateTags).unhookedAttachment
  {
    var handle := HandlerCorrected(c, wp, render);
    AttachmentTagIndex();
    assert handle(TemplateTags[8]).unhookedAttachment;
    forall j | 0 <= j < 8 ensures !Answers(wp.holds, handle, TemplateTags[j]) {
      AnswersAlike(c, wp, render, TemplateTags[j]);
    }
    ScanUnhooksAt(wp.holds, handle, TemplateTags, 8);
  }

  /** With the corrected handler, the scan removes the filter only on an attachment page, and does so once it reaches one. */
  lemma CorrectedScanUnhooks(c: Controller, wp: Wp, render: Render)
    ensures Scan(wp.holds, HandlerCorrected(c, wp, render), TemplateTags).unhookedAttachment ==> AttachmentPage(c, wp)
    ensures AttachmentPage(c, wp) && ReachesAttachment(c, wp, render) ==>
      Scan(wp.holds, HandlerCorrected(c, wp, render), TemplateTags).unhookedAttachment
  {
    if Scan(wp.holds, HandlerCorrected(c, wp, render), TemplateTags).unhookedAttachment {
      CorrectedScanUnhooksOnlyThere(c, wp, render);
    }
    if AttachmentPage(c, wp) && ReachesAttachment(c, wp, render) {
      CorrectedScanUnhooksThere(c, wp, render);
    }
  }

  /** As written, no scanned tag removes the filter, so the scan never does. */
  lemma AsWrittenScanKeepsFilter(c: Controller, wp: Wp, render: Render)
    ensures !Scan(wp.holds, Handler(c, wp, render), TemplateTags).unhookedAttachment
  {
    var handle := Handler(c, wp, render);
    forall i | 0 <= i < |TemplateTags| ensures !handle(TemplateTags[i]).unhookedAttachment {
      assert TemplateTags[i] in TemplateTags;
    }
    ScanKeepsFilter(wp.holds, handle, TemplateTags);
  }

  /**
   * `dispatch()` with the corrected `handleTag`: the same response as
   * written, and the attachment filter is removed only on an attachment
   * page, and always once the scan reaches `is_attachment` on one.
   */
  function DispatchCorrected(c: Controller, wp: Wp, render: Render): (r: (Response, bool))
    ensures r.0 == Dispatch(c, wp, render).0
    ensures r.1 ==> AttachmentPage(c, wp)
    ensures AttachmentPage(c, wp) && ReachesAttachment(c, wp, render) ==> r.1
  {
    var handle := HandlerCorrected(c, wp, render);
    var s := Scan(wp.holds, handle, TemplateTags);
    ScanResponseAgree(wp.holds, handle, Handler(c, wp, render), TemplateTags);
    CorrectedScanUnhooks(c, wp, render);
    (s.response.GetOr(Unavailable), s.unhookedAttachment)
  }

  /** The scan as a loop over the tag list, stopping at the first answer. */
  method ScanLoop(holds: string -> bool, handle: string -> TagResult, tags: seq<string>) returns (r: TagResult)
    ensures r == Scan(holds, handle, tags)
  {
    var unhooked := false;
    var i := 0;
    while i < |tags|
      invariant 0 <= i <= |tags|
      invariant Scan(holds, handle, tags).response == Scan(holds, handle, tags[i..]).response
      invariant Scan(holds, handle, tags).unhookedAttachment == (unhooked || Scan(holds, handle, tags[i..]).unhookedAttachment)
    {
      assert tags[i..][1..] == tags[i + 1..];
      if holds(tags[i]) {
        var h := handle(tags[i]);
        if h.response.Some? {
          return TagResult(h.response, unhooked || h.unhookedAttachment);
        }
        unhooked := unhooked || h.unhookedAttachment;
      }
      i := i + 1;
    }
    return TagResult(None, unhooked);
  }

  /** `dispatch()` as the loop it is written as, with `handleTag` as written. */
  method DispatchLoop(c: Controller, wp: Wp, render: Render) returns (response: Response, unhooked: bool)
    ensures (response, unhooked) == Dispatch(c, wp, render)
  {
    var s := ScanLoop(wp.holds, Handler(c, wp, render), TemplateTags);
    response := if s.response.Some? then s.response.value else Unavailable;
    unhooked := s.unhookedAttachment;
  }

  /** A controller with a method for the first tag that holds answers with that method's response whenever it gives one. */
  lemma MethodWins(c: Controller, wp: Wp, render: Render, r: Response)
    requires wp.holds("is_embed") && MethodKey("is_embed") in c.methods && c.methods[MethodKey("is_embed")] == Some(r)
    ensures Dispatch(c, wp, render).0 == r
  {
    assert Answers(wp.holds, Handler(c, wp, render), TemplateTags[0]);
  }
}

=== FILE: text.dfy ===
/**
 * String helpers that stand for the PHP built-ins the core relies on:
 * `ltrim`/`rtrim` with a single character, `explode`/`implode` on one
 * separator, `strtolower` on ASCII, decimal integer formatting and
 * Illuminate's `Str::camel`.
 */
module Text {

  /** `ltrim(s, c)`: drops every leading `c`. */
  function TrimLeft(s: string, c: char): (r: string)
    ensures |r| <= |s| && r == s[|s| - |r|..]
    ensures r == [] || r[0] != c
    ensures forall i | 0 <= i < |s| - |r| :: s[i] == c
    decreases |s|
  {
    if s != [] && s[0] == c then TrimLeft(s[1..], c) else s
  }

  /** `rtrim(s, c)`: drops every trailing `c`. */
  function TrimRight(s: string, c: char): (r: string)
    ensures |r| <= |s| && r == s[..|r|]
    ensures r == [] || r[|r| - 1] != c
    ensures forall i | |r| <= i < |s| :: s[i] == c
    decreases |s|
  {
    if s != [] && s[|s| - 1] == c then TrimRight(s[..|s| - 1], c) else s
  }

  /** Every character of `s` is `c`. */
  predicate AllChar(s: string, c: char)
    decreases |s|
  {
    s == [] || (s[0] == c && AllChar(s[1..], c))
  }

  /** `AllChar` says of every position what its recursion says of the first. */
  lemma {:induction false} AllCharIff(s: string, c: char)
    ensures AllChar(s, c) <==> forall x | 0 <= x < |s| :: s[x] == c
    decreases |s|
  {
    if s != [] {
      AllCharIff(s[1..], c);
      assert forall x | 1 <= x < |s| :: s[x] == s[1..][x - 1];
    }
  }

  /** `r` is the slice `s[i..j]`, no `c` at either end of it and only `c` outside it. */
  predicate StrippedAt(s: string, c: char, r: string, i: nat, j: nat) {
    && i <= j <= |s|
    && r == s[i..j]
    && (r == [] || (r[0] != c && r[|r| - 1] != c))
    && AllChar(s[..i], c)
    && AllChar(s[j..], c)
  }

  /**
   * `r` is `s` with its leading and trailing runs of `c` removed. At most
   * one `r` fits (`StrippedUnique`).
   */
  predicate Stripped(s: string, c: char, r: string) {
    exists i: nat, j: nat | i <= j <= |s| :: StrippedAt(s, c, r, i, j)
  }

  /** `trim(s, c)`, that is `rtrim(ltrim(s, c), c)`: both ends stripped of `c`. */
  function Trim(s: string, c: char): (r: string)
    ensures r == [] || (r[0] != c && r[|r| - 1] != c)
    ensures Stripped(s, c, r)
  {
    TrimLeftRightStripped(s, c);
    TrimRight(TrimLeft(s, c), c)
  }

  /** `rtrim(ltrim(s, c), c)` is the slice of `s` between its leading and trailing runs of `c`. */
  lemma TrimLeftRightStripped(s: string, c: char)
    ensures Stripped(s, c, TrimRight(TrimLeft(s, c), c))
  {
    var l := TrimLeft(s, c);
    var r := TrimRight(l, c);
    var i := |s| - |l|;
    assert r == s[i..i + |r|];
    AllCharIff(s[..i], c);
    var t := s[i + |r|..];
    assert AllChar(t, c) by {
      forall x | 0 <= x < |t| ensures t[x] == c {
        assert t[x] == l[|r| + x];
      }
      AllCharIff(t, c);
    }
    assert StrippedAt(s, c, r, i, i + |r|);
  }

  /** `ltrim` stops at the first character that is not `c`. */
  lemma {:induction false} TrimLeftStopsAt(s: string, c: char, i: nat)
    requires i <= |s| && AllChar(s[..i], c) && (i == |s| || s[i] != c)
    ensures TrimLeft(s, c) == s[i..]
    decreases i
  {
    if i > 0 {
      assert s[..i][0] == c;
      assert s[1..][..i - 1] == s[..i][1..];
      TrimLeftStopsAt(s[1..], c, i - 1);
      assert s[1..][i - 1..] == s[i..];
    }
  }

  /** `rtrim` stops at the last character that is not `c`. */
  lemma {:induction false} TrimRightStopsAt(s: string, c: char, j: nat)
    requires j <= |s| && AllChar(s[j..], c) && (j == 0 || s[j - 1] != c)
    ensures TrimRight(s, c) == s[..j]
    decreases |s| - j
  {
    if j < |s| {
      var p := s[..|s| - 1];
      AllCharIff(s[j..], c);
      AllCharIff(p[j..], c);
      assert s[j..][|s| - 1 - j] == c;
      assert p[j..] == s[j..][..|s| - 1 - j];
      TrimRightStopsAt(p, c, j);
      assert p[..j] == s[..j];
    }
  }

  /**
   * `'/' . rtrim(ltrim(s, '/'), '/')`: one slash, then `s` with its leading
   * and trailing slashes removed.
   */
  function SlashTrimmed(s: string): (r: string)
    ensures |r| >= 1 && r[0] == '/' && Stripped(s, '/', r[1..])
    ensures |r| == 1 || (r[1] != '/' && r[|r| - 1] != '/')
  {
    var t := Trim(s, '/');
    assert ("/" + t)[1..] == t;
    "/" + t
  }

  /** `SlashTrimmed(s)` is `'/'` and any slash-stripping of `s`. */
  lemma SlashTrimmedValue(s: string, t: string)
    requires Stripped(s, '/', t)
    ensures SlashTrimmed(s) == "/" + t
  {
    var r := SlashTrimmed(s);
    assert r == [r[0]] + r[1..];
    StrippedUnique(s, '/', r[1..], t);
  }

  /** An empty stripping leaves only `c` in `s`, which is what `Trim` turns into nothing. */
  lemma {:induction false} StrippedAtEmpty(s: string, c: char, i: nat, j: nat)
    requires StrippedAt(s, c, [], i, j)
    ensures Trim(s, c) == []
  {
    assert s == s[..i] + s[j..];
    AllCharIff(s[..i], c);
    AllCharIff(s[j..], c);
    assert AllChar(s, c) by {
      AllCharIff(s, c);
      forall x | 0 <= x < |s| ensures s[x] == c {
        if x < i {
          assert s[x] == s[..i][x];
        } else {
          assert s[x] == s[j..][x - j];
        }
      }
    }
    TrimAll(s, c);
  }

  /** A non-empty stripping begins where `ltrim` stops and ends where `rtrim` then stops. */
  lemma {:induction false} StrippedAtNonEmpty(s: string, c: char, r: string, i: nat, j: nat)
    requires r != [] && StrippedAt(s, c, r, i, j)
    ensures TrimRight(TrimLeft(s, c), c) == r
  {
    TrimLeftStopsAt(s, c, i);
    var l := s[i..];
    assert AllChar(l[j - i..], c) by {
      assert l[j - i..] == s[j..];
    }
    TrimRightStopsAt(l, c, j - i);
  }

  /** Any stripping of `s` is what `Trim` computes. */
  lemma StrippedIsTrim(s: string, c: char, r: string)
    requires Stripped(s, c, r)
    ensures r == Trim(s, c)
  {
    var i: nat, j: nat :| i <= j <= |s| && StrippedAt(s, c, r, i, j);
    if r == [] {
      StrippedAtEmpty(s, c, i, j);
    } else {
      StrippedAtNonEmpty(s, c, r, i, j);
      assert Trim(s, c) == TrimRight(TrimLeft(s, c), c);
    }
  }

  /** Two strippings of the same string by the same character agree. */
  lemma StrippedUnique(s: string, c: char, r1: string, r2: string)
    requires Stripped(s, c, r1) && Stripped(s, c, r2)
    ensures r1 == r2
  {
    StrippedIsTrim(s, c, r1);
    StrippedIsTrim(s, c, r2);
  }

  /** A string made only of `c` trims to nothing. */
  lemma TrimAll(s: string, c: char)
    requires AllChar(s, c)
    ensures Trim(s, c) == []
  {
    AllCharIff(s, c);
  }

  /** Trimming a string already free of `c` at both ends gives it back. */
  lemma {:induction false} TrimOfTrimmed(s: string, c: char)
    requires s == [] || (s[0] != c && s[|s| - 1] != c)
    ensures Trim(s, c) == s
  {
    assert TrimLeft(s, c) == s;
    assert TrimRight(s, c) == s;
  }

  /** One more leading `c` never changes what `TrimLeft` returns. */
  lemma TrimLeftCons(s: string, c: char)
    ensures TrimLeft([c] + s, c) == TrimLeft(s, c)
  {
    assert ([c] + s)[1..] == s;
  }

  /** One more trailing `c` never changes what `TrimRight` returns. */
  lemma TrimRightSnoc(s: string, c: char)
    ensures TrimRight(s + [c], c) == TrimRight(s, c)
  {
    assert (s + [c])[..|s|] == s;
  }

  /** `strpos(s, p) === 0`: a literal, case-sensitive prefix test. */
  predicate StartsWith(s: string, p: string) {
    |p| <= |s| && s[..|p|] == p
  }

  /** Index of the first `c` in `s`. */
  function FirstIndex(s: string, c: char): (i: nat)
    requires c in s
    ensures i < |s| && s[i] == c && c !in s[..i]
  {
    if s[0] == c then 0 else FirstIndex(s[1..], c) + 1
  }

  /** `implode(sep, parts)` with a one-character separator. */
  function Join(parts: seq<string>, sep: char): string
    decreases |parts|
  {
    if |parts| == 0 then ""
    else if |parts| == 1 then parts[0]
    else parts[0] + [sep] + Join(parts[1..], sep)
  }

  /** `explode(sep, s)`: always at least one piece, none containing `sep`. */
  function Split(s: string, sep: char): (parts: seq<string>)
    ensures |parts| >= 1
    ensures forall i | 0 <= i < |parts| :: sep !in parts[i]
    ensures |parts| == 1 <==> sep !in s
    ensures |parts| == 1 ==> parts[0] == s
    ensures Join(parts, sep) == s
    decreases |s|
  {
    if sep !in s then [s]
    else
      var i := FirstIndex(s, sep);
      var rest := Split(s[i + 1..], sep);
      assert s == s[..i] + [sep] + s[i + 1..];
      [s[..i]] + rest
  }

  /** Splitting what `Join` built gives the parts back, when no part holds the separator. */
  lemma {:induction false} SplitJoin(parts: seq<string>, sep: char)
    requires |parts| >= 1
    requires forall i | 0 <= i < |parts| :: sep !in parts[i]
    ensures Split(Join(parts, sep), sep) == parts
    decreases |parts|
  {
    if |parts| > 1 {
      var s := Join(parts, sep);
      assert s == parts[0] + [sep] + Join(parts[1..], sep);
      assert sep in s by { assert s[|parts[0]|] == sep; }
      FirstIndexAfter(parts[0], sep, Join(parts[1..], sep));
      var i := FirstIndex(s, sep);
      assert s[..i] == parts[0];
      assert s[i + 1..] == Join(parts[1..], sep);
      assert Split(s, sep) == [parts[0]] + Split(Join(parts[1..], sep), sep);
      SplitJoin(parts[1..], sep);
      assert parts == [parts[0]] + parts[1..];
    }
  }

  /** The first `c` of `a + [c] + b` is the one after `a`, when `a` holds none. */
  lemma {:induction false} FirstIndexAfter(a: string, c: char, b: string)
    requires c !in a
    ensures c in a + [c] + b && FirstIndex(a + [c] + b, c) == |a|
    decreases |a|
  {
    var s := a + [c] + b;
    assert s[|a|] == c;
    if a != [] {
      assert s[0] == a[0];
      assert s[1..] == a[1..] + [c] + b;
      FirstIndexAfter(a[1..], c, b);
    }
  }

  /** Concatenation of a list of strings (`implode('', parts)`). */
  function Concat(parts: seq<string>): string
    decreases |parts|
  {
    if parts == [] then "" else parts[0] + Concat(parts[1..])
  }

  predicate IsUpperAscii(c: char) { 'A' <= c <= 'Z' }

  predicate IsLowerAscii(c: char) { 'a' <= c <= 'z' }

  function LowerChar(c: char): char {
    if IsUpperAscii(c) then (c as int + 32) as char else c
  }

  function UpperChar(c: char): char {
    if IsLowerAscii(c) then (c as int - 32) as char else c
  }

  /** `strtolower` on ASCII letters; every other character is kept. */
  function LowerAscii(s: string): (r: string)
    ensures |r| == |s|
    ensures forall i | 0 <= i < |s| :: !IsUpperAscii(r[i])
  {
    seq(|s|, i requires 0 <= i < |s| => LowerChar(s[i]))
  }

  /** The text before the first newline: what PCRE's `(.*)` captures without the `s` flag. */
  function TakeLine(s: string): (r: string)
    ensures StartsWith(s, r) && '\n' !in r
    ensures |r| < |s| ==> s[|r|] == '\n'
  {
    if '\n' in s then s[..FirstIndex(s, '\n')] else s
  }

  function UcFirst(w: string): string {
    if w == [] then w else [UpperChar(w[0])] + w[1..]
  }

  function LcFirst(w: string): string {
    if w == [] then w else [LowerChar(w[0])] + w[1..]
  }

  /** `-` and `_` become word breaks, as in `Str::studly`. */
  function SeparatorsToSpaces(s: string): string {
    seq(|s|, i requires 0 <= i < |s| => if s[i] == '-' || s[i] == '_' then ' ' else s[i])
  }

  /** `Str::camel`: words split on `-`, `_` and space, each capitalised, joined, first letter lowered. */
  function Camel(s: string): (r: string)
    ensures ' ' !in s && '-' !in s && '_' !in s ==> r == LcFirst(UcFirst(s))
  {
    var words := Split(SeparatorsToSpaces(s), ' ');
    var caps := seq(|words|, i requires 0 <= i < |words| => UcFirst(words[i]));
    if ' ' !in s && '-' !in s && '_' !in s then
      assert SeparatorsToSpaces(s) == s;
      assert caps == [UcFirst(s)];
      assert Concat(caps) == UcFirst(s) + Concat([]);
      LcFirst(Concat(caps))
    else
      LcFirst(Concat(caps))
  }

  predicate IsDigit(c: char) { '0' <= c <= '9' }

  predicate AllDigits(s: string) {
    forall i | 0 <= i < |s| :: IsDigit(s[i])
  }

  function DigitChar(d: nat): (c: char)
    requires d < 10
    ensures IsDigit(c) && c as int - '0' as int == d
  {
    ('0' as int + d) as char
  }

  /** The number a run of decimal digits denotes. */
  function DigitsValue(s: string): nat
    requires AllDigits(s)
    decreases |s|
  {
    if s == [] then 0 else DigitsValue(s[..|s| - 1]) * 10 + (s[|s| - 1] as int - '0' as int)
  }

  /** Decimal form of a natural number: digits only, no leading zero, denoting `n`. */
  function NatToString(n: nat): (r: string)
    ensures |r| >= 1 && AllDigits(r)
    ensures r[0] != '0' || r == "0"
    ensures DigitsValue(r) == n
    decreases n
  {
    if n < 10 then [DigitChar(n)]
    else
      var p := NatToString(n / 10);
      var r := p + [DigitChar(n % 10)];
      assert r[..|r| - 1] == p;
      r
  }

  /** `(string)$i` for an integer. */
  function IntToString(i: int): (r: string)
    ensures |r| >= 1
    ensures i >= 0 ==> r == NatToString(i)
    ensures i < 0 ==> r == "-" + NatToString(-i)
  {
    if i < 0 then "-" + NatToString(-i) else NatToString(i)
  }
}

=== FILE: url_encoding.dfy ===
/**
 * PHP's `rawurlencode`: the string's bytes (its UTF-8 form) are
 * percent-encoded as in section 2.1 of RFC 3986, upper-case hex, except
 * the unreserved characters of section 2.3 (`A-Z a-z 0-9 - . _ ~`), which
 * are kept. A strict decoder is given alongside as the inverse.
 */
module UrlEncoding {
  import opened Wrappers

  type Byte = b: int | 0 <= b < 256

  /** The UTF-8 bytes of one Unicode scalar value. */
  function Utf8Char(c: char): (bs: seq<Byte>)
    ensures 1 <= |bs| <= 4
    ensures (c as int < 0x80) <==> |bs| == 1
    ensures c as int < 0x80 ==> bs == [c as int]
  {
    var n := c as int;
    if n < 0x80 then [n]
    else if n < 0x800 then [0xC0 + n / 64, 0x80 + n % 64]
    else if n < 0x10000 then [0xE0 + n / 4096, 0x80 + (n / 64) % 64, 0x80 + n % 64]
    else [0xF0 + n / 262144, 0x80 + (n / 4096) % 64, 0x80 + (n / 64) % 64, 0x80 + n % 64]
  }

  /** The bytes of a PHP string written in UTF-8. */
  function Utf8(s: string): (bs: seq<Byte>)
    ensures |bs| >= |s|
    decreases |s|
  {
    if s == [] then [] else Utf8Char(s[0]) + Utf8(s[1..])
  }

  /** An ASCII string is its own byte string. */
  lemma {:induction false} Utf8Ascii(s: string)
    requires forall i | 0 <= i < |s| :: s[i] as int < 0x80
    ensures |Utf8(s)| == |s|
    ensures forall i | 0 <= i < |s| :: Utf8(s)[i] == s[i] as int
    decreases |s|
  {
    if s != [] {
      Utf8Ascii(s[1..]);
    }
  }

  /** The unreserved characters of section 2.3 of RFC 3986. */
  predicate IsUnreserved(c: char) {
    ('A' <= c <= 'Z') || ('a' <= c <= 'z') || ('0' <= c <= '9') || c == '-' || c == '.' || c == '_' || c == '~'
  }

  /** Every character an encoded string may contain: an unreserved one or the `%` escape marker. */
  predicate IsEncodedChar(c: char) {
    IsUnreserved(c) || c == '%'
  }

  const HexDigits: string := "0123456789ABCDEF"

  function HexDigit(d: int): (c: char)
    requires 0 <= d < 16
    ensures IsUnreserved(c) && ('0' <= c <= '9' || 'A' <= c <= 'F')
  {
    HexDigits[d]
  }

  /** The value of a hex digit of either case, or `None`. */
  function HexValue(c: char): (r: Option<int>)
    ensures r.Some? ==> 0 <= r.value < 16
  {
    if '0' <= c <= '9' then Some(c as int - '0' as int)
    else if 'A' <= c <= 'F' then Some(c as int - 'A' as int + 10)
    else if 'a' <= c <= 'f' then Some(c as int - 'a' as int + 10)
    else None
  }

  lemma HexValueOfDigit(d: int)
    requires 0 <= d < 16
    ensures HexValue(HexDigit(d)) == Some(d)
  {
  }

  /** The encoding of one byte: itself when it is an unreserved ASCII character, else `%XX`. */
  function EncodeByte(b: Byte): (r: string)
    ensures forall i | 0 <= i < |r| :: IsEncodedChar(r[i])
    ensures |r| == 1 || |r| == 3
  {
    if b < 0x80 && IsUnreserved(b as char) then [b as char]
    else ['%', HexDigit(b / 16), HexDigit(b % 16)]
  }

  function EncodeBytes(bs: seq<Byte>): (r: string)
    ensures forall i | 0 <= i < |r| :: IsEncodedChar(r[i])
    decreases |bs|
  {
    if bs == [] then ""
    else
      var h := EncodeByte(bs[0]);
      var t := EncodeBytes(bs[1..]);
      assert forall i | 0 <= i < |h + t| :: (h + t)[i] == if i < |h| then h[i] else t[i - |h|];
      h + t
  }

  /** `rawurlencode($s)`. */
  function RawUrlEncode(s: string): (r: string)
    ensures forall i | 0 <= i < |r| :: IsEncodedChar(r[i])
    ensures '"' !in r && ' ' !in r
  {
    EncodeBytes(Utf8(s))
  }

  /** A strict percent-decoder: unreserved characters stand for themselves, `%XX` for one byte, anything else fails. */
  function PercentDecode(t: string): Option<seq<Byte>>
    decreases |t|
  {
    if t == [] then Some([])
    else if t[0] == '%' then
      if |t| >= 3 && HexValue(t[1]).Some? && HexValue(t[2]).Some? then
        match PercentDecode(t[3..])
        case Some(rest) => Some([HexValue(t[1]).value * 16 + HexValue(t[2]).value] + rest)
        case None => None
      else None
    else if IsUnreserved(t[0]) then
      match PercentDecode(t[1..])
      case Some(rest) => Some([t[0] as int] + rest)
      case None => None
    else None
  }

  /** Decoding one encoded byte in front of decodable text gives the byte in front of that text's bytes. */
  lemma DecodeEncodeByte(b: Byte, t: string, rest: seq<Byte>)
    requires PercentDecode(t) == Some(rest)
    ensures PercentDecode(EncodeByte(b) + t) == Some([b] + rest)
  {
    var h := EncodeByte(b);
    if b < 0x80 && IsUnreserved(b as char) {
      assert (h + t)[0] == b as char;
      assert (h + t)[1..] == t;
    } else {
      HexValueOfDigit(b / 16);
      HexValueOfDigit(b % 16);
      assert (h + t)[0] == '%';
      assert (h + t)[1] == HexDigit(b / 16);
      assert (h + t)[2] == HexDigit(b % 16);
      assert (h + t)[3..] == t;
    }
  }

  /** Decoding undoes encoding, byte for byte. */
  lemma {:induction false} DecodeEncodeBytes(bs: seq<Byte>)
    ensures PercentDecode(EncodeBytes(bs)) == Some(bs)
    decreases |bs|
  {
    if bs != [] {
      DecodeEncodeBytes(bs[1..]);
      DecodeEncodeByte(bs[0], EncodeBytes(bs[1..]), bs[1..]);
      assert bs == [bs[0]] + bs[1..];
    }
  }

  /** `rawurldecode(rawurlencode($s))` gives back the string's bytes. */
  lemma DecodeRawUrlEncode(s: string)
    ensures PercentDecode(RawUrlEncode(s)) == Some(Utf8(s))
  {
    DecodeEncodeBytes(Utf8(s));
  }

  /** Unreserved ASCII text is left exactly as it is. */
  lemma {:induction false} RawUrlEncodeUnreserved(s: string)
    requires forall i | 0 <= i < |s| :: IsUnreserved(s[i])
    ensures RawUrlEncode(s) == s
    decreases |s|
  {
    if s != [] {
      RawUrlEncodeUnreserved(s[1..]);
      assert Utf8(s) == [s[0] as int] + Utf8(s[1..]);
      assert EncodeBytes(Utf8(s)) == EncodeByte(s[0] as int) + EncodeBytes(Utf8(s[1..]));
      assert s == [s[0]] + s[1..];
    }
  }
}

=== FILE: users.dfy ===
/**
 * User roles and the WordPress admin gate: `UserRoleManager` (identical in
 * the root source and branch 1.1) is a name-to-role registry, and
 * `WpAdminMiddleware` lets a request through only for a logged-in
 * administrator. The WordPress user lookup is an input.
 */
module Users {
  import opened Wrappers
  import opened Php
  import opened Http

  /** A role factory: one built by the manager from a name and arguments, or an instance the caller supplied. */
  datatype RoleFactory =
    | BuiltFactory(name: string, args: PArray)
    | GivenFactory(id: nat)

  /** The `$args` of `register`: a factory instance, or any other PHP value. */
  datatype RoleArgs = AFactory(factory: RoleFactory) | AValue(v: Value)

  /** The manager's `$roles`, by name. */
  datatype RoleManager = RoleManager(roles: map<string, RoleFactory>)

  const NoRoles: RoleManager := RoleManager(map[])

  /** `get($name)`: the registered role, or `null`. */
  function GetRole(m: RoleManager, name: string): (r: Option<RoleFactory>)
    ensures r.Some? <==> name in m.roles
    ensures r.Some? ==> r.value == m.roles[name]
  {
    if name in m.roles then Some(m.roles[name]) else None
  }

  /** What `register` stores for `$args`: a factory as it is, an array wrapped as arguments, anything else wrapped with no arguments. */
  function RoleFor(name: string, args: RoleArgs): (f: RoleFactory)
    ensures args.AFactory? ==> f == args.factory
    ensures args.AValue? && args.v.Arr? ==> f == BuiltFactory(name, args.v.entries)
    ensures args.AValue? && !args.v.Arr? ==> f == BuiltFactory(name, [])
  {
    match args
    case AFactory(factory) => factory
    case AValue(v) => BuiltFactory(name, if v.Arr? then v.entries else [])
  }

  /** `register($name, $args)`: the entry for `name` is replaced; every other entry is kept. */
  function Register(m: RoleManager, name: string, args: RoleArgs): (r: RoleManager)
    ensures GetRole(r, name) == Some(RoleFor(name, args))
    ensures forall other | other != name :: GetRole(r, other) == GetRole(m, other)
    ensures r.roles.Keys == m.roles.Keys + {name}
  {
    RoleManager(m.roles[name := RoleFor(name, args)])
  }

  /** Registering a name twice keeps only the second registration. */
  lemma RegisterOverwrites(m: RoleManager, name: string, a1: RoleArgs, a2: RoleArgs)
    ensures Register(Register(m, name, a1), name, a2) == Register(m, name, a2)
  {
    assert Register(Register(m, name, a1), name, a2).roles == Register(m, name, a2).roles;
  }

  /** Registrations under different names commute. */
  lemma RegisterCommutes(m: RoleManager, n1: string, a1: RoleArgs, n2: string, a2: RoleArgs)
    requires n1 != n2
    ensures Register(Register(m, n1, a1), n2, a2) == Register(Register(m, n2, a2), n1, a1)
  {
    assert Register(Register(m, n1, a1), n2, a2).roles == Register(Register(m, n2, a2), n1, a1).roles;
  }

  // ---------------------------------------------------------------------
  // WpAdminMiddleware
  // ---------------------------------------------------------------------

  /** The middleware's `$allowedRoles`. */
  datatype AdminMiddleware = AdminMiddleware(allowedRoles: seq<string>)

  const DefaultAllowedRoles: seq<string> := ["editor", "administrator", "author"]

  /** `new WpAdminMiddleware($allowedRoles)`: an empty list keeps the defaults, any other replaces them. */
  function NewAdminMiddleware(allowedRoles: seq<string>): (m: AdminMiddleware)
    ensures allowedRoles == [] ==> m.allowedRoles == DefaultAllowedRoles
    ensures allowedRoles != [] ==> m.allowedRoles == allowedRoles
  {
    if allowedRoles != [] then SetAllowedRoles(AdminMiddleware(DefaultAllowedRoles), allowedRoles)
    else AdminMiddleware(DefaultAllowedRoles)
  }

  /** `setAllowedRoles($roles)`: replaces the list. */
  function SetAllowedRoles(m: AdminMiddleware, roles: seq<string>): (r: AdminMiddleware)
    ensures r.allowedRoles == roles
  {
    m.(allowedRoles := roles)
  }

  /** The WordPress user, reduced to its roles. */
  datatype WpUser = WpUser(roles: set<string>)

  /** What `wpUser(true)` does: return the current user, or throw a `ProxyThrowable`. */
  datatype UserLookup = UserFound(user: WpUser) | LookupThrew

  /** The message of the `ForbiddenException`. */
  const NotAllowed: string := "Sorry, this user is not allowed."

  /** How `process` ends: the handler's response, a `ForbiddenException`, or an `Error` from calling a method on `null`. */
  datatype Gate = Delegated(response: PsrResponse) | Forbidden(message: string) | NullUserError

  /**
   * `process` as written: a failed lookup leaves `$user` null, and a
   * logged-in request then calls `roleIn` on it.
   */
  function ProcessAsWritten(m: AdminMiddleware, loggedIn: bool, lookup: UserLookup, handled: PsrResponse): (g: Gate)
    ensures loggedIn && lookup.LookupThrew? ==> g == NullUserError
    ensures !(loggedIn && lookup.LookupThrew?) ==> g == Process(m, loggedIn, lookup, handled)
  {
    if !loggedIn then Forbidden(NotAllowed)
    else
      match lookup
      case LookupThrew => NullUserError
      case UserFound(u) => if "administrator" in u.roles then Delegated(handled) else Forbidden(NotAllowed)
  }

  /**
   * `process` as intended: the handler runs exactly for a logged-in user
   * found with the `administrator` role; every other request is
   * forbidden. The allowed-roles list is not consulted.
   */
  function Process(m: AdminMiddleware, loggedIn: bool, lookup: UserLookup, handled: PsrResponse): (g: Gate)
    ensures g.Delegated? <==> loggedIn && lookup.UserFound? && "administrator" in lookup.user.roles
    ensures g.Delegated? ==> g.response == handled
    ensures !g.Delegated? ==> g == Forbidden(NotAllowed)
  {
    if loggedIn && lookup.UserFound? && "administrator" in lookup.user.roles then Delegated(handled)
    else Forbidden(NotAllowed)
  }

  /** The gate ignores the configured roles: any two middlewares decide alike. */
  lemma AllowedRolesIgnored(m1: AdminMiddleware, m2: AdminMiddleware, loggedIn: bool, lookup: UserLookup, handled: PsrResponse)
    ensures Process(m1, loggedIn, lookup, handled) == Process(m2, loggedIn, lookup, handled)
    ensures ProcessAsWritten(m1, loggedIn, lookup, handled) == ProcessAsWritten(m2, loggedIn, lookup, handled)
  {
  }

  /** An editor, although listed among the default allowed roles, is forbidden. */
  lemma EditorForbidden(handled: PsrResponse)
    ensures "editor" in NewAdminMiddleware([]).allowedRoles
    ensures Process(NewAdminMiddleware([]), true, UserFound(WpUser({"editor"})), handled) == Forbidden(NotAllowed)
  {
  }

  /** A logged-in request whose user lookup throws ends in an `Error` as written, and in the `ForbiddenException` as intended. */
  lemma NullUserCrashes(m: AdminMiddleware, handled: PsrResponse)
    ensures ProcessAsWritten(m, true, LookupThrew, handled) == NullUserError
    ensures Process(m, true, LookupThrew, handled) == Forbidden(NotAllowed)
  {
  }
}

=== FILE: wrappers.dfy ===
/** Failure-compatible carriers shared by every module of the model. */
module Wrappers {

  /** A value that may be absent: PHP's `null` return, an unset key. */
  datatype Option<+T> = None | Some(value: T) {

    /** The carried value, or `default` when absent (PHP's `??`). */
    function GetOr(default: T): T {
      match this
      case Some(v) => v
      case None => default
    }
  }

  /** The outcome of an operation that may throw. */
  datatype Result<+T, +E> = Ok(value: T) | Err(error: E)
}
